=== FILE: README.md ===
# docatlas persistence core, modelled in Dafny

This project models the storage and rule-set core of docatlas, a Rust document
store, and proves properties of that model. It covers the following components:

- **Block** (`persist/block.rs`): a typed memory arena, optionally backed by a
  file. It comes with its builder, the process-wide registry of open paths,
  growth by `reserve`, and the typed slot views `as_ref` / `as_mut`.
- **PersistedUnsafeCell / PersistedCell**: one value kept in the base slot of a
  block.
- **PersistentVec**: a length-prefixed vector that lives entirely inside an
  arena. It supports `push` with its growth loop, `pop`, `remove`, `clear`,
  `retain`, `extend` and `into_iter`. It also offers:
  - `Drain`, which normalises bounds and consumes the rest of the range on drop;
  - `Split`, chunking by ceiling division;
  - `SplitMut`, with one access counter per chunk.
- **PersistedRawArray**: the alignment-offset and capacity arithmetic, and its
  grow-until-large-enough loop.
- **RawDiskArray / DiskVector** (`mem/`): an older file-backed array, and a vector
  that doubles its capacity as it grows.
- **Segments** (`index/segments.rs`):
  - the build validation;
  - the persist round trip;
  - the decoded-value cache;
  - the write-back `RefMut` with its dirty flag.
- **Schema**: field lookup by position and by name, the row size, range removal,
  and the fused iterator.
- **Authentication**:
  - the toolchain's first-success fold, which stops on a wrong password;
  - the administrator service's decision rule;
  - the key/lock API.
- **Identifiers**: id allocation, node lookup, and the display and equality of an
  `Id`.
- **Config merge strategies**: `override_if_value` and `override_default`.

The operating system is abstracted in three ways:

- Files are byte sequences keyed by path.
- A mapping is the byte sequence it shows.
- A failure of the operating system is an explicit input. For a block or segment
  mapping it is a `Fault` naming the first system call that refuses (open,
  length query, `set_len`, map); the calls before it take effect. Elsewhere it is
  a boolean `ioFails`.

Whatever cannot be computed in the model is passed in as a function parameter:

- the serializer (`encode` / `decode`);
- password verification (`verify`);
- a tumbler's verdict (`unlock`);
- the alignment offset of a block's base address (`alignOffset`);
- the byte size of a field kind (`kindSize`).

Every panic of the source on caller input is an explicit `Panic` outcome rather
than a precondition. This covers:

- `remove` past the end;
- a `drain` range out of order or out of bounds;
- a split size of 0;
- `Index` on a missing field;
- a `usize` subtraction below zero;
- an empty id-node name.

`persisted_vec.rs` is written against block methods that `block.rs` does not
define: `as_typed_ptr`, `assert_can_contain`, `T::size()` and `with_size(..).open(..)`.
The vector is therefore modelled over an abstract arena: a byte size, a header
word holding the length, and typed element slots that growth keeps as a prefix.
The cells see their block the same way, as a sequence of typed slots.

`capacity()` (persisted_vec.rs:75-80) returns bytes, not elements; see Findings.

## Model

| member | source | states |
|---|---|---|
| `Block.CreateMapping` | crates/docatlas-core/src/persist/block.rs:123-136 | Making a mapping of n bytes fails exactly when n is 0 (memmap refuses it), when the map call fails, or, on a path, when the open or the length query fails or `set_len` fails while the length differs. An anonymous mapping touches no file and shows zeros. On a path, a failed open changes no file; after the open the file exists and no other file changes; a failure before `set_len` leaves its bytes; once resized, the file is n bytes with its old prefix and zeros after it. A mapping shows the file's bytes. |
| `Block.MapRegion` | crates/docatlas-core/src/persist/block.rs:102-136 | The files end as making the mapping left them, success holds exactly when the mapping is not refused, and a failure is `IoError`. A built block has positive capacity and maps `size_of(capacity)` bytes: on a path the file resized (old prefix kept, zeros after) and the file replaced by the mapping; without a path all zeros and the world unchanged. |
| `Block.RefusedMapLeavesFile` | crates/docatlas-core/src/persist/block.rs:123-136 | When the map call fails on a fresh path, the build gives `IoError`, but the path stays registered and a zero-filled file of `size_of(capacity)` bytes is left behind. |
| `Block.ZeroCapacityRefused` | crates/docatlas-core/src/persist/block.rs:102-136 | A capacity of 0 is refused with `IoError`: an anonymous build changes nothing, and a build on a fresh path leaves an empty file there. |
| `Block.Build` | crates/docatlas-core/src/persist/block.rs:73-115 | A path already in the registry gives `PathAlreadyOpened` and changes nothing; otherwise the path is registered before any other check. Without a capacity: no path gives `MissingCapacity(true)`, a missing file gives `MissingCapacity(false)`, and an existing file gives capacity = file length / `size_of::<T>()`. Success holds exactly when the path is free, a capacity is known, and making the mapping is not refused. A failure other than `IoError` changes no file; an `IoError` leaves the files as the mapping steps left them. A built block has positive capacity and maps exactly `size_of(capacity)` bytes. |
| `Block.Drop` | crates/docatlas-core/src/persist/block.rs:254-263 | Dropping a file-backed block removes its path from the registry, touches no other path, and leaves the file holding the mapping. An anonymous block changes nothing. |
| `Block.Reserve` | crates/docatlas-core/src/persist/block.rs:234-251 | After `reserve(a)`, capacity is capacity + a and size is `size_of(capacity + a)`. The old mapping is the new mapping's prefix, the added bytes are zero, and the path is kept. |
| `Block.AsRef` | crates/docatlas-core/src/persist/block.rs:214-223 | The typed view has exactly `capacity` slots. Slot i is the i-th `size_of::<T>()`-byte run of the mapping. |
| `Block.WriteSlot` | crates/docatlas-core/src/persist/block.rs:219-223 | A write through `as_mut` to slot i makes slot i the new value and leaves every other slot as it was. |
| `Block.SinglePathOwnership` | crates/docatlas-core/src/persist/block.rs:286-306 | With a positive capacity, a second build on a path held by a live block fails with `PathAlreadyOpened`. Dropping the first block restores the registry, and the path can then be built again. |
| `Block.ReloadSlot` | crates/docatlas-core/src/persist/block.rs:308-336 | A value written to a slot is read back after the block is dropped and rebuilt on the same path with the same capacity. |
| `Block.Size` | crates/docatlas-core/src/persist/block.rs:193-196 | The mapping's length in bytes, which is `size_of(capacity)` for a well-formed block. |
| `Block.SizeAfterReserve` | crates/docatlas-core/src/persist/block.rs:234-251 | On a well-formed block, `reserve(a)` grows the mapping by exactly `size_of(a)` bytes. |
| `Block.Builder` | crates/docatlas-core/src/persist/block.rs:148-154 | A new builder has neither a path nor a capacity. |
| `Block.StoredAt` | crates/docatlas-core/src/persist/block.rs:47-50 | `stored_at(p)` sets the path to `p` and keeps the capacity. |
| `Block.WithCapacity` | crates/docatlas-core/src/persist/block.rs:53-56 | `with_capacity(c)` sets the capacity to `c` and keeps the path. |
| `Block.Slot` | crates/docatlas-core/src/persist/block.rs:203-217 | Slot i of the typed view is the `size_of::<T>()` bytes of the mapping starting at byte `size_of::<T>() * i`. |
| `Block.ReopenInfersCapacity` | crates/docatlas-core/src/persist/block.rs:84-100 | Reopening a dropped block's path without a capacity gives back the same block (whose capacity, being built, is positive): the capacity inferred from the file length is the old one, and the bytes are the same. |
| `Block.ReserveKeepsSlots` | crates/docatlas-core/src/persist/block.rs:357-384 | Every slot that existed before `reserve` holds the same value after it. |
| `Block.BlocksNew` | crates/docatlas-core/src/persist/block.rs:143-145 | As written, `Blocks.new()` gives neither path nor capacity, so `build` returns `MissingCapacity(true)` and the `unwrap` panics. |
| `Block.BlocksNewDefault` | crates/docatlas-core/src/persist/block.rs:270-284 | With the default capacity that its test expects, `Blocks.new()` builds an anonymous, well-formed block with 16 slots and leaves the registry alone. |
| `Block.FailedBuildLeaksPath` | crates/docatlas-core/src/persist/block.rs:74-99 | A build on a fresh path with no file and no capacity fails with `MissingCapacity(false)` but leaves the path registered. Every later build on that path then fails with `PathAlreadyOpened`. |
| `Block.BuildReleasingOnError` | crates/docatlas-core/src/persist/block.rs:74-100 | Gives the same result as `build`, but a failed build leaves the registry as it found it, and a successful one registers exactly its path. |
| `PersistedUnsafeCell.New` | crates/docatlas-core/src/persist/persisted_unsafe_cell.rs:11-18 | The value is stored in the block's base slot, read through `get`, and no other slot changes. |
| `PersistedUnsafeCell.NewIntoInner` | crates/docatlas-core/src/persist/persisted_unsafe_cell.rs:11-23 | `new(block, v).into_inner()` is `v`. |
| `PersistedUnsafeCell.GetAndGetMutAlias` | crates/docatlas-core/src/persist/persisted_unsafe_cell.rs:25-33 | `get` and `get_mut` designate the same slot: a write through either is what the other, and `into_inner`, read. |
| `PersistedUnsafeCell.Get` | crates/docatlas-core/src/persist/persisted_unsafe_cell.rs:25-28 | The pointer designates a slot inside the block; `New` stores the value there. |
| `PersistedUnsafeCell.GetMut` | crates/docatlas-core/src/persist/persisted_unsafe_cell.rs:30-33 | `get_mut` designates the same slot as `get`. |
| `PersistedUnsafeCell.IntoInner` | crates/docatlas-core/src/persist/persisted_unsafe_cell.rs:20-23 | `into_inner` reads the value in the slot `get` designates. |
| `PersistedCell.Get` | crates/docatlas-core/src/persist/persisted_cell.rs:50-55 | `get` copies out what the inner unsafe cell holds. |
| `PersistedCell.IntoInner` | crates/docatlas-core/src/persist/persisted_cell.rs:44-47 | `into_inner` is the value `get` returns. |
| `PersistedCell.New` | crates/docatlas-core/src/persist/persisted_cell.rs:14-18 | A new cell's `get` is the initial value, and the rest of the block is untouched. |
| `PersistedCell.WriteGetMut` | crates/docatlas-core/src/persist/persisted_cell.rs:21-23 | Writing through `get_mut` changes what `get` returns and nothing else in the block. |
| `PersistedCell.Set` | crates/docatlas-core/src/persist/persisted_cell.rs:26-30 | After `set(v)`, `get()` is `v`, and the rest of the block is untouched. |
| `PersistedCell.Swap` | crates/docatlas-core/src/persist/persisted_cell.rs:33-35 | Each cell ends with the other's value, and the rest of each block is untouched. |
| `PersistedCell.Replace` | crates/docatlas-core/src/persist/persisted_cell.rs:40-42 | Returns the previous value and stores the new one. |
| `PersistedCell.Take` | crates/docatlas-core/src/persist/persisted_cell.rs:60-62 | Returns the previous value and leaves `T::default()`. |
| `PersistedCell.SetThenGet` | crates/docatlas-core/src/persist/persisted_cell.rs:45-54 | What `set` stores is what both `get` and `into_inner` return. |
| `PersistedCell.GetMutIsSet` | crates/docatlas-core/src/persist/persisted_cell.rs:21-30 | A write through `get_mut` has exactly the effect of `set`. |
| `PersistedCell.SwapTwice` | crates/docatlas-core/src/persist/persisted_cell.rs:33-35 | Swapping twice restores both cells. |
| `PersistedCell.ReplaceUndo` | crates/docatlas-core/src/persist/persisted_cell.rs:40-42 | Putting back the value `replace` returned restores the cell exactly. |
| `PersistedCell.CellScenarios` | crates/docatlas-core/src/persist/persisted_cell.rs:76-100 | The swap, replace and take tests: 32/64 are exchanged, replace returns 32 and leaves 64, and take returns 32 and leaves 0. |
| `PersistentVec.New` | crates/docatlas-core/src/persist/persisted_vec.rs:44-53 | Panics unless the arena holds the length word. A vector created over an arena whose header holds n has length n and the arena's first n slots as its elements. |
| `PersistentVec.Len` | crates/docatlas-core/src/persist/persisted_vec.rs:105-108 | The length read from the header is the number of elements the vector holds. |
| `PersistentVec.Capacity` | crates/docatlas-core/src/persist/persisted_vec.rs:74-80 | The capacity is a number of bytes: divided by the element size it is the number of element slots. |
| `PersistentVec.SetLen` | crates/docatlas-core/src/persist/persisted_vec.rs:110-115 | `set_len(n)` makes `len()` n and leaves the slots and the arena size alone. |
| `PersistentVec.Reserve` | crates/docatlas-core/src/persist/persisted_vec.rs:83-87 | `reserve(n)` keeps the elements and adds at least n element slots. |
| `PersistentVec.Get` | crates/docatlas-core/src/persist/persisted_vec.rs:89-95 | An index of the slice view holds an element exactly below the length, and that element is the i-th one. |
| `PersistentVec.GrowForPushAsWritten` | crates/docatlas-core/src/persist/persisted_vec.rs:127-134 | The growth loop as written stops only once `len + 1` is below the byte capacity. It keeps the header and every existing slot. |
| `PersistentVec.PushAsWrittenOverruns` | crates/docatlas-core/src/persist/persisted_vec.rs:126-140 | Take 8-byte elements in an arena of one header word plus two slots, with length 2. The written loop leaves that arena unchanged, and the slot it then writes does not exist. |
| `PersistentVec.GrowForPush` | crates/docatlas-core/src/persist/persisted_vec.rs:127-134 | With the capacity counted in element slots, the loop ends with a free slot beyond `len`. It keeps the header and every existing slot. |
| `PersistentVec.Push` | crates/docatlas-core/src/persist/persisted_vec.rs:126-140 | The elements become `old ++ [v]`, the length grows by one, and a slot stays free. |
| `PersistentVec.Extend` | crates/docatlas-core/src/persist/persisted_vec.rs:300-306 | Extending with `xs` leaves the elements `old ++ xs`. |
| `PersistentVec.PushAll` | crates/docatlas-core/src/persist/persisted_vec.rs:300-306 | Pushing each element of `xs` in order leaves the elements `old ++ xs`. |
| `PersistentVec.Pop` | crates/docatlas-core/src/persist/persisted_vec.rs:143-153 | On an empty vector, returns `None` and changes nothing. Otherwise returns the last element and leaves `old[..len-1]`, with the slots untouched. |
| `PersistentVec.ShiftOut` | crates/docatlas-core/src/persist/persisted_vec.rs:168-180 | Moving the elements after index i down by one leaves `old[..i] ++ old[i+1..]`. |
| `PersistentVec.Remove` | crates/docatlas-core/src/persist/persisted_vec.rs:159-181 | `remove(i)` panics exactly when `i >= len`. Otherwise it returns `old[i]` and leaves `old[..i] ++ old[i+1..]`. |
| `PersistentVec.RemoveLastIsShift` | crates/docatlas-core/src/persist/persisted_vec.rs:164-166 | Removing the last element through `pop` gives the same result as the shifting path. |
| `PersistentVec.RemoveArbitrary` | crates/docatlas-core/src/persist/persisted_vec.rs:574-589 | On 0..5, `remove(1)` gives 1 and `remove(2)` then gives 3, leaving 0, 2, 4. |
| `PersistentVec.Clear` | crates/docatlas-core/src/persist/persisted_vec.rs:184-188 | Popping until `None` leaves length 0 and no elements. |
| `PersistentVec.FilterMembers` | crates/docatlas-core/src/persist/persisted_vec.rs:190-204 | The reference filter keeps exactly the elements that satisfy the predicate, and never more elements than there were. |
| `PersistentVec.Retain` | crates/docatlas-core/src/persist/persisted_vec.rs:193-204 | Walking the indices from last to first and removing the rejected ones leaves exactly the elements that satisfy the predicate, in their original order. |
| `PersistentVec.RetainEven` | crates/docatlas-core/src/persist/persisted_vec.rs:591-596 | Keeping the even numbers of 0..5 leaves 0, 2, 4. |
| `PersistentVec.PushPopLifo` | crates/docatlas-core/src/persist/persisted_vec.rs:537-546 | After pushing `xs`, as many pops return `xs` last first and restore the original elements. |
| `PersistentVec.IntoIter` | crates/docatlas-core/src/persist/persisted_vec.rs:273-279 | Popping to the back and pushing to the front of a queue yields the elements in their original order. |
| `PersistentVec.ReopenRecovers` | crates/docatlas-core/src/persist/persisted_vec.rs:619-639 | A vector created again over the arena after pushes reports the same length and elements. |
| `VecDrain.EndIndex` | crates/docatlas-core/src/persist/persisted_vec.rs:461-465 | An excluded end i becomes i - 1 and an unbounded end becomes len - 1. Each subtraction panics below zero. |
| `VecDrain.New` | crates/docatlas-core/src/persist/persisted_vec.rs:455-478 | Succeeds exactly when `start <= end < len`. Otherwise it panics with start-after-end, or with end-out-of-range. |
| `VecDrain.Next` | crates/docatlas-core/src/persist/persisted_vec.rs:484-491 | While elements remain, yields the element at `start` and removes it. Once none remain, yields `None` and changes nothing. |
| `VecDrain.Exhaust` | crates/docatlas-core/src/persist/persisted_vec.rs:484-498 | Calling `next` to the end yields `old[start..start+k]` in order and leaves `old[..start] ++ old[start+k..]`. |
| `VecDrain.Drop` | crates/docatlas-core/src/persist/persisted_vec.rs:494-498 | Dropping the drain removes whatever it had not yet yielded. |
| `VecDrain.DrainYieldsRange` | crates/docatlas-core/src/persist/persisted_vec.rs:455-498 | A drain yields `old[start..=end]` and leaves `old[..start] ++ old[end+1..]`. |
| `VecDrain.EarlyDropSameVector` | crates/docatlas-core/src/persist/persisted_vec.rs:494-498 | Dropping after any number of `next` calls leaves the same vector as draining completely. |
| `VecDrain.DrainInclusive` | crates/docatlas-core/src/persist/persisted_vec.rs:598-603 | On 0..5, `drain(1..=3)` yields 1, 2, 3. |
| `VecDrain.DrainExclusive` | crates/docatlas-core/src/persist/persisted_vec.rs:605-610 | On 0..5, `drain(1..3)` yields 1, 2. |
| `VecDrain.DrainFull` | crates/docatlas-core/src/persist/persisted_vec.rs:612-617 | On 0..5, `drain(..)` yields everything and leaves the vector empty. |
| `VecSplit.SplitCount` | crates/docatlas-core/src/persist/persisted_vec.rs:388-395 | The split count n covers the elements (`n*k >= len`), with no chunk to spare (`(n-1)*k < len`). A split size of 0 divides by zero. |
| `VecSplit.CeilingIsLeast` | crates/docatlas-core/src/persist/persisted_vec.rs:317-324 | The split count is the unique least number of k-chunks that covers len. |
| `VecSplit.Get` | crates/docatlas-core/src/persist/persisted_vec.rs:327-336 | Chunk i exists exactly when `i*k < len`. It is `src[i*k .. min(len, (i+1)*k)]`, at most k long, and non-empty when k > 0; with k = 0 every index gives an empty chunk once len > 0. |
| `VecSplit.ChunkExistsBelowCount` | crates/docatlas-core/src/persist/persisted_vec.rs:317-336 | `get(i)` is `Some` exactly for the indices below `len()`. |
| `VecSplit.ChunksCoverElements` | crates/docatlas-core/src/persist/persisted_vec.rs:343-352 | The chunks the split iterates, concatenated in order, are exactly the vector's elements. |
| `VecSplit.SplitScenario` | crates/docatlas-core/src/persist/persisted_vec.rs:641-652 | 1000 elements in chunks of 100 make 10 chunks, and chunk i starts with `i*100`. |
| `VecSplit.NewSplitMut` | crates/docatlas-core/src/persist/persisted_vec.rs:365-377 | There is one counter per chunk and every counter starts free. A split size of 0 divides by zero. |
| `VecSplit.Read` | crates/docatlas-core/src/persist/persisted_vec.rs:406-424 | A read is granted exactly when the chunk exists and its counter is at most 0. It then gives chunk i and lowers the counter by one; otherwise nothing changes. |
| `VecSplit.Write` | crates/docatlas-core/src/persist/persisted_vec.rs:427-443 | A write is granted exactly when the chunk exists and its counter is 0. It then gives chunk i and sets the counter to 1; otherwise nothing changes. |
| `VecSplit.WriteExcludes` | crates/docatlas-core/src/persist/persisted_vec.rs:427-443 | Once a writer holds a chunk, neither a reader nor a writer gets it. |
| `VecSplit.ReadSharesButExcludesWrite` | crates/docatlas-core/src/persist/persisted_vec.rs:406-424 | Once a reader holds a chunk, a writer does not get it, but another reader does. |
| `VecSplit.ChunksIndependent` | crates/docatlas-core/src/persist/persisted_vec.rs:406-443 | An access to one chunk never changes another chunk's counter or whether it can be written. |
| `VecSplit.SplitMutScenario` | crates/docatlas-core/src/persist/persisted_vec.rs:654-665 | 100 elements in chunks of 50 make two chunks, and both can be written at once. |
| `VecSplit.SplitProtectsDataAsWritten` | crates/docatlas-core/src/persist/persisted_vec.rs:667-684 | After `write(0)`, both `write(0)` and `read(0)` fail. A write sets the counter to 1 and a read moves it below 0, but nothing ever returns a counter to 0, so `read(0)` still fails once the writer's scope has ended. |
| `VecSplit.Release` | crates/docatlas-core/src/persist/persisted_vec.rs:674-683 | Hands back one borrow: a writer's counter returns to 0, a reader's rises by one, and a free or missing chunk is unchanged. |
| `VecSplit.ReleaseUndoesWrite` | crates/docatlas-core/src/persist/persisted_vec.rs:674-678 | Releasing after a granted write restores the split exactly. |
| `VecSplit.ReleaseUndoesRead` | crates/docatlas-core/src/persist/persisted_vec.rs:679-683 | Releasing after a granted read restores the split exactly. |
| `VecSplit.SplitProtectsDataReleased` | crates/docatlas-core/src/persist/persisted_vec.rs:667-684 | With releases, the whole test holds: a writer excludes everyone, and after its release readers share the chunk while a writer is refused. |
| `PersistedRawArray.New` | crates/docatlas-core/src/persist/persisted_raw_array.rs:18-28 | The offset is the alignment offset of the block's base address. |
| `PersistedRawArray.Capacity` | crates/docatlas-core/src/persist/persisted_raw_array.rs:31-33 | Capacity + offset = block size. The subtraction panics when the offset passes the end. |
| `PersistedRawArray.GrowUntil` | crates/docatlas-core/src/persist/persisted_raw_array.rs:39-45 | The loop ends with capacity at least the target, or panics when an offset passes the end. It leaves the array unchanged when the target is already met; otherwise the block has grown by a whole, positive number of steps and the offset is the grown block's. |
| `PersistedRawArray.Reserve` | crates/docatlas-core/src/persist/persisted_raw_array.rs:37-46 | Ends with capacity at least old capacity + a, and `a = 0` is a no-op. The block grows by a whole number of `size_of::<T>() * a` steps, and the offset is recomputed for the grown block. When the recomputed offset is not larger, the capacity has grown by at least `size_of::<T>() * a`, room for a more values. |
| `DiskArray.New` | crates/docatlas-core/src/mem/disk_array.rs:23-31 | Fails exactly on an I/O failure or for len 0, which memmap refuses to map. Otherwise the capacity is len, and the file is cut or zero-padded to len slots, keeping its first slots. |
| `DiskArray.Capacity` | crates/docatlas-core/src/mem/disk_array.rs:33-36 | The capacity is the number of slots mapped. |
| `DiskArray.AsRef` | crates/docatlas-core/src/mem/disk_array.rs:62-66 | The slice view has exactly `capacity` slots. |
| `DiskArray.Get` | crates/docatlas-core/src/mem/disk_array.rs:62-72 | Slot i exists exactly below `capacity`, and it is the view's i-th element. |
| `DiskArray.Write` | crates/docatlas-core/src/mem/disk_array.rs:68-72 | A write through `as_mut` to slot i is read back, and no other slot changes. |
| `DiskArray.Take` | crates/docatlas-core/src/mem/disk_array.rs:49-59 | Returns `capacity` values, in slot order. |
| `DiskArray.CreateFromArrayScenario` | crates/docatlas-core/src/mem/disk_array.rs:101-127 | "hello" and "world" written to a two-slot array are read back, and slot 2 does not exist. |
| `DiskVector.WithCapacity` | crates/docatlas-core/src/mem/disk_vector.rs:26-37 | A new vector is empty. Capacity 0 means no array; otherwise the capacity is exactly `cap`, and only then can I/O fail. |
| `DiskVector.New` | crates/docatlas-core/src/mem/disk_vector.rs:21-23 | A vector from `new` is empty, with capacity 0. |
| `DiskVector.Capacity` | crates/docatlas-core/src/mem/disk_vector.rs:39-45 | 0 without an array; otherwise the number of slots in the mapped file. |
| `DiskVector.AsSlice` | crates/docatlas-core/src/mem/disk_vector.rs:91-100 | The slice has exactly len elements and is empty when len is 0. |
| `DiskVector.Get` | crates/docatlas-core/src/mem/disk_vector.rs:91-100 | `get(j)` is `Some` exactly for `j < len`, and it is the j-th element of the slice. |
| `DiskVector.Reserve` | crates/docatlas-core/src/mem/disk_vector.rs:84-88 | Keeps the elements, and the capacity becomes exactly len + additional. Fails exactly on an I/O failure or when len + additional is 0. |
| `DiskVector.GrowthFor` | crates/docatlas-core/src/mem/disk_vector.rs:52-56 | The growth `push` asks for: len more slots, or 8 for an empty vector. |
| `DiskVector.Push` | crates/docatlas-core/src/mem/disk_vector.rs:48-66 | The slice becomes `old ++ [v]`. The capacity is unchanged unless the vector was full; a full vector's capacity becomes 2·len, or 8 when it was empty. |
| `DiskVector.Pop` | crates/docatlas-core/src/mem/disk_vector.rs:69-81 | On an empty vector, `None` and no change. Otherwise the last element, with the slice shortened by one and the capacity unchanged. |
| `DiskVector.PushAll` | crates/docatlas-core/src/mem/disk_vector.rs:48-66 | Pushing each element of `xs` leaves the slice `old ++ xs`. |
| `DiskVector.PushPopLifo` | crates/docatlas-core/src/mem/disk_vector.rs:69-81 | After pushing `xs`, as many pops return `xs` last first and restore the slice. |
| `DiskVector.ReadOnlyValidIndices` | crates/docatlas-core/src/mem/disk_vector.rs:146-162 | After pushing `0..=i`, `get(j)` is `Some(j)` exactly for `j <= i`. |
| `DiskVector.ReserveAdditional` | crates/docatlas-core/src/mem/disk_vector.rs:164-181 | Eight pushes onto `with_capacity(1)` leave a capacity of at least 8. |
| `DiskVector.PopEight` | crates/docatlas-core/src/mem/disk_vector.rs:183-196 | Popping after pushing 0..8 yields 7 down to 0. |
| `Segments.Builder` | crates/docatlas-core/src/index/segments.rs:150-156 | A builder starts with no path, the default size and no initial value. |
| `Segments.WriteToMap` | crates/docatlas-core/src/index/segments.rs:387-391 | Serializing fails exactly when the encoding is longer than the mapping. Otherwise the encoding overwrites the mapping's front and the rest is kept. |
| `Segments.Build` | crates/docatlas-core/src/index/segments.rs:92-142 | No initial value together with no existing file gives `InvalidData` and changes no file. Otherwise the build fails with `IoError` exactly when making the mapping is refused (a size of 0 always is), and with invalid initial data exactly when the encoding does not fit; either failure leaves the files as the mapping steps left them. A built segment maps `size` bytes, a positive number, with the initial value encoded at its front and an empty cache, and a file-backed segment's file is the mapping; without an initial value it shows the existing file resized. |
| `Segments.HexdumpRange` | crates/docatlas-core/src/index/segments.rs:245-251 | The dumped range is page `page` of `count` bytes, clamped to the segment. |
| `Segments.ToPersist` | crates/docatlas-core/src/index/segments.rs:170-179 | An anonymous segment gives `MustBeFileBacked`; otherwise the result is (path, size). |
| `Segments.PersistRoundTrip` | crates/docatlas-core/src/index/segments.rs:197-204 | Persisting a file-backed segment of positive size and building it back maps the same bytes on the same path and changes no file. |
| `Segments.FromPersist` | crates/docatlas-core/src/index/segments.rs:193-205 | Rebuilding from (path, size) gives `InvalidData` exactly when no file is at the path, and `IoError` exactly when making the mapping is refused; it never reports invalid initial data. A rebuilt segment is on that path with an empty cache, maps the existing file resized to `size`, and the file becomes that mapping. |
| `Segments.TryGet` | crates/docatlas-core/src/index/segments.rs:260-279 | Returns the cached value when there is one. Otherwise it decodes the mapping and caches the result; a failed decode changes nothing. |
| `Segments.TryGetMut` | crates/docatlas-core/src/index/segments.rs:281-294 | Decodes afresh, clears the cache, and hands out a handle not yet written through. |
| `Segments.WriteThrough` | crates/docatlas-core/src/index/segments.rs:360-379 | A write through `as_mut` / `deref_mut` sets the value and marks the handle as written. |
| `Segments.Flush` | crates/docatlas-core/src/index/segments.rs:347-352 | Writes the encoding into the mapping exactly when the handle was written through, and fails only when the encoding does not fit. |
| `Segments.DropRefMut` | crates/docatlas-core/src/index/segments.rs:381-385 | Dropping the handle flushes into the segment. A handle that was only read leaves the segment unchanged. |
| `Segments.MutationVisible` | crates/docatlas-core/src/index/segments.rs:406-422 | Suppose the serializer reads back what it writes. Then a value set through `try_get_mut` is what the next `try_get` returns once the handle is dropped. |
| `Segments.ReadOnlyLeavesMapping` | crates/docatlas-core/src/index/segments.rs:347-352 | A handle that was only read writes nothing back, and the next `try_get` decodes the same value. |
| `Segments.TryGetIsCached` | crates/docatlas-core/src/index/segments.rs:260-279 | After one successful `try_get`, further calls return the same value and state. |
| `Segments.BuildThenGet` | crates/docatlas-core/src/index/segments.rs:406-422 | A segment built with an initial value decodes to it, and an update made through `try_get_mut` is seen next. |
| `Segments.AllocFailWithSize` | crates/docatlas-core/src/index/segments.rs:424-434 | An initial value whose encoding exceeds the 4-byte segment is rejected and changes no file. |
| `Schema.New` | crates/docatlas-core/src/schema.rs:18-20 | A new schema has no fields. |
| `Schema.GetAt` | crates/docatlas-core/src/schema.rs:36-43 | `get_at(i)` is `Some` exactly for `i < len`, and then it is field i. |
| `Schema.Index` | crates/docatlas-core/src/schema.rs:61-67 | `schema[i]` panics exactly when `i >= len`, and otherwise agrees with `get_at`. |
| `Schema.GetMut` | crates/docatlas-core/src/schema.rs:51-53 | Finds the first field with the name, or `None` exactly when no field has it. |
| `Schema.Get` | crates/docatlas-core/src/schema.rs:45-48 | `None` exactly when no field has the name; otherwise a field with that name, and no earlier field has it. |
| `Schema.GetMatchesGetMut` | crates/docatlas-core/src/schema.rs:46-53 | `get`, which goes through the iterator, finds the same field as `get_mut`. |
| `Schema.IndexByName` | crates/docatlas-core/src/schema.rs:69-75 | `schema[name]` panics exactly when `get(name)` is `None`, and otherwise returns that field. |
| `Schema.RowSize` | crates/docatlas-core/src/schema.rs:55-58 | An empty schema's row size is 0, and every field's kind size is counted in it. |
| `Schema.Extend` | crates/docatlas-core/src/schema.rs:100-104 | The new fields follow the old ones, in order. |
| `Schema.ExtendRowSize` | crates/docatlas-core/src/schema.rs:100-104 | Extending adds the new fields' sizes to the row size. |
| `Schema.FromIter` | crates/docatlas-core/src/schema.rs:124-130 | The schema holds the items in order and nothing after them. |
| `Schema.Drain` | crates/docatlas-core/src/schema.rs:31-33 | `Vec::drain` with an exclusive end: it panics on start > end or end > len. Otherwise the removed range and the rest recompose the old fields. |
| `Schema.Next` | crates/docatlas-core/src/schema.rs:140-147 | `next` yields the field at the index and advances only when there is one. |
| `Schema.Iter` | crates/docatlas-core/src/schema.rs:23-28 | The first `next` on a new iterator yields the schema's first field, or `None` for an empty schema. |
| `Schema.IterYieldsFieldsInOrder` | crates/docatlas-core/src/schema.rs:137-149 | The iterator yields every field once, in order, and then `None` for ever. |
| `Schema.IndexSchemaScenario` | crates/docatlas-core/src/schema.rs:162-166 | A new schema's full range is empty. |
| `Authentication.TryNext` | crates/docatlas-core/src/auth/authentication.rs:141-148 | `try_next` is false exactly for `WrongPassword`. |
| `Authentication.NewRequest` | crates/docatlas-core/src/auth/authentication.rs:108-110 | A new request has no payloads. |
| `Authentication.WithBasic` | crates/docatlas-core/src/auth/authentication.rs:115-119 | Appends exactly one `Basic` payload after the existing ones. |
| `Authentication.CreateBasicScenario` | crates/docatlas-core/src/auth/authentication.rs:154-165 | `new().with_basic("username", "password")` holds exactly that one payload. |
| `Authentication.Push` | crates/docatlas-core/src/auth/authentication.rs:67-69 | The service is appended at the end. |
| `Authentication.Authenticate` | crates/docatlas-core/src/auth/authentication.rs:72-92 | On success, the user comes from a service that every earlier service passed on to. On failure, the errors are those of the services asked, in order: either every service was asked, or the search stopped at the first `WrongPassword`. |
| `Authentication.EmptyToolchainRejects` | crates/docatlas-core/src/auth/authentication.rs:76-91 | An empty toolchain gives `Err([])`. |
| `AdminService.AdminPasswords` | crates/docatlas-core/src/auth/authentication/admin_service.rs:58-65 | The passwords collected are exactly those of the payloads that name the administrator: a password is collected exactly when some such payload carries it, and nothing is collected exactly when no payload names the administrator. |
| `AdminService.AdminPasswordsConcat` | crates/docatlas-core/src/auth/authentication/admin_service.rs:58-65 | The collection keeps the payloads' order: the passwords of two runs of payloads are those of the first run followed by those of the second. |
| `AdminService.AdminPasswordsSingle` | crates/docatlas-core/src/auth/authentication/admin_service.rs:58-65 | A single payload contributes its password exactly when it names the administrator. |
| `AdminService.FirstVerified` | crates/docatlas-core/src/auth/authentication/admin_service.rs:58-72 | The loop stops at the first password that verifies: none is found exactly when no password from the start verifies, and every password before the one found fails. |
| `AdminService.Authenticate` | crates/docatlas-core/src/auth/authentication/admin_service.rs:56-79 | The result is "admin" exactly when some administrator password verifies. It is `WrongPassword` when there are administrator payloads but none verifies, and `UnknownIdentifier` when there are none. |
| `AdminService.OthersIgnored` | crates/docatlas-core/src/auth/authentication/admin_service.rs:58-65 | Inserting a payload for another user anywhere never changes the outcome. |
| `AdminService.AdminScenarios` | crates/docatlas-core/src/auth/authentication/admin_service.rs:87-105 | "admin"/"admin" authenticates as admin, and another user name is an unknown identifier. |
| `LockApi.NewThenGet` | crates/docatlas-core/src/auth/lock_api.rs:35-60 | A lock made by `new` gives its data to exactly the keys its tumbler accepts, the tumbler's error otherwise, and a refused `take` returns the lock as made. |
| `LockApi.Get` | crates/docatlas-core/src/auth/lock_api.rs:41-43 | Returns the data exactly when the tumbler accepts the key, and otherwise the tumbler's error. |
| `LockApi.GetMutWrite` | crates/docatlas-core/src/auth/lock_api.rs:46-48 | A write through `get_mut` happens exactly when the key is accepted; otherwise the lock is unchanged. |
| `LockApi.Take` | crates/docatlas-core/src/auth/lock_api.rs:51-60 | Returns the data on an accepted key. Otherwise it returns the error together with the unchanged lock. |
| `LockApi.AccessRulesAgree` | crates/docatlas-core/src/auth/lock_api.rs:41-60 | `get`, `get_mut` and `take` accept the same keys, and a value written through `get_mut` is what `get` then returns. |
| `LockApi.SimpleUnlock` | crates/docatlas-core/src/auth/lock_api.rs:73-78 | A simple key accepts exactly an equal key. |
| `LockApi.SimpleLockScenario` | crates/docatlas-core/src/auth/lock_api.rs:95-102 | A lock made with a key's clone opens with that key and with no other. |
| `Identifiers.New` | crates/docatlas-core/src/identifiers.rs:23-30 | A new system starts its counter at 0 with no nodes. |
| `Identifiers.NextIdAsWrittenFreeSlot` | crates/docatlas-core/src/identifiers.rs:57-66 | As written, when slot `next` is free, `next_id` returns the old counter and advances it by one. |
| `Identifiers.NextIdAsWrittenDiverges` | crates/docatlas-core/src/identifiers.rs:57-66 | As written, when slot `next` is occupied and the incremented counter differs from the table length, the loop never returns an id. |
| `Identifiers.NextIdAsWritten` | crates/docatlas-core/src/identifiers.rs:57-66 | As written, `next_id` panics when the counter is already `u64::MAX`, and that is its only panic. When it returns, the id is the old counter, the table is unchanged and the counter has grown. When slot `next` is free it advances the counter by exactly one. |
| `Identifiers.LoopOnNext` | crates/docatlas-core/src/identifiers.rs:60-62 | The loop as written returns at once, with the state unchanged, when slot `next` is free. When it returns, the id is `next`, slot `next` is free, the table is unchanged and the counter has not moved back. Its only panic is overflow. |
| `Identifiers.DivergenceExample` | crates/docatlas-core/src/identifiers.rs:57-66 | With nodes `[Some, None]` and counter 0, `next_id` as written never returns. |
| `Identifiers.NextId` | crates/docatlas-core/src/identifiers.rs:57-66 | With the loop testing the counter, `next_id` returns the old counter. The counter then grows and lands on a slot that is free or past the table, having passed only occupied slots. It panics only on `u64` overflow. |
| `Identifiers.SkipOccupied` | crates/docatlas-core/src/identifiers.rs:61-63 | Stops at the first unoccupied slot at or after the counter, passing only occupied slots. |
| `Identifiers.IdsIncrease` | crates/docatlas-core/src/identifiers.rs:57-66 | Successive ids are strictly increasing, hence distinct. |
| `Identifiers.NewIdNode` | crates/docatlas-core/src/identifiers.rs:36-54 | An empty name panics. Otherwise the node carries the name and the id `next_id` hands out. |
| `Identifiers.NewIdNodesDistinct` | crates/docatlas-core/src/identifiers.rs:36-54 | Two nodes made one after the other get different ids. |
| `Identifiers.GetIdNode` | crates/docatlas-core/src/identifiers.rs:68-77 | `Some` exactly for an in-range, occupied slot, and then the node in it. |
| `Identifiers.RawIdResolves` | crates/docatlas-core/src/identifiers.rs:165-168 | A node stored at its own id resolves back to itself. |
| `Identifiers.Equal` | crates/docatlas-core/src/identifiers.rs:145-157 | Two ids are equal exactly when they feed the hasher the same input. |
| `Identifiers.Display` | crates/docatlas-core/src/identifiers.rs:136-143 | With no components the text is ":" or nothing; when the first component is non-empty and does not start with ":", the text starts with ":" exactly for an absolute id. |
| `Identifiers.EqualityIgnoresDisplay` | crates/docatlas-core/src/identifiers.rs:145-157 | Equality and hashing depend only on the raw id, and equal ids hash alike. |
| `Identifiers.DisplayRoundTrip` | crates/docatlas-core/src/identifiers.rs:136-143 | The display (":" when absolute, then the components joined with ":") gives back `is_abs` and the components, when those are non-empty and free of ":". |
| `Identifiers.DisplayExamples` | crates/docatlas-core/src/identifiers.rs:136-143 | An absolute id `a`, `b` displays as `:a:b`, and a relative id `a` displays as `a`. |
| `MergeStrategies.OverrideIfValue` | crates/docatlas-daemon/src/config/merge_strategies.rs:1-7 | A field holding the given value takes the incoming one; any other field keeps its own. |
| `MergeStrategies.OverrideDefault` | crates/docatlas-daemon/src/config/merge_strategies.rs:9-11 | A field holding `T::default()` takes the incoming value; any other field keeps its own. |
| `MergeStrategies.MergeSettles` | crates/docatlas-daemon/src/config/merge_strategies.rs:1-7 | The field ends as either its old value or the incoming one, and merging the same value again changes nothing. |

## Left out

- Zero-sized `T`: every block operation requires `size_of::<T>() > 0`, because the file-length division in `build` is undefined for 0.
- I/O failures inside `Block::reserve` and `DiskVector::push`: the source panics through `expect`, and the model assumes success there.
- Partial writes of a failed serialization: a `write_to_map` that does not fit is taken to leave the mapping unchanged.
- `usize` overflow: the model uses unbounded naturals for `start + 1` in drain, `index * k` in split, and `size_of` products. Only the subtractions that panic below zero are modelled.
- The operating system:
  - `mmap`, `flush` and `File::set_len` are an abstract byte store keyed by path, and `path.exists()` is membership in it;
  - `align_offset` is an input (`alignOffset`), because pointer addresses are not modelled;
  - atomic orderings are not modelled: each `read` or `write` of `SplitMut` is one sequential step.
- Encoding and display formats: the postcard codec is uninterpreted, and the hexdump output is not modelled (only the byte range it covers is).
- `Block::transmute`: it is `todo!()`.
- `Block::hexdump`: its range arithmetic is the one modelled for segments. `Block::as_ptr` / `as_mut_ptr` are the base slot of the typed view.
- The persisted vector's block calls: the vector and the cells run on an abstract arena instead of `Block`, because `assert_can_contain`, `as_typed_ptr`, `T::size()` and `with_size(..).open(..)` are not defined in `block.rs`.
- Password handling is not modelled: `write_password`, `read_password_hash` and `AdminAuthenticationService::{open, create}`. This covers hashing, base64 and file I/O; Argon2 verification is an uninterpreted predicate.
- `AuthenticationToolchain::new`: it opens the password file.
- `SimpleKey::new`: it draws random bytes.
- `IdSystem::{open, create}`: they are `todo!()`.
- The parent/child maps of `IdSystem`: no modelled operation reads or writes them.
- An id node's user, group and value: they are shared handles that no modelled operation inspects.
- `Schema::get_at_mut`: it is `get_at` for a mutable reference and is covered by `Schema.GetAt`.
- `Schema::iter`'s borrowing `IntoIterator` impls: they are `iter()`.
- Range indexing `schema[a..b]` is not modelled beyond the full range of the empty-schema scenario.
- `FieldKind::size`: `fields.rs` is not part of this model, so the kind size is a parameter.
- The rest of the repository is not part of this model:
  - transport;
  - daemon plumbing, client, logging and configuration getters;
  - `shared.rs`, `error.rs`, `fields.rs` and `document.rs`;
  - `users.rs`, of which a user is modelled as its name.
- PersistedRawArray.Reserve: the error outcome is characterised only as an `ArithmeticOverflow` on some round, not by the round on which the offset passes the end. Room for `additional` more values (`size_of::<T>() * additional` bytes) is proved only when the recomputed alignment offset is not larger than the old one; otherwise the contract guarantees `additional` more bytes. The loop compares the byte capacity with `len + additional`, so in general it stops earlier.
- PersistedRawArray: the `block: Block` field has no type argument in the source; it is read as a byte block, whose `reserve(n)` adds n bytes and whose `size()` is in bytes.
- Identifiers.NewIdNode: calls the corrected `next_id`, which skips the occupied slots at the counter. The source's `new_id_node` (identifiers.rs:46) calls `next_id` as written. When the slot at the counter is occupied and the incremented counter is not the table length, the source's loop does not return short of `u64` overflow. On `[None, Some(n), None]` with counter 0, both hand out id 0, but the source leaves the counter at 1 and the model at 2. No code in `identifiers.rs` fills the node table, so the states the current API reaches agree.
- PersistentVec.Extend: pushes with the corrected `push`. The source's `extend` (persisted_vec.rs:300-306) calls `push` as written, which can write past the arena (see `PersistentVec.PushAsWrittenOverruns`), so the contents `old ++ xs` are promised only for the corrected push.
- PersistentVec.PushAll: the same as `PersistentVec.Extend`, for pushing one element at a time.
- PersistentVec.PushPopLifo: its pushes are the corrected `push`.
- PersistentVec.ReopenRecovers: the arena it reopens was filled by the corrected `push`.
- Block.Build: paths are compared as strings. The source's registry is a `HashSet<PathBuf>` (block.rs:30, 75-80), and `PathBuf` equality compares components, so `d/a` and `d//a` are one path there and two in the model. The same holds for the files map and for the paths of `Segments`.
- PersistentVec.Retain: the closure is an `FnMut` called from the last index to the first; it is modelled as a pure predicate, so a closure that carries state from one call to the next is not covered.
- PersistentVec.New: requires the header to be at most the number of slots the arena holds. The source reads the length word without checking it against the block, so a header that claims more elements than fit is not modelled.
- Block.Build: the `path.exists()` and `path.metadata()` queries of a builder without a capacity (block.rs:91-92) are taken to succeed; only the calls that make the mapping can fail.
- Segments.Size and Segments.AsRef: plain accessors (segments.rs:254-256 and 356-359) with no contract of their own. What they return is stated by the contracts of `Segments.Build`, `Segments.HexdumpRange`, `Segments.ToPersist`, `Segments.WriteThrough` and `Segments.MutationVisible`, which use them.
- DiskArray.New: one `ioFails` input stands for either `set_len` or the map refusing, and a file already resized by `set_len` before a failing map is not returned with the error.
- DiskVector.Push: stated only for a reservation that succeeds; the `expect` panic on an I/O failure is not modelled.
- Authentication.Authenticate: on success it states that some accepting service was preceded only by services that passed on. Because services are pure functions of the request, this is the first accepting one, but the contract does not name its index.

## Findings

| source | as written | input that shows it | evidently intended | confidence | as-written member | corrected member |
|---|---|---|---|---|---|---|
| crates/docatlas-core/src/persist/persisted_vec.rs:126-140 | `push` grows while `len + 1 >= capacity()`, but `capacity()` counts bytes, not elements | 8-byte elements, an arena of one header word plus 16 bytes (two slots) holding length 2: `3 < 16`, so the loop does not grow and the write lands on slot 2, outside the arena | grow while `len + 1` does not fit in the element capacity | not executed | `PersistentVec.PushAsWrittenOverruns` | `PersistentVec.Push` |
| crates/docatlas-core/src/persist/block.rs:143-145 | `Blocks.new()` builds with neither path nor capacity, so `build` returns `MissingCapacity(true)` and `unwrap` panics | any call, for example the `can_create_segment` test at lines 270-284, which expects 16 slots | build an anonymous block of `DEFAULT_SEGMENT_SIZE` (16) slots | not executed | `Block.BlocksNew` | `Block.BlocksNewDefault` |
| crates/docatlas-core/src/persist/block.rs:74-100 | the path is inserted into the registry before the capacity and I/O checks, and nothing removes it when they fail | a build on a fresh path with no file and no capacity: `MissingCapacity(false)`, and every later build on that path gives `PathAlreadyOpened` | register the path only for a block actually built | not executed | `Block.FailedBuildLeaksPath` | `Block.BuildReleasingOnError` |
| crates/docatlas-core/src/identifiers.rs:57-66 | the loop tests slot `next`, which never changes, while it increments the counter | nodes `[Some(n), None]`, counter 0: slot 0 stays occupied and the counter never reaches the table length, so the loop runs until the `u64` counter overflows | skip occupied slots at the counter | not executed | `Identifiers.NextIdAsWrittenDiverges` | `Identifiers.NextId` |
| crates/docatlas-core/src/persist/persisted_vec.rs:406-443 | `write` sets a chunk's counter to 1 and `read` moves it below 0, but nothing ever returns a counter to 0, so a borrow is never given back | the `split_protects_data` test at lines 667-684: after the writer's scope ends, `read(0)` still returns `None`, so its `unwrap` panics | a borrow's end gives the chunk back | not executed | `VecSplit.SplitProtectsDataAsWritten` | `VecSplit.SplitProtectsDataReleased` |
| crates/docatlas-core/src/persist/block.rs:286-306 | the `single_path_ownership` test builds on a fresh path without a capacity, and `build` fails with `MissingCapacity(false)`, so its first `unwrap` panics | a temporary directory's new path `temp#1`, with no file there | build the first block with a capacity, so that only the second build fails | not executed | `Block.FailedBuildLeaksPath` | `Block.SinglePathOwnership` |

`Identifiers.NewIdNode` is built on the corrected `Identifiers.NextId` of the fourth finding. `PersistentVec.Extend` and `PersistentVec.PushAll`, and the lemmas `PersistentVec.PushPopLifo` and `PersistentVec.ReopenRecovers` over them, are built on the corrected `PersistentVec.Push` of the first finding. "## Left out" names what this changes.

`Block.BuildReleasingOnError` is stated beside `Block.Build`, which stays as written because the other block properties are about the code as it is. `VecSplit.Release` is the give-back the corrected split relies on. The source has no such operation; it is modelled only as the corrected half of the fifth finding.

=== FILE: admin_service.dfy ===
/** The administrator service (auth/authentication/admin_service.rs): accepts
    a request when one of its `Basic` payloads names the administrator and
    carries the stored password.

    `verify(password)` stands for checking a password against the stored
    hash; hashing and the password file are not part of this model.
 */
module AdminService {
  import opened Wrappers
  import opened Authentication

  /** `DEFAULT_USER`. */
  const DEFAULT_USER: string := "admin"

  /** The passwords of the payloads that name the administrator, in order. */
  function AdminPasswords(payloads: seq<Payload>): (r: seq<string>)
    ensures |r| <= |payloads|
    ensures r == [] <==> forall j :: 0 <= j < |payloads| ==> payloads[j].username != DEFAULT_USER
    ensures forall x :: x in r <==>
              exists j :: 0 <= j < |payloads| && payloads[j].username == DEFAULT_USER && payloads[j].password == x
  {
    if payloads == [] then []
    else
      var rest := AdminPasswords(payloads[1..]);
      assert forall j :: 1 <= j < |payloads| ==> payloads[j] == payloads[1..][j - 1];
      if payloads[0].username == DEFAULT_USER then [payloads[0].password] + rest else rest
  }

  /** Collecting keeps the payloads' order: the passwords of two runs of
      payloads are those of the first run, then those of the second. */
  lemma {:induction false} AdminPasswordsConcat(a: seq<Payload>, b: seq<Payload>)
    ensures AdminPasswords(a + b) == AdminPasswords(a) + AdminPasswords(b)
  {
    if a == [] {
      assert a + b == b;
    } else {
      AdminPasswordsConcat(a[1..], b);
      assert (a + b)[0] == a[0] && (a + b)[1..] == a[1..] + b;
    }
  }

  /** One payload contributes its password exactly when it names the
      administrator. */
  lemma AdminPasswordsSingle(p: Payload)
    ensures AdminPasswords([p]) == (if p.username == DEFAULT_USER then [p.password] else [])
  {
    assert [p][1..] == [];
  }

  /** `authenticate(req)`: tries the administrator payloads' passwords in
      order and succeeds on the first that verifies. */
  function Authenticate(req: Request, verify: string -> bool): (r: Result<User, AuthError>)
    ensures var pws := AdminPasswords(req.payloads);
            && (r.Ok? <==> exists j :: 0 <= j < |pws| && verify(pws[j]))
            && (r.Ok? ==> r.value == User(DEFAULT_USER))
            && (r == Err(WrongPassword) <==> |pws| > 0 && forall j :: 0 <= j < |pws| ==> !verify(pws[j]))
            && (r == Err(UnknownIdentifier) <==> |pws| == 0)
    ensures r.Err? ==> r.error != UnsupportedRequestKind
  {
    var pws := AdminPasswords(req.payloads);
    match FirstVerified(pws, verify, 0)
    case Some(_) => Ok(User(DEFAULT_USER))
    case None => if |pws| > 0 then Err(WrongPassword) else Err(UnknownIdentifier)
  }

  /** The first password from index `from` on that verifies. */
  function FirstVerified(pws: seq<string>, verify: string -> bool, from: nat): (r: Option<nat>)
    requires from <= |pws|
    ensures r.None? <==> forall j :: from <= j < |pws| ==> !verify(pws[j])
    ensures r.Some? ==> from <= r.value < |pws| && verify(pws[r.value])
    ensures r.Some? ==> forall j :: from <= j < r.value ==> !verify(pws[j])
    decreases |pws| - from
  {
    if from == |pws| then None
    else if verify(pws[from]) then Some(from)
    else FirstVerified(pws, verify, from + 1)
  }

  /** Payloads that name someone else never change the outcome. */
  lemma {:induction false} OthersIgnored(payloads: seq<Payload>, p: Payload, k: nat, verify: string -> bool)
    requires p.username != DEFAULT_USER && k <= |payloads|
    ensures Authenticate(Request(payloads[..k] + [p] + payloads[k..]), verify)
            == Authenticate(Request(payloads), verify)
  {
    AdminPasswordsInsertOther(payloads, p, k);
  }

  lemma {:induction false} AdminPasswordsInsertOther(payloads: seq<Payload>, p: Payload, k: nat)
    requires p.username != DEFAULT_USER && k <= |payloads|
    ensures AdminPasswords(payloads[..k] + [p] + payloads[k..]) == AdminPasswords(payloads)
    decreases k
  {
    var ins := payloads[..k] + [p] + payloads[k..];
    if k == 0 {
      assert ins[1..] == payloads;
    } else {
      AdminPasswordsInsertOther(payloads[1..], p, k - 1);
      assert ins[0] == payloads[0];
      assert ins[1..] == payloads[1..][..k - 1] + [p] + payloads[1..][k - 1..];
    }
  }

  /** The `default_admin` and `only_accept_admin_check` scenarios: with the
      password "admin" stored, "admin"/"admin" is the administrator, and a
      request naming someone else is an unknown identifier. */
  lemma AdminScenarios(verify: string -> bool)
    requires verify("admin")
    ensures Authenticate(WithBasic(NewRequest(), "admin", "admin"), verify) == Ok(User("admin"))
    ensures Authenticate(WithBasic(NewRequest(), "blahblagbalg", "admin"), verify) == Err(UnknownIdentifier)
  {
    var pws := AdminPasswords(WithBasic(NewRequest(), "admin", "admin").payloads);
    assert pws[0] == "admin";
  }
}

=== FILE: arith.dfy ===
/** Facts about multiplication and Euclidean division on naturals that the
    size computations of the storage model rest on. */
module Arith {

  lemma MulDistributes(t: nat, a: nat, b: nat)
    ensures t * (a + b) == t * a + t * b
    ensures t * (b + a) == t * a + t * b
  {
  }

  lemma MulMonotone(a: nat, b: nat, t: nat)
    requires a <= b
    ensures t * a <= t * b
  {
  }

  lemma MulGap(t: nat, a: int, b: int)
    requires a < b
    ensures t * b - t * a >= t
  {
    var d := b - a - 1;
    assert b == a + d + 1;
    assert t * b == t * a + t * d + t;
    assert t * d >= 0;
  }

  /** Euclidean division has one quotient for each remainder in `[0, t)`. */
  lemma DivUnique(n: int, t: int, q: int, r: int)
    requires t > 0 && 0 <= r < t && n == t * q + r
    ensures n / t == q
  {
    var q', r' := n / t, n % t;
    assert n == t * q' + r' && 0 <= r' < t;
    if q' < q {
      MulGap(t, q', q);
      assert false;
    } else if q < q' {
      MulGap(t, q, q');
      assert false;
    }
  }

  lemma DivMulCancel(c: nat, t: nat)
    requires t > 0
    ensures (t * c) / t == c
  {
    DivUnique(t * c, t, c, 0);
  }

  lemma ModMultiple(c: nat, t: nat)
    requires t > 0
    ensures (t * c) % t == 0
  {
    DivMulCancel(c, t);
  }

  /** Adding `k` divisors to the dividend adds `k` to the quotient. */
  lemma DivAddMultiple(x: nat, t: nat, k: nat)
    requires t > 0
    ensures (x + t * k) / t == x / t + k
  {
    var q, r := x / t, x % t;
    assert x == t * q + r;
    assert t * (q + k) == t * q + t * k;
    DivUnique(x + t * k, t, q + k, r);
  }

  lemma DivMonotone(x: nat, y: nat, t: nat)
    requires t > 0 && x <= y
    ensures x / t <= y / t
  {
    var qx, qy := x / t, y / t;
    assert x == t * qx + x % t && y == t * qy + y % t;
    if qy < qx {
      MulGap(t, qy, qx);
      assert false;
    }
  }
}

=== FILE: authentication.dfy ===
/** The authentication toolchain (auth/authentication.rs): requests carry
    credential payloads, services accept or reject them, and a toolchain
    asks its services in turn.

    A service is a function from requests to outcomes; password hashing and
    the stores services read are not part of this model.
 */
module Authentication {
  import opened Wrappers

  /** `User` (auth/users.rs): a name. */
  datatype User = User(name: string)

  datatype AuthError = UnsupportedRequestKind | WrongPassword | UnknownIdentifier

  datatype Payload = Basic(username: string, password: string)

  datatype Request = Request(payloads: seq<Payload>)

  type Service = Request -> Result<User, AuthError>

  datatype Toolchain = Toolchain(services: seq<Service>)

  /** `try_next()`: whether the toolchain may ask the next service after this
      error. */
  function TryNext(e: AuthError): (r: bool)
    ensures !r <==> e == WrongPassword
  {
    match e
    case WrongPassword => false
    case _ => true
  }

  /** `AuthenticationRequest::new()`. */
  function NewRequest(): (r: Request)
    ensures |r.payloads| == 0
  {
    Request([])
  }

  /** `with_basic(username, password)`: adds one `Basic` payload after the
      others. */
  function WithBasic(req: Request, username: string, password: string): (r: Request)
    ensures |r.payloads| == |req.payloads| + 1
    ensures r.payloads[..|req.payloads|] == req.payloads
    ensures r.payloads[|req.payloads|] == Basic(username, password)
  {
    Request(req.payloads + [Basic(username, password)])
  }

  /** The `create_basic` scenario. */
  lemma CreateBasicScenario()
    ensures WithBasic(NewRequest(), "username", "password").payloads == [Basic("username", "password")]
  {
  }

  /** `push(service)`: adds a service at the end. */
  function Push(t: Toolchain, s: Service): (r: Toolchain)
    ensures |r.services| == |t.services| + 1
    ensures r.services[..|t.services|] == t.services && r.services[|t.services|] == s
  {
    Toolchain(t.services + [s])
  }

  /** The services before index `k` all failed with errors that let the
      toolchain go on. */
  predicate PassedOn(services: seq<Service>, req: Request, k: nat)
    requires k <= |services|
  {
    forall j :: 0 <= j < k ==> services[j](req).Err? && TryNext(services[j](req).error)
  }

  /** `authenticate(req)`: the first service, in order, that accepts the
      request gives the user; every failure is recorded, and the first error
      that does not allow trying the next service ends the search. */
  method Authenticate(t: Toolchain, req: Request) returns (r: Result<User, seq<AuthError>>)
    ensures r.Ok? ==> exists k :: 0 <= k < |t.services| && PassedOn(t.services, req, k)
                                  && t.services[k](req) == Ok(r.value)
    ensures r.Err? ==> |r.error| <= |t.services|
    ensures r.Err? ==> forall j :: 0 <= j < |r.error| ==> t.services[j](req) == Err(r.error[j])
    ensures r.Err? ==> PassedOn(t.services, req, |r.error|)
                       || (|r.error| > 0 && PassedOn(t.services, req, |r.error| - 1)
                           && !TryNext(r.error[|r.error| - 1]))
    ensures r.Err? && |r.error| < |t.services| ==> |r.error| > 0 && !TryNext(r.error[|r.error| - 1])
  {
    var errs: seq<AuthError> := [];
    var i := 0;
    while i < |t.services|
      invariant 0 <= i <= |t.services| && |errs| == i
      invariant forall j :: 0 <= j < i ==> t.services[j](req) == Err(errs[j])
      invariant PassedOn(t.services, req, i)
    {
      var result := t.services[i](req);
      match result {
        case Ok(user) =>
          return Ok(user);
        case Err(e) =>
          errs := errs + [e];
          if !TryNext(e) {
            return Err(errs);
          }
      }
      i := i + 1;
    }
    return Err(errs);
  }

  /** An empty toolchain rejects every request with no errors. */
  method EmptyToolchainRejects(req: Request) returns (r: Result<User, seq<AuthError>>)
    ensures r == Err([])
  {
    r := Authenticate(Toolchain([]), req);
  }
}

=== FILE: block.dfy ===
/** The memory block of `persist/block.rs`: a typed, optionally file-backed
    mapping, the builder that creates it, the process-wide registry of open
    paths and the growth operation `reserve`.

    The operating system is abstracted as a `World`: the set of paths the
    registry holds and the contents of every file, keyed by path. A mapping is
    the byte sequence it shows; a path-backed mapping shows the file's bytes
    and writes them back when the block is dropped. `tsize` stands for
    `size_of::<T>()`.
 */
module Block {
  import opened Wrappers
  import opened Arith

  type Path = string

  newtype byte = x: int | 0 <= x < 256

  /** `DEFAULT_SEGMENT_SIZE`; `build` never reads it. */
  const DEFAULT_SEGMENT_SIZE: nat := 16

  datatype World = World(openPaths: set<Path>, files: map<Path, seq<byte>>)

  datatype BlockBuilder = BlockBuilder(diskPath: Option<Path>, capacity: Option<nat>)

  datatype BlockError =
    | MissingCapacity(isAnon: bool)
    | PathAlreadyOpened(path: Path)
    | IoError

  datatype Block = Block(diskPath: Option<Path>, memMap: seq<byte>, capacity: nat)

  /** `Blocks.builder()`: no path, no capacity. */
  function Builder(): (b: BlockBuilder)
    ensures b.diskPath.None? && b.capacity.None?
  {
    BlockBuilder(None, None)
  }

  /** `stored_at(path)`: sets the path and keeps the capacity. */
  function StoredAt(b: BlockBuilder, p: Path): (r: BlockBuilder)
    ensures r.diskPath == Some(p) && r.capacity == b.capacity
  {
    b.(diskPath := Some(p))
  }

  /** `with_capacity(c)`: sets the capacity and keeps the path. */
  function WithCapacity(b: BlockBuilder, c: nat): (r: BlockBuilder)
    ensures r.capacity == Some(c) && r.diskPath == b.diskPath
  {
    b.(capacity := Some(c))
  }

  /** `size_of::<T>(count)`: the bytes needed for `count` values. */
  function SizeOf(tsize: nat, count: nat): nat {
    tsize * count
  }

  /** A block's mapping is exactly `size_of(capacity)` bytes long. */
  predicate WellFormed(blk: Block, tsize: nat) {
    |blk.memMap| == SizeOf(tsize, blk.capacity)
  }

  /** The current contents of the file at `p`, empty if it does not exist
      (`create(true)` makes an empty file). */
  function FileBytes(files: map<Path, seq<byte>>, p: Path): seq<byte> {
    if p in files then files[p] else []
  }

  /** The operating-system call that refuses while a mapping is made, if
      any: opening (and creating) the file, reading its length, setting its
      length, or mapping it. A call that is not made cannot refuse. */
  datatype Fault = NoFault | OpenFails | MetadataFails | SetLenFails | MapFails

  /** Whether making a mapping of `space` bytes fails. `memmap` refuses a
      mapping of length zero (`InvalidInput`); an anonymous mapping makes no
      other call; a file-backed one can also fail at the open, at the length
      query, or at `set_len`, which is only called when the length differs. */
  predicate Refused(files: map<Path, seq<byte>>, path: Option<Path>, space: nat, fault: Fault) {
    || space == 0
    || fault == MapFails
    || (path.Some? && (|| fault == OpenFails
                       || fault == MetadataFails
                       || (fault == SetLenFails && |FileBytes(files, path.value)| != space)))
  }

  /** `MmapMut::map_anon(space)`, or the steps of `create_mmap(space, path)`
      (which `SegmentBuilder::build` repeats inline): open the file, creating
      it empty when missing; read its length; set it to `space` when it
      differs; map it. When a step fails, the steps before it have taken
      effect. The result is the files afterwards and the mapped bytes. */
  function CreateMapping(files: map<Path, seq<byte>>, path: Option<Path>, space: nat, fault: Fault)
    : (r: (map<Path, seq<byte>>, Option<seq<byte>>))
    ensures r.1.None? <==> Refused(files, path, space, fault)
    ensures r.1.Some? ==> |r.1.value| == space
    // an anonymous region touches no file and shows zeros
    ensures path.None? ==> r.0 == files
    ensures path.None? && r.1.Some? ==> forall i :: 0 <= i < space ==> r.1.value[i] == 0
    // a refused open touches no file; after the open the file exists, and no
    // other file changes
    ensures path.Some? && fault == OpenFails ==> r.0 == files
    ensures path.Some? && fault != OpenFails ==>
              path.value in r.0 && r.0 == files[path.value := r.0[path.value]]
    // a failure before `set_len` has run leaves the file as it was
    ensures path.Some? && (fault == MetadataFails
                           || (fault == SetLenFails && |FileBytes(files, path.value)| != space)) ==>
              r.0[path.value] == FileBytes(files, path.value)
    // once `set_len` has run (or was not needed) the file is `space` bytes
    // long: its old bytes over the common prefix, zeros after them
    ensures path.Some? && fault != OpenFails && fault != MetadataFails
            && !(fault == SetLenFails && |FileBytes(files, path.value)| != space) ==>
              var prior := FileBytes(files, path.value);
              var f := r.0[path.value];
              && |f| == space
              && (forall i :: 0 <= i < space && i < |prior| ==> f[i] == prior[i])
              && (forall i :: |prior| <= i < space ==> f[i] == 0)
    // a file-backed mapping shows the file
    ensures path.Some? && r.1.Some? ==> r.1.value == r.0[path.value]
  {
    match path
    case None =>
      if space == 0 || fault == MapFails then (files, None) else (files, Some(Fill(space, 0)))
    case Some(p) =>
      if fault == OpenFails then (files, None)
      else
        var current := FileBytes(files, p);
        var created := files[p := current];
        if fault == MetadataFails || (fault == SetLenFails && |current| != space) then (created, None)
        else
          var sized := Resize(current, space, 0);
          var files1 := files[p := sized];
          if space == 0 || fault == MapFails then (files1, None) else (files1, Some(sized))
  }

  /** `MmapMut::map_anon(space)` or `create_mmap(space, path)` for
      `capacity` values: a block over the mapping, or `IoError`, with the
      files as the steps taken left them. */
  function MapRegion(w: World, path: Option<Path>, capacity: nat, tsize: nat, fault: Fault)
    : (r: (World, Result<Block, BlockError>))
    ensures r.0.openPaths == w.openPaths
    ensures r.0.files == CreateMapping(w.files, path, SizeOf(tsize, capacity), fault).0
    ensures r.1.Ok? <==> !Refused(w.files, path, SizeOf(tsize, capacity), fault)
    ensures r.1.Err? ==> r.1.error == IoError
    ensures r.1.Ok? ==> r.1.value.diskPath == path && r.1.value.capacity == capacity
                        && capacity > 0 && WellFormed(r.1.value, tsize)
    ensures r.1.Ok? && path.Some? ==>
              r.0.files == w.files[path.value := r.1.value.memMap]
              && (forall i :: 0 <= i < |r.1.value.memMap| && i < |FileBytes(w.files, path.value)| ==>
                    r.1.value.memMap[i] == FileBytes(w.files, path.value)[i])
    ensures r.1.Ok? && path.None? ==>
              r.0 == w && forall i :: 0 <= i < |r.1.value.memMap| ==> r.1.value.memMap[i] == 0
  {
    var (files, mapped) := CreateMapping(w.files, path, SizeOf(tsize, capacity), fault);
    match mapped
    case None => (w.(files := files), Err(IoError))
    case Some(bytes) => (w.(files := files), Ok(Block(path, bytes, capacity)))
  }

  /** The capacity `build` maps: the builder's, or else as many whole values
      as the existing file holds. */
  function Requested(w: World, b: BlockBuilder, tsize: nat): nat
    requires tsize > 0
  {
    match b.capacity
    case Some(c) => c
    case None => if b.diskPath.Some? then |FileBytes(w.files, b.diskPath.value)| / tsize else 0
  }

  /** `BlockBuilder::build`, as written: the path is claimed in the registry
      before the capacity and I/O checks, so a later failure leaves it there. */
  function Build(w: World, b: BlockBuilder, tsize: nat, fault: Fault)
    : (r: (World, Result<Block, BlockError>))
    requires tsize > 0
    // the registry check
    ensures b.diskPath.Some? && b.diskPath.value in w.openPaths ==>
              r == (w, Err(PathAlreadyOpened(b.diskPath.value)))
    ensures b.diskPath.Some? && b.diskPath.value !in w.openPaths ==>
              r.0.openPaths == w.openPaths + {b.diskPath.value}
    ensures b.diskPath.None? ==> r.0.openPaths == w.openPaths
    // the capacity rules and the error taxonomy
    ensures r.1.Ok? <==>
              && (b.diskPath.Some? ==> b.diskPath.value !in w.openPaths)
              && (b.capacity.Some? || (b.diskPath.Some? && b.diskPath.value in w.files))
              && !Refused(w.files, b.diskPath, SizeOf(tsize, Requested(w, b, tsize)), fault)
    ensures b.capacity.None? && b.diskPath.None? ==> r.1 == Err(MissingCapacity(true))
    ensures (b.capacity.None? && b.diskPath.Some? && b.diskPath.value !in w.openPaths
             && b.diskPath.value !in w.files) ==> r.1 == Err(MissingCapacity(false))
    // what a failure leaves on disk
    ensures r.1.Err? && r.1.error != IoError ==> r.0.files == w.files
    ensures r.1 == Err(IoError) ==>
              r.0.files == CreateMapping(w.files, b.diskPath, SizeOf(tsize, Requested(w, b, tsize)), fault).0
    // the block built
    ensures r.1.Ok? ==> r.1.value.diskPath == b.diskPath && WellFormed(r.1.value, tsize)
                        && r.1.value.capacity > 0
    ensures r.1.Ok? && b.capacity.Some? ==> r.1.value.capacity == b.capacity.value
    ensures r.1.Ok? && b.capacity.None? ==>
              r.1.value.capacity == |w.files[b.diskPath.value]| / tsize
    ensures r.1.Ok? && b.diskPath.Some? ==> r.0.files == w.files[b.diskPath.value := r.1.value.memMap]
    ensures r.1.Ok? && b.diskPath.Some? ==>
              forall i :: 0 <= i < |r.1.value.memMap| && i < |FileBytes(w.files, b.diskPath.value)| ==>
                r.1.value.memMap[i] == FileBytes(w.files, b.diskPath.value)[i]
    ensures r.1.Ok? && b.diskPath.None? ==>
              forall i :: 0 <= i < |r.1.value.memMap| ==> r.1.value.memMap[i] == 0
  {
    if b.diskPath.Some? && b.diskPath.value in w.openPaths then
      (w, Err(PathAlreadyOpened(b.diskPath.value)))
    else
      var w1 := if b.diskPath.Some? then w.(openPaths := w.openPaths + {b.diskPath.value}) else w;
      match b.capacity
      case Some(c) => MapRegion(w1, b.diskPath, c, tsize, fault)
      case None =>
        match b.diskPath
        case None => (w1, Err(MissingCapacity(true)))
        case Some(p) =>
          if p in w1.files then MapRegion(w1, b.diskPath, |w1.files[p]| / tsize, tsize, fault)
          else (w1, Err(MissingCapacity(false)))
  }

  /** `Drop for Block`: the path leaves the registry and the mapping is
      flushed to its file; an anonymous block leaves the world as it was. */
  function Drop(w: World, blk: Block): (w': World)
    ensures blk.diskPath.Some? ==>
              && blk.diskPath.value !in w'.openPaths
              && (forall q :: q != blk.diskPath.value ==> (q in w'.openPaths <==> q in w.openPaths))
              && blk.diskPath.value in w'.files
              && w'.files[blk.diskPath.value] == blk.memMap
    ensures blk.diskPath.None? ==> w' == w
  {
    match blk.diskPath
    case None => w
    case Some(p) => World(w.openPaths - {p}, w.files[p := blk.memMap])
  }

  /** `Block::size`: the length of the mapping, which for a well-formed
      block is the bytes its capacity needs. */
  function Size(blk: Block): (r: nat)
    ensures forall tsize :: WellFormed(blk, tsize) ==> r == SizeOf(tsize, blk.capacity)
  {
    |blk.memMap|
  }

  /** `Block::reserve(additional)`: map `size_of(capacity + additional)` bytes
      (a fresh zeroed region, or the file resized), copy the old mapping into
      its prefix and grow the capacity. */
  function Reserve(blk: Block, additional: nat, tsize: nat): (r: Block)
    requires WellFormed(blk, tsize)
    ensures r.capacity == blk.capacity + additional
    ensures Size(r) == SizeOf(tsize, blk.capacity + additional)
    ensures WellFormed(r, tsize)
    ensures r.diskPath == blk.diskPath
    ensures Size(blk) <= Size(r)
    ensures r.memMap[..Size(blk)] == blk.memMap
    ensures forall i :: Size(blk) <= i < Size(r) ==> r.memMap[i] == 0
  {
    var newSize := SizeOf(tsize, blk.capacity + additional);
    MulMonotone(blk.capacity, blk.capacity + additional, tsize);
    Block(blk.diskPath, ZeroExtend(blk.memMap, newSize, blk.diskPath.Some?), blk.capacity + additional)
  }

  /** Reserving grows the mapping by exactly the bytes the added values
      need. */
  lemma SizeAfterReserve(blk: Block, additional: nat, tsize: nat)
    requires WellFormed(blk, tsize)
    ensures Size(Reserve(blk, additional, tsize)) == Size(blk) + SizeOf(tsize, additional)
  {
    MulDistributes(tsize, blk.capacity, additional);
  }

  /** The new mapping of `reserve`: a fresh zeroed region (anonymous) or the
      file resized with zeros (file-backed), with the old mapping copied over
      its prefix. */
  function ZeroExtend(prior: seq<byte>, n: nat, fileBacked: bool): (r: seq<byte>)
    requires |prior| <= n
    ensures |r| == n && r[..|prior|] == prior
    ensures forall i :: |prior| <= i < n ==> r[i] == 0
  {
    var region := if fileBacked then Resize(prior, n, 0) else Fill(n, 0);
    prior + region[|prior|..]
  }

  lemma SlotInside(i: nat, c: nat, t: nat)
    requires i < c
    ensures t * i + t <= t * c
    ensures t * (i + 1) == t * i + t
  {
    MulMonotone(i + 1, c, t);
  }

  /** Slot `i` of the typed view: the `tsize` bytes of the `i`-th value. */
  function Slot(blk: Block, tsize: nat, i: nat): (r: seq<byte>)
    requires WellFormed(blk, tsize) && i < blk.capacity
    ensures |r| == tsize
    ensures tsize * i + tsize <= |blk.memMap|
            && forall k :: 0 <= k < tsize ==> r[k] == blk.memMap[tsize * i + k]
  {
    SlotInside(i, blk.capacity, tsize);
    blk.memMap[tsize * i .. tsize * i + tsize]
  }

  /** `Block::as_ref`: the mapping seen as `capacity` slots. */
  function AsRef(blk: Block, tsize: nat): (r: seq<seq<byte>>)
    requires WellFormed(blk, tsize)
    ensures |r| == blk.capacity
    ensures forall i :: 0 <= i < |r| ==> r[i] == Slot(blk, tsize, i)
  {
    seq(blk.capacity, i requires 0 <= i < blk.capacity => Slot(blk, tsize, i))
  }

  /** A write through `Block::as_mut` to slot `i`. */
  function WriteSlot(blk: Block, tsize: nat, i: nat, v: seq<byte>): (r: Block)
    requires WellFormed(blk, tsize) && i < blk.capacity && |v| == tsize
    ensures WellFormed(r, tsize)
    ensures r.diskPath == blk.diskPath && r.capacity == blk.capacity
    ensures Slot(r, tsize, i) == v
    ensures forall j :: 0 <= j < blk.capacity && j != i ==> Slot(r, tsize, j) == Slot(blk, tsize, j)
  {
    SlotInside(i, blk.capacity, tsize);
    var r := blk.(memMap := blk.memMap[..tsize * i] + v + blk.memMap[tsize * i + tsize..]);
    forall j | 0 <= j < blk.capacity && j != i
      ensures Slot(r, tsize, j) == Slot(blk, tsize, j)
    {
      SlotInside(j, blk.capacity, tsize);
      if j < i {
        MulMonotone(j + 1, i, tsize);
      } else {
        MulMonotone(i + 1, j, tsize);
      }
    }
    r
  }

  /** Building on a path that is open fails and leaves the registry alone;
      once the block is dropped the path can be opened again. The capacity is
      positive: a mapping of zero bytes is refused. */
  lemma {:induction false} SinglePathOwnership(w: World, p: Path, c: nat, tsize: nat)
    requires tsize > 0 && c > 0 && p !in w.openPaths
    ensures var b := BlockBuilder(Some(p), Some(c));
            var (w1, r1) := Build(w, b, tsize, NoFault);
            && r1.Ok?
            && Build(w1, b, tsize, NoFault) == (w1, Err(PathAlreadyOpened(p)))
            && var w2 := Drop(w1, r1.value);
               w2.openPaths == w.openPaths
               && Build(w2, b, tsize, NoFault).1.Ok?
  {
    var b := BlockBuilder(Some(p), Some(c));
    var (w1, r1) := Build(w, b, tsize, NoFault);
    var w2 := Drop(w1, r1.value);
    assert w2.openPaths == w.openPaths;
    assert SizeOf(tsize, c) > 0;
  }

  /** A value written to a slot survives dropping the block and building it
      again on the same path with the same capacity. */
  lemma {:induction false} ReloadSlot(w: World, p: Path, c: nat, tsize: nat, i: nat, v: seq<byte>)
    requires tsize > 0 && p !in w.openPaths && i < c && |v| == tsize
    ensures var b := BlockBuilder(Some(p), Some(c));
            var (w1, r1) := Build(w, b, tsize, NoFault);
            && r1.Ok?
            && var blk := WriteSlot(r1.value, tsize, i, v);
               var (w3, r2) := Build(Drop(w1, blk), b, tsize, NoFault);
               && r2.Ok?
               && r2.value.memMap == blk.memMap
               && Slot(r2.value, tsize, i) == v
  {
    var b := BlockBuilder(Some(p), Some(c));
    var (w1, r1) := Build(w, b, tsize, NoFault);
    var blk := WriteSlot(r1.value, tsize, i, v);
    var w2 := Drop(w1, blk);
    assert FileBytes(w2.files, p) == blk.memMap;
    var (w3, r2) := Build(w2, b, tsize, NoFault);
    assert r2.value.memMap == Resize(blk.memMap, SizeOf(tsize, c), 0);
  }

  /** Reopening a dropped block without giving a capacity infers the same
      capacity from the file's length and shows the same bytes. */
  lemma {:induction false} ReopenInfersCapacity(w: World, blk: Block, tsize: nat)
    requires tsize > 0 && WellFormed(blk, tsize) && blk.capacity > 0 && blk.diskPath.Some?
    ensures var w2 := Drop(w, blk);
            var (w3, r) := Build(w2, BlockBuilder(blk.diskPath, None), tsize, NoFault);
            r == Ok(blk)
  {
    var p := blk.diskPath.value;
    var w2 := Drop(w, blk);
    assert |w2.files[p]| / tsize == blk.capacity by {
      assert |w2.files[p]| == tsize * blk.capacity;
      DivMulCancel(blk.capacity, tsize);
    }
    var (w3, r) := Build(w2, BlockBuilder(blk.diskPath, None), tsize, NoFault);
    assert FileBytes(w2.files, p) == blk.memMap;
    assert r.value.memMap == blk.memMap;
  }

  /** `reserve` keeps every slot that existed before and adds zeroed ones. */
  lemma {:induction false} ReserveKeepsSlots(blk: Block, additional: nat, tsize: nat)
    requires WellFormed(blk, tsize)
    ensures var r := Reserve(blk, additional, tsize);
            forall i :: 0 <= i < blk.capacity ==> Slot(r, tsize, i) == Slot(blk, tsize, i)
  {
    var r := Reserve(blk, additional, tsize);
    forall i | 0 <= i < blk.capacity
      ensures Slot(r, tsize, i) == Slot(blk, tsize, i)
    {
      SlotInside(i, blk.capacity, tsize);
      assert r.memMap[..SizeOf(tsize, blk.capacity)] == blk.memMap;
    }
  }

  // ---------------------------------------------------------------------------
  // Mappings the operating system refuses.

  /** A build whose mapping is refused has already created and sized the
      file: on a fresh path the file is left holding `size_of(c)` zero bytes,
      and the path stays registered. */
  lemma {:induction false} RefusedMapLeavesFile(w: World, p: Path, c: nat, tsize: nat)
    requires tsize > 0 && p !in w.openPaths && p !in w.files
    ensures var (w1, r) := Build(w, BlockBuilder(Some(p), Some(c)), tsize, MapFails);
            && r == Err(IoError)
            && p in w1.openPaths
            && w1.files == w.files[p := Fill(SizeOf(tsize, c), 0)]
  {
    var space := SizeOf(tsize, c);
    var (w1, r) := Build(w, BlockBuilder(Some(p), Some(c)), tsize, MapFails);
    var f := w1.files[p];
    assert |f| == space && forall i :: 0 <= i < space ==> f[i] == 0;
    assert f == Fill(space, 0);
  }

  /** A capacity of zero asks for a mapping of zero bytes, which is refused
      even when every call would succeed: anonymously nothing is left behind;
      on a path the file is left truncated to zero bytes. */
  lemma {:induction false} ZeroCapacityRefused(w: World, p: Path, tsize: nat)
    requires tsize > 0 && p !in w.openPaths
    ensures Build(w, BlockBuilder(None, Some(0)), tsize, NoFault) == (w, Err(IoError))
    ensures var (w1, r) := Build(w, BlockBuilder(Some(p), Some(0)), tsize, NoFault);
            r == Err(IoError) && w1.files == w.files[p := []]
  {
    assert SizeOf(tsize, 0) == 0;
  }

  // ---------------------------------------------------------------------------
  // `Blocks::new`, as written and as its test expects.

  /** `Blocks.new()` as written: a builder with neither path nor capacity,
      which `build` refuses, so the `unwrap` panics. */
  function BlocksNew(w: World, tsize: nat): (r: (World, Result<Block, BlockError>))
    requires tsize > 0
    ensures r == (w, Err(MissingCapacity(true)))
  {
    Build(w, Builder(), tsize, NoFault)
  }

  /** `Blocks.new()` as its test `can_create_segment` expects it: an anonymous
      block of `DEFAULT_SEGMENT_SIZE` slots. */
  function BlocksNewDefault(w: World, tsize: nat): (r: (World, Result<Block, BlockError>))
    requires tsize > 0
    ensures r.0 == w
    ensures r.1.Ok? && r.1.value.diskPath.None?
    ensures WellFormed(r.1.value, tsize)
    ensures |AsRef(r.1.value, tsize)| == 16
  {
    Build(w, WithCapacity(Builder(), DEFAULT_SEGMENT_SIZE), tsize, NoFault)
  }

  // ---------------------------------------------------------------------------
  // A failed build that leaves its path registered.

  /** A failed `build` on a fresh path still claims it: every later build on
      that path fails with `PathAlreadyOpened`, and no block exists whose drop
      would release it. */
  lemma {:induction false} FailedBuildLeaksPath(w: World, p: Path, tsize: nat, later: BlockBuilder)
    requires tsize > 0 && p !in w.openPaths && p !in w.files
    requires later.diskPath == Some(p)
    ensures var (w1, r1) := Build(w, BlockBuilder(Some(p), None), tsize, NoFault);
            && r1 == Err(MissingCapacity(false))
            && p in w1.openPaths
            && Build(w1, later, tsize, NoFault).1 == Err(PathAlreadyOpened(p))
  {
  }

  /** `build` with the registry entry taken only when the block is actually
      built: a failed build leaves the registry as it found it. */
  function BuildReleasingOnError(w: World, b: BlockBuilder, tsize: nat, fault: Fault)
    : (r: (World, Result<Block, BlockError>))
    requires tsize > 0
    ensures r.1 == Build(w, b, tsize, fault).1
    ensures r.1.Err? ==> r.0.openPaths == w.openPaths
    ensures r.1.Ok? && b.diskPath.Some? ==> r.0.openPaths == w.openPaths + {b.diskPath.value}
  {
    var (w1, res) := Build(w, b, tsize, fault);
    if res.Err? then (w1.(openPaths := w.openPaths), res) else (w1, res)
  }
}

=== FILE: disk_array.dfy ===
/** `RawDiskArray` (mem/disk_array.rs): `capacity` slots of `T` in a file
    mapped into memory. The file is seen through its typed slots; `zero` is
    the value of a slot of zero bytes, which `File::set_len` adds when it
    lengthens the file.
 */
module DiskArray {
  import opened Wrappers

  /** An operating-system failure of `set_len` or of the mapping. */
  datatype IoError = IoError

  /** `mmap` is the mapped file: writes through it are writes to the file. */
  datatype RawDiskArray<T> = RawDiskArray(capacity: nat, mmap: seq<T>)

  predicate Valid<T>(a: RawDiskArray<T>) {
    |a.mmap| == a.capacity
  }

  /** `new(len, file)`: sets the file's length to `size_of::<T>() * len`,
      which keeps the first `len` slots and zero-fills the rest, then maps
      it. `ioFails` stands for the operating system refusing either step;
      a file of zero bytes cannot be mapped (`memmap` answers
      `InvalidInput`), so `len == 0` fails as well. */
  function New<T>(len: nat, file: seq<T>, zero: T, ioFails: bool): (r: Result<RawDiskArray<T>, IoError>)
    ensures r.Err? <==> ioFails || len == 0
    ensures r.Ok? ==> Valid(r.value) && Capacity(r.value) == len
    ensures r.Ok? ==> forall i :: 0 <= i < len && i < |file| ==> r.value.mmap[i] == file[i]
    ensures r.Ok? ==> forall i :: |file| <= i < len ==> r.value.mmap[i] == zero
  {
    if ioFails || len == 0 then Err(IoError) else Ok(RawDiskArray(len, Resize(file, len, zero)))
  }

  /** `capacity()`. */
  function Capacity<T>(a: RawDiskArray<T>): (r: nat)
    ensures Valid(a) ==> r == |a.mmap|
  {
    a.capacity
  }

  /** `as_ref()` / `as_mut()`: the slice of all `capacity` slots. */
  function AsRef<T>(a: RawDiskArray<T>): (r: seq<T>)
    requires Valid(a)
    ensures |r| == Capacity(a)
  {
    a.mmap[..a.capacity]
  }

  /** `get(i)` of the slice view: nothing at or past `capacity`. */
  function Get<T>(a: RawDiskArray<T>, i: nat): (r: Option<T>)
    requires Valid(a)
    ensures r.Some? <==> i < Capacity(a)
    ensures r.Some? ==> r.value == AsRef(a)[i]
  {
    if i < a.capacity then Some(a.mmap[i]) else None
  }

  /** A write through `as_mut()[i]`. */
  function Write<T>(a: RawDiskArray<T>, i: nat, x: T): (r: RawDiskArray<T>)
    requires Valid(a) && i < Capacity(a)
    ensures Valid(r) && Capacity(r) == Capacity(a)
    ensures Get(r, i) == Some(x)
    ensures forall j :: j != i ==> Get(r, j) == Get(a, j)
  {
    RawDiskArray(a.capacity, a.mmap[i := x])
  }

  /** `take()`: copies every slot out, in slot order. */
  function Take<T>(a: RawDiskArray<T>): (r: seq<T>)
    requires Valid(a)
    ensures |r| == Capacity(a)
    ensures forall i :: 0 <= i < |r| ==> Get(a, i) == Some(r[i])
  {
    TakeFrom(a, 0)
  }

  function TakeFrom<T>(a: RawDiskArray<T>, i: nat): (r: seq<T>)
    requires Valid(a) && i <= Capacity(a)
    ensures |r| == Capacity(a) - i
    ensures forall j :: 0 <= j < |r| ==> Get(a, i + j) == Some(r[j])
    decreases Capacity(a) - i
  {
    if i == a.capacity then [] else [a.mmap[i]] + TakeFrom(a, i + 1)
  }

  /** The `can_create_from_array` scenario: a two-slot array with "hello"
      and "world" written reads them back, and has no slot 2. */
  lemma CreateFromArrayScenario(file: seq<string>, zero: string)
    ensures var a := New(2, file, zero, false).value;
            var b := Write(Write(a, 0, "hello"), 1, "world");
            Capacity(b) == 2 && Get(b, 0) == Some("hello") && Get(b, 1) == Some("world")
            && Get(b, 2).None? && Take(b) == ["hello", "world"]
  {
    var a := New(2, file, zero, false).value;
    var b := Write(Write(a, 0, "hello"), 1, "world");
    var t := Take(b);
    assert Get(b, 0) == Some(t[0]) && Get(b, 1) == Some(t[1]);
  }
}

=== FILE: disk_vector.dfy ===
/** `DiskVector` (mem/disk_vector.rs): a growable vector whose elements live
    in a `RawDiskArray` over one file. Until the first allocation there is
    no array, and the capacity is 0.
 */
module DiskVector {
  import opened Wrappers
  import opened Seqs
  import DA = DiskArray

  /** `DEFAULT_DISK_VECTOR_CAPACITY`: the capacity of the first allocation
      `push` makes. */
  const DEFAULT_CAPACITY: nat := 8

  /** `file` is the file's contents before any array maps it; once `raw`
      exists, the mapping is the file. */
  datatype DiskVector<T> = DiskVector(len: nat, file: seq<T>, raw: Option<DA.RawDiskArray<T>>)

  /** The length never passes the capacity, and the array's slots match its
      capacity. */
  predicate Valid<T>(v: DiskVector<T>) {
    && v.len <= Capacity(v)
    && (v.raw.Some? ==> DA.Valid(v.raw.value))
  }

  /** `capacity()`: the array's capacity, or 0 without an array. */
  function Capacity<T>(v: DiskVector<T>): (r: nat)
    ensures v.raw.None? ==> r == 0
    ensures v.raw.Some? && DA.Valid(v.raw.value) ==> r == |FileNow(v)|
  {
    if v.raw.Some? then DA.Capacity(v.raw.value) else 0
  }

  /** The current contents of the file. */
  function FileNow<T>(v: DiskVector<T>): seq<T> {
    if v.raw.Some? then v.raw.value.mmap else v.file
  }

  /** `as_slice()`: empty when the length is 0, else the first `len` slots
      of the array. */
  function AsSlice<T>(v: DiskVector<T>): (r: seq<T>)
    requires Valid(v)
    ensures |r| == v.len
  {
    if v.len == 0 then [] else v.raw.value.mmap[..v.len]
  }

  /** `get(j)` of the slice view. */
  function Get<T>(v: DiskVector<T>, j: nat): (r: Option<T>)
    requires Valid(v)
    ensures r.Some? <==> j < v.len
    ensures r.Some? ==> r.value == AsSlice(v)[j]
  {
    if j < v.len then Some(AsSlice(v)[j]) else None
  }

  /** `with_capacity(cap, file)`: no array for a capacity of 0, otherwise an
      array of `cap` slots over the file. */
  function WithCapacity<T>(cap: nat, file: seq<T>, zero: T, ioFails: bool): (r: Result<DiskVector<T>, DA.IoError>)
    ensures r.Err? <==> cap > 0 && ioFails
    ensures r.Ok? ==> Valid(r.value) && r.value.len == 0 && AsSlice(r.value) == []
    ensures r.Ok? ==> Capacity(r.value) == cap && (cap == 0 <==> r.value.raw.None?)
  {
    if cap > 0 then
      match DA.New(cap, file, zero, ioFails)
      case Err(e) => Err(e)
      case Ok(a) => Ok(DiskVector(0, file, Some(a)))
    else
      Ok(DiskVector(0, file, None))
  }

  /** `new(file)`: `with_capacity(0, file)`. */
  function New<T>(file: seq<T>, zero: T): (r: DiskVector<T>)
    ensures Valid(r) && r.len == 0 && Capacity(r) == 0
  {
    WithCapacity(0, file, zero, false).value
  }

  /** `reserve(additional)`: maps a new array of `len + additional` slots
      over the file, replacing the old one. The elements are kept; the
      capacity becomes exactly `len + additional`, which may be less than
      before. A reservation of zero slots on an empty vector maps nothing and
      fails. */
  function Reserve<T>(v: DiskVector<T>, additional: nat, zero: T, ioFails: bool)
    : (r: Result<DiskVector<T>, DA.IoError>)
    requires Valid(v)
    ensures r.Err? <==> ioFails || v.len + additional == 0
    ensures r.Ok? ==> Valid(r.value) && r.value.len == v.len
    ensures r.Ok? ==> Capacity(r.value) == v.len + additional
    ensures r.Ok? ==> AsSlice(r.value) == AsSlice(v)
  {
    match DA.New(v.len + additional, FileNow(v), zero, ioFails)
    case Err(e) => Err(e)
    case Ok(a) =>
      var r := v.(raw := Some(a));
      assert AsSlice(r) == AsSlice(v);
      Ok(r)
  }

  /** The capacity `push` asks for when the vector is full: `len * 2 - len`
      more slots, or 8 when the vector is empty. */
  function GrowthFor(len: nat): (r: nat)
    ensures len > 0 ==> r == len
    ensures len == 0 ==> r == DEFAULT_CAPACITY
  {
    if len > 0 then len * 2 - len else DEFAULT_CAPACITY
  }

  /** `push(value)`: when full, reserves `GrowthFor(len)` more slots, then
      writes at index `len` and counts it. A failing reservation panics
      through `expect`; that path is not modelled. */
  function Push<T>(v: DiskVector<T>, x: T, zero: T): (r: DiskVector<T>)
    requires Valid(v)
    ensures Valid(r) && r.len == v.len + 1
    ensures AsSlice(r) == AsSlice(v) + [x]
    ensures v.len < Capacity(v) ==> Capacity(r) == Capacity(v)
    ensures v.len == Capacity(v) ==> Capacity(r) == if v.len == 0 then DEFAULT_CAPACITY else 2 * v.len
  {
    var grown := if v.len == Capacity(v) then Reserve(v, GrowthFor(v.len), zero, false).value else v;
    var a := DA.Write(grown.raw.value, grown.len, x);
    var r := grown.(raw := Some(a), len := grown.len + 1);
    assert AsSlice(r)[..v.len] == AsSlice(grown);
    r
  }

  /** `pop()`: nothing when empty; otherwise the last element, with the
      length lowered by one. */
  function Pop<T>(v: DiskVector<T>): (r: (Option<T>, DiskVector<T>))
    requires Valid(v)
    ensures Valid(r.1) && Capacity(r.1) == Capacity(v)
    ensures r.0.None? <==> v.len == 0
    ensures r.0.None? ==> r.1 == v
    ensures r.0.Some? ==> r.0.value == AsSlice(v)[v.len - 1]
                          && r.1.len == v.len - 1
                          && AsSlice(r.1) == AsSlice(v)[..v.len - 1]
  {
    if v.len > 0 then
      (Some(v.raw.value.mmap[v.len - 1]), v.(len := v.len - 1))
    else
      (None, v)
  }

  /** One `push` per element of `xs`, in order. */
  function PushAll<T>(v: DiskVector<T>, xs: seq<T>, zero: T): (r: DiskVector<T>)
    requires Valid(v)
    ensures Valid(r) && r.len == v.len + |xs|
    ensures AsSlice(r) == AsSlice(v) + xs
    decreases |xs|
  {
    if xs == [] then v
    else
      var v1 := Push(v, xs[0], zero);
      AppendHeadTail(AsSlice(v), xs);
      PushAll(v1, xs[1..], zero)
  }

  /** `pop` `n` times, collecting what comes out. */
  function PopN<T>(v: DiskVector<T>, n: nat): (r: (seq<Option<T>>, DiskVector<T>))
    requires Valid(v)
    ensures |r.0| == n && Valid(r.1)
    decreases n
  {
    if n == 0 then ([], v)
    else
      var (x, v1) := Pop(v);
      var (xs, v2) := PopN(v1, n - 1);
      ([x] + xs, v2)
  }

  /** What `pop` returns depends only on the elements. */
  lemma {:induction false} PopNDependsOnSlice<T>(a: DiskVector<T>, b: DiskVector<T>, n: nat)
    requires Valid(a) && Valid(b) && AsSlice(a) == AsSlice(b)
    ensures PopN(a, n).0 == PopN(b, n).0
    ensures AsSlice(PopN(a, n).1) == AsSlice(PopN(b, n).1)
    decreases n
  {
    if n > 0 {
      var (xa, a1) := Pop(a);
      var (xb, b1) := Pop(b);
      PopNDependsOnSlice(a1, b1, n - 1);
    }
  }

  /** Popping a vector whose slice ends in `xs` once per element of `xs`
      returns them last first and leaves the slice before them. */
  lemma {:induction false} PopSuffix<T>(w: DiskVector<T>, p: seq<T>, xs: seq<T>)
    requires Valid(w) && AsSlice(w) == p + xs
    ensures var (popped, rest) := PopN(w, |xs|);
            popped == Somes(Reverse(xs)) && AsSlice(rest) == p
    decreases |xs|
  {
    if xs != [] {
      var n := |xs|;
      var init, last := xs[..n - 1], xs[n - 1];
      assert xs == init + [last];
      var (x, w1) := Pop(w);
      assert x == Some(last);
      assert AsSlice(w1) == (p + xs)[..w.len - 1] == p + init;
      PopSuffix(w1, p, init);
      ReverseSnoc(init, last);
      SomesConcat([last], Reverse(init));
    }
  }

  /** Popping as many times as elements were pushed returns them last first
      and leaves the original elements. */
  lemma PushPopLifo<T>(v: DiskVector<T>, xs: seq<T>, zero: T)
    requires Valid(v)
    ensures var (popped, rest) := PopN(PushAll(v, xs, zero), |xs|);
            popped == Somes(Reverse(xs)) && AsSlice(rest) == AsSlice(v)
  {
    PopSuffix(PushAll(v, xs, zero), AsSlice(v), xs);
  }

  /** The elements `0 .. n`. */
  function Range(n: nat): (r: seq<int>)
    ensures |r| == n && forall j :: 0 <= j < n ==> r[j] == j
  {
    if n == 0 then [] else Range(n - 1) + [n - 1]
  }

  /** The `can_read_only_valid_indices` scenario: after pushing `0 ..= i`,
      `get(j)` is `Some(j)` exactly for `j <= i`. */
  lemma ReadOnlyValidIndices(file: seq<int>, i: nat, j: nat)
    ensures var v := PushAll(New(file, 0), Range(i + 1), 0);
            (j <= i ==> Get(v, j) == Some(j)) && (j > i ==> Get(v, j).None?)
  {
    var v := PushAll(New(file, 0), Range(i + 1), 0);
    assert AsSlice(v) == Range(i + 1);
  }

  /** The `can_reserve_additional` scenario: eight pushes onto
      `with_capacity(1)` leave a capacity of at least 8. */
  lemma ReserveAdditional(file: seq<int>)
    ensures WithCapacity(1, file, 0, false).Ok?
    ensures Capacity(PushAll(WithCapacity(1, file, 0, false).value, Range(8), 0)) >= 8
  {
  }

  /** The `can_pop` scenario: popping the eight pushes of `0 .. 8` yields
      `7, 6, ..., 0`. */
  lemma PopEight(file: seq<int>, xs: seq<int>)
    requires xs == [0, 1, 2, 3, 4, 5, 6, 7]
    ensures PopN(PushAll(New(file, 0), xs, 0), |xs|).0 == Somes([7, 6, 5, 4, 3, 2, 1, 0])
  {
    PushPopLifo(New(file, 0), xs, 0);
    RangeReversed();
  }

  lemma RangeReversed()
    ensures Reverse([0, 1, 2, 3, 4, 5, 6, 7]) == [7, 6, 5, 4, 3, 2, 1, 0]
  {
    var s := [0, 1, 2, 3, 4, 5, 6, 7];
    assert s[1..] == [1, 2, 3, 4, 5, 6, 7];
    assert s[1..][1..] == [2, 3, 4, 5, 6, 7];
    assert s[1..][1..][1..] == [3, 4, 5, 6, 7];
    assert s[1..][1..][1..][1..] == [4, 5, 6, 7];
    assert s[1..][1..][1..][1..][1..] == [5, 6, 7];
    assert s[1..][1..][1..][1..][1..][1..] == [6, 7];
    assert s[1..][1..][1..][1..][1..][1..][1..] == [7];
  }
}

=== FILE: identifiers.dfy ===
/** Identifiers (identifiers.rs): a table of id nodes indexed by their
    unique id, the counter that hands out ids, and the displayable `Id`.

    An id node's owner, group and value are shared handles that no modelled
    operation inspects; they are not part of this model. The parent/child
    maps are never read or written by the modelled operations.
 */
module Identifiers {
  import opened Wrappers

  /** The largest `u64`. */
  const U64_MAX: nat := 0xFFFF_FFFF_FFFF_FFFF

  datatype IdNode = IdNode(uniqueId: nat, name: string)

  datatype IdSystem = IdSystem(nextId: nat, nodes: seq<Option<IdNode>>)

  datatype RawId = RawId(id: nat)

  /** `IdSystem::new()`. */
  function New(): (s: IdSystem)
    ensures s.nextId == 0 && |s.nodes| == 0
  {
    IdSystem(0, [])
  }

  /** Whether `id_nodes.get(i)` is `Some(Some(_))`. */
  predicate Occupied(nodes: seq<Option<IdNode>>, i: nat) {
    i < |nodes| && nodes[i].Some?
  }

  /** `next_id()` as written: takes the counter as `next`, increments the
      counter, and then, unless the counter equals the table length, keeps
      incrementing it while slot `next` (not the counter) is occupied. The
      loop runs for `fuel` rounds at most; `None` means the fuel ran out. An
      increment past `u64::MAX` panics. */
  function NextIdAsWritten(s: IdSystem, fuel: nat): (r: Option<Result<(nat, IdSystem), Panic>>)
    ensures s.nextId + 1 > U64_MAX ==> r == Some(Err(ArithmeticOverflow))
    ensures r.Some? && r.value.Err? ==> r.value.error == ArithmeticOverflow
    ensures r.Some? && r.value.Ok? ==>
              && r.value.value.0 == s.nextId
              && r.value.value.1.nodes == s.nodes && r.value.value.1.nextId > s.nextId
    ensures !Occupied(s.nodes, s.nextId) && s.nextId + 1 <= U64_MAX ==>
              r == Some(Ok((s.nextId, s.(nextId := s.nextId + 1))))
  {
    var next := s.nextId;
    if s.nextId + 1 > U64_MAX then Some(Err(ArithmeticOverflow))
    else
      var s1 := s.(nextId := s.nextId + 1);
      if s1.nextId != |s.nodes| then LoopOnNext(s1, next, fuel) else Some(Ok((next, s1)))
  }

  /** The loop of `next_id` as written, testing slot `next`. */
  function LoopOnNext(s: IdSystem, next: nat, fuel: nat): (r: Option<Result<(nat, IdSystem), Panic>>)
    ensures !Occupied(s.nodes, next) ==> r == Some(Ok((next, s)))
    ensures r.Some? && r.value.Err? ==> r.value.error == ArithmeticOverflow
    ensures r.Some? && r.value.Ok? ==>
              && r.value.value.0 == next && !Occupied(s.nodes, next)
              && r.value.value.1.nodes == s.nodes && r.value.value.1.nextId >= s.nextId
    decreases fuel
  {
    if !Occupied(s.nodes, next) then Some(Ok((next, s)))
    else if fuel == 0 then None
    else if s.nextId + 1 > U64_MAX then Some(Err(ArithmeticOverflow))
    else LoopOnNext(s.(nextId := s.nextId + 1), next, fuel - 1)
  }

  /** As written, when slot `next` is free the call returns the old counter
      and advances it by exactly one. */
  lemma NextIdAsWrittenFreeSlot(s: IdSystem)
    requires !Occupied(s.nodes, s.nextId) && s.nextId < U64_MAX
    ensures NextIdAsWritten(s, 0) == Some(Ok((s.nextId, s.(nextId := s.nextId + 1))))
  {
  }

  /** As written, when slot `next` is occupied and the incremented counter is
      not the table length, the loop never ends: whatever the number of
      rounds allowed, it either is still running or has overflowed the
      counter. With `nodes = [Some(n), None]` and a counter of 0 this is the
      case. */
  lemma {:induction false} NextIdAsWrittenDiverges(s: IdSystem, fuel: nat)
    requires Occupied(s.nodes, s.nextId) && s.nextId + 1 != |s.nodes|
    ensures NextIdAsWritten(s, fuel).None? || NextIdAsWritten(s, fuel) == Some(Err(ArithmeticOverflow))
  {
    if s.nextId + 1 <= U64_MAX {
      LoopNeverReturnsOccupied(s.(nextId := s.nextId + 1), s.nextId, fuel);
    }
  }

  lemma {:induction false} LoopNeverReturnsOccupied(s: IdSystem, next: nat, fuel: nat)
    requires Occupied(s.nodes, next)
    ensures LoopOnNext(s, next, fuel).None? || LoopOnNext(s, next, fuel) == Some(Err(ArithmeticOverflow))
    decreases fuel
  {
    if fuel > 0 && s.nextId + 1 <= U64_MAX {
      LoopNeverReturnsOccupied(s.(nextId := s.nextId + 1), next, fuel - 1);
    }
  }

  lemma DivergenceExample(n: IdNode, fuel: nat)
    ensures var s := IdSystem(0, [Some(n), None]);
            var r := NextIdAsWritten(s, fuel);
            r.None? || r.value.Err?
  {
    var s := IdSystem(0, [Some(n), None]);
    NextIdAsWrittenDiverges(s, fuel);
  }

  /** `next_id()` with the loop testing the counter: returns the old counter
      and moves the counter past every occupied slot that follows it. */
  function NextId(s: IdSystem): (r: Result<(nat, IdSystem), Panic>)
    ensures r.Ok? ==> r.value.0 == s.nextId && r.value.1.nodes == s.nodes
    ensures r.Ok? ==> r.value.1.nextId > s.nextId
    ensures r.Ok? ==> !Occupied(r.value.1.nodes, r.value.1.nextId)
    ensures r.Ok? ==> forall i :: s.nextId < i < r.value.1.nextId ==> Occupied(s.nodes, i)
    ensures r.Err? ==> r.error == ArithmeticOverflow
  {
    var next := s.nextId;
    if s.nextId + 1 > U64_MAX then Err(ArithmeticOverflow)
    else
      var s1 := s.(nextId := s.nextId + 1);
      if s1.nextId != |s.nodes| then
        match SkipOccupied(s1)
        case Err(e) => Err(e)
        case Ok(s2) => Ok((next, s2))
      else Ok((next, s1))
  }

  /** Advances the counter while its slot is occupied. */
  function SkipOccupied(s: IdSystem): (r: Result<IdSystem, Panic>)
    ensures r.Ok? ==> r.value.nodes == s.nodes && r.value.nextId >= s.nextId
    ensures r.Ok? ==> !Occupied(r.value.nodes, r.value.nextId)
    ensures r.Ok? ==> forall i :: s.nextId <= i < r.value.nextId ==> Occupied(s.nodes, i)
    ensures r.Err? ==> r.error == ArithmeticOverflow
    decreases |s.nodes| - s.nextId
  {
    if !Occupied(s.nodes, s.nextId) then Ok(s)
    else if s.nextId + 1 > U64_MAX then Err(ArithmeticOverflow)
    else SkipOccupied(s.(nextId := s.nextId + 1))
  }

  /** Successive ids are distinct: the counter only grows. */
  lemma IdsIncrease(s: IdSystem)
    requires NextId(s).Ok? && NextId(NextId(s).value.1).Ok?
    ensures NextId(NextId(s).value.1).value.0 > NextId(s).value.0
  {
  }

  /** `new_id_node(name, ..)`: panics on an empty name; otherwise a node
      named `name` with the id `next_id` hands out. */
  function NewIdNode(s: IdSystem, name: string): (r: Result<(IdNode, IdSystem), Panic>)
    ensures name == [] ==> r == Err(EmptyName)
    ensures name != [] ==> (r.Ok? <==> NextId(s).Ok?)
    ensures r.Ok? ==> r.value.0 == IdNode(s.nextId, name) && r.value.1 == NextId(s).value.1
  {
    if name == [] then Err(EmptyName)
    else
      match NextId(s)
      case Err(e) => Err(e)
      case Ok((id, s1)) => Ok((IdNode(id, name), s1))
  }

  /** Two nodes made one after the other get different ids. */
  lemma NewIdNodesDistinct(s: IdSystem, a: string, b: string)
    requires NewIdNode(s, a).Ok?
    requires NewIdNode(NewIdNode(s, a).value.1, b).Ok?
    ensures NewIdNode(NewIdNode(s, a).value.1, b).value.0.uniqueId != NewIdNode(s, a).value.0.uniqueId
  {
  }

  /** `get_id_node(raw)`: the node in slot `raw.id`, if the slot exists and
      is filled. */
  function GetIdNode(s: IdSystem, raw: RawId): (r: Option<IdNode>)
    ensures r.Some? <==> Occupied(s.nodes, raw.id)
    ensures r.Some? ==> Some(r.value) == s.nodes[raw.id]
  {
    if raw.id < |s.nodes| then s.nodes[raw.id] else None
  }

  /** `IdNode::raw_id()` and `RawId::resolve`: a node stored in the slot of
      its own id resolves back to itself. */
  lemma RawIdResolves(s: IdSystem, n: IdNode)
    requires n.uniqueId < |s.nodes| && s.nodes[n.uniqueId] == Some(n)
    ensures GetIdNode(s, RawId(n.uniqueId)) == Some(n)
  {
  }

  // ---------------------------------------------------------------------------
  // Id

  datatype Id = Id(isAbs: bool, disp: seq<string>, raw: RawId)

  const SEP: char := ':'

  /** `disp.join(":")`. */
  function Join(parts: seq<string>): (r: string)
  {
    if parts == [] then []
    else if |parts| == 1 then parts[0]
    else parts[0] + [SEP] + Join(parts[1..])
  }

  /** `Display`: a leading ":" for an absolute id, then the components joined
      with ":". When the first component is non-empty and does not itself
      start with ":", the text starts with ":" exactly for an absolute id. */
  function Display(id: Id): (r: string)
    ensures id.disp == [] ==> r == (if id.isAbs then [SEP] else [])
    ensures |id.disp| > 0 && |id.disp[0]| > 0 && id.disp[0][0] != SEP ==>
              |r| > 0 && (id.isAbs <==> r[0] == SEP)
  {
    var prefix := if id.isAbs then [SEP] else [];
    if |id.disp| > 0 && |id.disp[0]| > 0 then
      JoinStartsWithFirst(id.disp);
      prefix + Join(id.disp)
    else
      prefix + Join(id.disp)
  }

  /** `PartialEq`: two ids are equal exactly when their raw ids are. */
  predicate Equal(a: Id, b: Id)
    ensures Equal(a, b) <==> HashInput(a) == HashInput(b)
  {
    a.raw == b.raw
  }

  /** `Hash`: what is fed to the hasher; only the raw id. */
  function HashInput(id: Id): RawId {
    id.raw
  }

  /** Equality and hashing ignore the display path and `is_abs`, and agree:
      equal ids hash alike. */
  lemma EqualityIgnoresDisplay(a: Id, b: Id, isAbs: bool, disp: seq<string>)
    ensures Equal(a, b) <==> HashInput(a) == HashInput(b)
    ensures Equal(a, a.(isAbs := isAbs, disp := disp))
    ensures Equal(a, b) ==> HashInput(a.(disp := disp)) == HashInput(b)
  {
  }

  /** Splits a string at every ":". */
  function SplitOnSep(s: string): (r: seq<string>)
    ensures |r| > 0
  {
    if s == [] then [[]]
    else
      var rest := SplitOnSep(s[1..]);
      if s[0] == SEP then [[]] + rest else [[s[0]] + rest[0]] + rest[1..]
  }

  lemma {:induction false} SplitPlain(p: string)
    requires SEP !in p
    ensures SplitOnSep(p) == [p]
  {
    if p != [] {
      SplitPlain(p[1..]);
      assert [p[0]] + p[1..] == p;
    }
  }

  lemma {:induction false} SplitAtFirstSep(p: string, rest: string)
    requires SEP !in p
    ensures SplitOnSep(p + [SEP] + rest) == [p] + SplitOnSep(rest)
  {
    if p == [] {
      assert p + [SEP] + rest == [SEP] + rest;
      assert ([SEP] + rest)[1..] == rest;
    } else {
      SplitAtFirstSep(p[1..], rest);
      assert (p + [SEP] + rest)[1..] == p[1..] + [SEP] + rest;
      assert [p[0]] + p[1..] == p;
    }
  }

  /** Components without ":" can be read back from the joined form. */
  lemma {:induction false} SplitJoin(parts: seq<string>)
    requires |parts| > 0 && forall j :: 0 <= j < |parts| ==> SEP !in parts[j]
    ensures SplitOnSep(Join(parts)) == parts
  {
    if |parts| == 1 {
      SplitPlain(parts[0]);
    } else {
      SplitJoin(parts[1..]);
      SplitAtFirstSep(parts[0], Join(parts[1..]));
      assert [parts[0]] + parts[1..] == parts;
    }
  }

  /** Reading a displayed id back: whether it starts with ":" and the
      components after it. */
  function ParseDisplay(s: string): (bool, seq<string>) {
    if |s| > 0 && s[0] == SEP then (true, SplitOnSep(s[1..])) else (false, SplitOnSep(s))
  }

  /** The display form loses nothing but the raw id: an id whose components
      are non-empty and free of ":" is recovered from its display. */
  lemma DisplayRoundTrip(id: Id)
    requires |id.disp| > 0
    requires forall j :: 0 <= j < |id.disp| ==> |id.disp[j]| > 0 && SEP !in id.disp[j]
    ensures ParseDisplay(Display(id)) == (id.isAbs, id.disp)
  {
    SplitJoin(id.disp);
    var j := Join(id.disp);
    assert |j| > 0 && j[0] != SEP by {
      JoinStartsWithFirst(id.disp);
    }
    if id.isAbs {
      assert Display(id)[1..] == j;
    } else {
      assert Display(id) == j;
    }
  }

  lemma JoinStartsWithFirst(parts: seq<string>)
    requires |parts| > 0 && |parts[0]| > 0
    ensures |Join(parts)| > 0 && Join(parts)[0] == parts[0][0]
  {
  }

  /** Two examples: `:a:b` for an absolute id with components `a` and `b`,
      and `a` for a relative id with the single component `a`. */
  lemma DisplayExamples(raw: RawId)
    ensures Display(Id(true, ["a", "b"], raw)) == ":a:b"
    ensures Display(Id(false, ["a"], raw)) == "a"
  {
    assert Join(["a", "b"]) == "a" + ":" + Join(["b"]);
  }
}

=== FILE: lock_api.dfy ===
/** The key/lock API (auth/lock_api.rs): data that only a key the lock's
    tumbler accepts can reach.

    A tumbler is seen through `unlock(tumbler, key)`, its verdict on a key.
 */
module LockApi {
  import opened Wrappers

  datatype Lock<T, M> = Lock(tumbler: M, data: T)

  /** `Lock::new(tumbler, data)`. */
  function New<T, M>(tumbler: M, data: T): Lock<T, M> {
    Lock(tumbler, data)
  }

  /** `get(key)`: the data when the tumbler accepts the key, else the
      tumbler's error. */
  function Get<T, M, K, E>(l: Lock<T, M>, key: K, unlock: (M, K) -> Result<(), E>): (r: Result<T, E>)
    ensures r.Ok? <==> unlock(l.tumbler, key).Ok?
    ensures r.Ok? ==> r.value == l.data
    ensures r.Err? ==> r.error == unlock(l.tumbler, key).error
  {
    match unlock(l.tumbler, key)
    case Ok(_) => Ok(l.data)
    case Err(e) => Err(e)
  }

  /** `get_mut(key)`, followed by a write of `x` through the reference when
      it is granted. */
  function GetMutWrite<T, M, K, E>(l: Lock<T, M>, key: K, x: T, unlock: (M, K) -> Result<(), E>)
    : (r: (Result<(), E>, Lock<T, M>))
    ensures r.0.Ok? <==> unlock(l.tumbler, key).Ok?
    ensures r.0.Ok? ==> r.1 == l.(data := x)
    ensures r.0.Err? ==> r.0.error == unlock(l.tumbler, key).error && r.1 == l
  {
    match unlock(l.tumbler, key)
    case Ok(_) => (Ok(()), l.(data := x))
    case Err(e) => (Err(e), l)
  }

  /** `take(key)`: the data when the key is accepted; otherwise the error and
      the lock, unchanged. */
  function Take<T, M, K, E>(l: Lock<T, M>, key: K, unlock: (M, K) -> Result<(), E>): (r: Result<T, (E, Lock<T, M>)>)
    ensures r.Ok? <==> unlock(l.tumbler, key).Ok?
    ensures r.Ok? ==> r.value == l.data
    ensures r.Err? ==> r.error == (unlock(l.tumbler, key).error, l)
  {
    match unlock(l.tumbler, key)
    case Ok(_) => Ok(l.data)
    case Err(e) => Err((e, l))
  }

  /** A key that `get` accepts also opens the lock for `get_mut` and `take`,
      and they reach the same data. */
  lemma AccessRulesAgree<T, M, K, E>(l: Lock<T, M>, key: K, x: T, unlock: (M, K) -> Result<(), E>)
    ensures Get(l, key, unlock).Ok? <==> GetMutWrite(l, key, x, unlock).0.Ok?
    ensures Get(l, key, unlock).Ok? <==> Take(l, key, unlock).Ok?
    ensures Get(l, key, unlock).Ok? ==> Get(GetMutWrite(l, key, x, unlock).1, key, unlock) == Ok(x)
    ensures Take(l, key, unlock).Err? ==> Take(Take(l, key, unlock).error.1, key, unlock) == Take(l, key, unlock)
  {
  }

  /** A new lock hands its data to exactly the keys its tumbler accepts, and
      a refused `take` gives the lock back as it was made. */
  lemma NewThenGet<T, M, K, E>(tumbler: M, data: T, key: K, unlock: (M, K) -> Result<(), E>)
    ensures Get(New(tumbler, data), key, unlock)
            == (if unlock(tumbler, key).Ok? then Ok(data) else Err(unlock(tumbler, key).error))
    ensures Take(New(tumbler, data), key, unlock).Err? ==>
              Take(New(tumbler, data), key, unlock).error.1 == New(tumbler, data)
  {
  }

  /** `SimpleKey<N>`: `N` bytes. */
  datatype SimpleKey = SimpleKey(bytes: seq<bv8>)

  /** `SimpleKey::unlock`: a simple key is its own tumbler and accepts
      exactly an equal key. */
  function SimpleUnlock(tumbler: SimpleKey, key: SimpleKey): (r: Result<(), ()>)
    ensures r.Ok? <==> tumbler.bytes == key.bytes
  {
    if tumbler == key then Ok(()) else Err(())
  }

  /** The `simple_lock` scenario: a lock made with a clone of a key opens
      with that key and with no other. */
  lemma SimpleLockScenario<T>(key: SimpleKey, other: SimpleKey, data: T)
    requires other != key
    ensures Get(New(key, data), key, SimpleUnlock) == Ok(data)
    ensures Get(New(key, data), other, SimpleUnlock).Err?
  {
  }
}

=== FILE: merge_strategies.dfy ===
/** Configuration merge strategies (config/merge_strategies.rs): how a
    field of a configuration takes a value from another source. */
module MergeStrategies {

  /** `override_if_value(value)(orig, new)`: the field becomes `new` (`incoming`) when it
      holds `value`, and keeps its value otherwise. */
  function OverrideIfValue<T(==)>(value: T, orig: T, incoming: T): (r: T)
    ensures orig == value ==> r == incoming
    ensures orig != value ==> r == orig
  {
    if orig == value then incoming else orig
  }

  /** `override_default()(orig, new)`: `override_if_value(T::default())`,
      with `dflt` for `T::default()`. */
  function OverrideDefault<T(==)>(dflt: T, orig: T, incoming: T): (r: T)
    ensures orig == dflt ==> r == incoming
    ensures orig != dflt ==> r == orig
  {
    OverrideIfValue(dflt, orig, incoming)
  }

  /** A merge leaves one of its two inputs, and merging the same value a
      second time changes nothing. */
  lemma MergeSettles<T>(value: T, orig: T, incoming: T)
    ensures OverrideIfValue(value, orig, incoming) in {orig, incoming}
    ensures var once := OverrideIfValue(value, orig, incoming);
            OverrideIfValue(value, once, incoming) == once
  {
  }
}

=== FILE: persisted_cell.dfy ===
/** `PersistedUnsafeCell` (persist/persisted_unsafe_cell.rs): one value kept
    in the base slot of a block. The block is seen through its typed slots;
    pointers are slot indices, and the cell's pointers all designate the base
    slot.
 */
module PersistedUnsafeCell {

  /** The index of the slot `Block::as_ptr` / `as_mut_ptr` designate. */
  const BASE: nat := 0

  /** The cell owns the block; `block` lists its typed slots. */
  datatype UnsafeCell<T> = UnsafeCell(block: seq<T>)

  predicate Valid<T>(c: UnsafeCell<T>) {
    BASE < |c.block|
  }

  /** Reading through a pointer. */
  function Load<T>(c: UnsafeCell<T>, ptr: nat): T
    requires ptr < |c.block|
  {
    c.block[ptr]
  }

  /** Writing through a pointer: that slot changes, no other does. */
  function Store<T>(c: UnsafeCell<T>, ptr: nat, v: T): (r: UnsafeCell<T>)
    requires ptr < |c.block|
    ensures |r.block| == |c.block|
    ensures Load(r, ptr) == v
    ensures forall i :: 0 <= i < |c.block| && i != ptr ==> r.block[i] == c.block[i]
  {
    UnsafeCell(c.block[ptr := v])
  }

  /** `PersistedUnsafeCell::new(block, value)`: writes `value` at the
      block's base pointer and keeps the block. */
  function New<T>(block: seq<T>, value: T): (c: UnsafeCell<T>)
    requires BASE < |block|
    ensures Valid(c) && |c.block| == |block|
    ensures Load(c, Get(c)) == value
    ensures forall i :: BASE < i < |block| ==> c.block[i] == block[i]
  {
    Store(UnsafeCell(block), BASE, value)
  }

  /** `get`: the (mutable) pointer to the wrapped value. */
  function Get<T>(c: UnsafeCell<T>): (ptr: nat)
    requires Valid(c)
    ensures ptr < |c.block|
  {
    BASE
  }

  /** `get_mut`: the reference to the wrapped value, as the slot it names;
      it aliases the pointer `get` returns. */
  function GetMut<T>(c: UnsafeCell<T>): (ptr: nat)
    requires Valid(c)
    ensures ptr < |c.block| && ptr == Get(c)
  {
    BASE
  }

  /** `into_inner`: reads the value at the base pointer, the one `get`
      points at. */
  function IntoInner<T>(c: UnsafeCell<T>): (r: T)
    requires Valid(c)
    ensures r == Load(c, Get(c))
  {
    c.block[BASE]
  }

  /** A new cell gives back the value it was built with. */
  lemma NewIntoInner<T>(block: seq<T>, value: T)
    requires BASE < |block|
    ensures IntoInner(New(block, value)) == value
  {
  }

  /** `get` and `get_mut` designate one slot: a write through either is what
      the other, and `into_inner`, read. */
  lemma GetAndGetMutAlias<T>(c: UnsafeCell<T>, v: T)
    requires Valid(c)
    ensures Get(c) == GetMut(c)
    ensures Load(Store(c, GetMut(c), v), Get(c)) == v
    ensures IntoInner(Store(c, Get(c), v)) == v
  {
  }
}

/** `PersistedCell` (persist/persisted_cell.rs): the safe single-value
    interface over `PersistedUnsafeCell`, in the manner of `Cell`. */
module PersistedCell {
  import U = PersistedUnsafeCell

  datatype Cell<T> = Cell(inner: U.UnsafeCell<T>)

  predicate Valid<T>(c: Cell<T>) {
    U.Valid(c.inner)
  }

  /** The block's slots other than the one holding the value. */
  function Rest<T>(c: Cell<T>): seq<T>
    requires Valid(c)
  {
    c.inner.block[U.BASE + 1..]
  }

  /** `PersistedCell::new(block, value)`. */
  function New<T>(block: seq<T>, value: T): (c: Cell<T>)
    requires U.BASE < |block|
    ensures Valid(c) && Get(c) == value
    ensures Rest(c) == block[U.BASE + 1..]
  {
    Cell(U.New(block, value))
  }

  /** `get`: copies the wrapped value out through the unsafe pointer; it is
      the value the unsafe cell would give up. */
  function Get<T>(c: Cell<T>): (r: T)
    requires Valid(c)
    ensures r == U.IntoInner(c.inner)
  {
    U.Load(c.inner, U.Get(c.inner))
  }

  /** A write through the reference `get_mut` hands out. */
  function WriteGetMut<T>(c: Cell<T>, v: T): (r: Cell<T>)
    requires Valid(c)
    ensures Valid(r) && Get(r) == v && Rest(r) == Rest(c)
  {
    Cell(U.Store(c.inner, U.GetMut(c.inner), v))
  }

  /** `set(val)`. */
  function Set<T>(c: Cell<T>, v: T): (r: Cell<T>)
    requires Valid(c)
    ensures Valid(r) && Get(r) == v && Rest(r) == Rest(c)
  {
    Cell(U.Store(c.inner, U.Get(c.inner), v))
  }

  /** `swap(other)`: `ptr::swap` of the two cells' values. */
  function Swap<T>(a: Cell<T>, b: Cell<T>): (r: (Cell<T>, Cell<T>))
    requires Valid(a) && Valid(b)
    ensures Valid(r.0) && Valid(r.1)
    ensures Get(r.0) == Get(b) && Get(r.1) == Get(a)
    ensures Rest(r.0) == Rest(a) && Rest(r.1) == Rest(b)
  {
    var va, vb := Get(a), Get(b);
    (Cell(U.Store(a.inner, U.Get(a.inner), vb)), Cell(U.Store(b.inner, U.Get(b.inner), va)))
  }

  /** `replace(value)`: `ptr::replace`, which returns the previous value. */
  function Replace<T>(c: Cell<T>, v: T): (r: (T, Cell<T>))
    requires Valid(c)
    ensures r.0 == Get(c)
    ensures Valid(r.1) && Get(r.1) == v && Rest(r.1) == Rest(c)
  {
    var previous := Get(c);
    (previous, Set(c, v))
  }

  /** `take()`: `replace(T::default())`; `dflt` is `T::default()`. */
  function Take<T>(c: Cell<T>, dflt: T): (r: (T, Cell<T>))
    requires Valid(c)
    ensures r.0 == Get(c)
    ensures Valid(r.1) && Get(r.1) == dflt && Rest(r.1) == Rest(c)
  {
    Replace(c, dflt)
  }

  /** `into_inner`: the unsafe cell's `into_inner`, which is the value `get`
      copies out. */
  function IntoInner<T>(c: Cell<T>): (r: T)
    requires Valid(c)
    ensures r == Get(c)
  {
    U.IntoInner(c.inner)
  }

  /** What `set` stores is what `get` and `into_inner` then return. */
  lemma SetThenGet<T>(c: Cell<T>, v: T)
    requires Valid(c)
    ensures Get(Set(c, v)) == v
    ensures IntoInner(Set(c, v)) == v
  {
  }

  /** `get_mut` exposes the slot `get` reads: writing through it is `set`. */
  lemma GetMutIsSet<T>(c: Cell<T>, v: T)
    requires Valid(c)
    ensures WriteGetMut(c, v) == Set(c, v)
  {
  }

  /** Swapping twice restores both cells. */
  lemma SwapTwice<T>(a: Cell<T>, b: Cell<T>)
    requires Valid(a) && Valid(b)
    ensures var (a1, b1) := Swap(a, b);
            Swap(a1, b1) == (a, b)
  {
    var (a1, b1) := Swap(a, b);
    var (a2, b2) := Swap(a1, b1);
    assert a2.inner.block == a.inner.block;
    assert b2.inner.block == b.inner.block;
  }

  /** Replacing and then putting the returned value back restores the cell. */
  lemma ReplaceUndo<T>(c: Cell<T>, v: T)
    requires Valid(c)
    ensures var (previous, c1) := Replace(c, v);
            Replace(c1, previous) == (v, c)
  {
    var (previous, c1) := Replace(c, v);
    assert Set(c1, previous).inner.block == c.inner.block;
  }

  /** The `test_swap`, `test_replace` and `test_take` scenarios. */
  lemma CellScenarios(b1: seq<int>, b2: seq<int>)
    requires U.BASE < |b1| && U.BASE < |b2|
    ensures var (c1, c2) := Swap(New(b1, 32), New(b2, 64));
            Get(c1) == 64 && Get(c2) == 32
    ensures var (previous, c) := Replace(New(b1, 32), 64);
            previous == 32 && Get(c) == 64
    ensures var (took, c) := Take(New(b1, 32), 0);
            took == 32 && Get(c) == 0
  {
  }
}

=== FILE: persisted_raw_array.dfy ===
/** `PersistedRawArray` (persist/persisted_raw_array.rs): an array of `T`
    placed in a block at the first address aligned for `T`.

    The array's `block` field is written as an untyped `Block`; it is read
    here as a block of bytes, whose `size()` counts bytes and whose
    `reserve(n)` adds `n` bytes. Only the block's size matters.

    Addresses are not modelled. `alignOffset(size)` stands for what
    `align_offset` reports for the base address of the block's mapping once
    the block holds `size` bytes. Every round of `reserve` makes a larger
    block, so this is one address per round. The offset is always below the
    alignment.
 */
module PersistedRawArray {
  import opened Wrappers
  import opened Arith

  /** The array owns a block of `size` bytes and starts `offset` bytes into
      it. */
  datatype RawArray = RawArray(size: nat, offset: nat)

  /** `new(block)`: records the base address's alignment offset. */
  function New(size: nat, alignOffset: nat -> nat): (r: RawArray)
    ensures r.size == size && r.offset == alignOffset(size)
  {
    RawArray(size, alignOffset(size))
  }

  /** `capacity()`: the bytes from the aligned start to the end of the block;
      the `usize` subtraction panics when the offset passes the end. */
  function Capacity(a: RawArray): (r: Result<nat, Panic>)
    ensures r.Err? <==> a.offset > a.size
    ensures r.Err? ==> r.error == ArithmeticOverflow
    ensures r.Ok? ==> r.value + a.offset == a.size
  {
    if a.offset > a.size then Err(ArithmeticOverflow) else Ok(a.size - a.offset)
  }

  /** `after` is `before` plus a positive number of `step`s. */
  predicate GrownInSteps(before: nat, after: nat, step: int) {
    step > 0 && after > before && (after - before) % step == 0
  }

  /** A growth of a positive number of steps is at least one step. */
  lemma StepsAtLeastOne(before: nat, after: nat, step: int)
    requires GrownInSteps(before, after, step)
    ensures after >= before + step
  {
    var q := (after - before) / step;
    assert after - before == step * q;
    assert q >= 1;
    MulMonotone(1, q, step);
  }

  /** A block grown by at least one step, whose offset did not move up,
      has at least one step more room. */
  lemma RoomAfterGrowth(a: RawArray, grown: RawArray, step: int)
    requires Capacity(a).Ok? && Capacity(grown).Ok?
    requires grown.size >= a.size + step
    ensures grown.offset <= a.offset ==> Capacity(grown).value >= Capacity(a).value + step
  {
  }

  /** One more step keeps the growth a whole number of steps. */
  lemma GrownOneMore(before: nat, after: nat, step: nat)
    requires step > 0 && (after == before || GrownInSteps(before, after, step))
    ensures GrownInSteps(before, after + step, step)
  {
    var q := (after - before) / step;
    assert after - before == step * q;
    assert after + step - before == step * (q + 1);
    ModMultiple(q + 1, step);
  }

  /** `before` grown by `n` steps of `step`. */
  function AfterSteps(before: nat, step: nat, n: nat): nat {
    if n == 0 then before else AfterSteps(before, step, n - 1) + step
  }

  /** A positive number of positive steps is a growth in whole steps. */
  lemma {:induction false} AfterStepsGrown(before: nat, step: nat, n: nat)
    requires step > 0 && n > 0
    ensures GrownInSteps(before, AfterSteps(before, step, n), step)
  {
    if n > 1 {
      AfterStepsGrown(before, step, n - 1);
    }
    GrownOneMore(before, AfterSteps(before, step, n - 1), step);
  }

  /** The loop of `reserve`: while the capacity is below `target`, grows the
      block by `step` bytes and recomputes the offset for the grown block. */
  method GrowUntil(a: RawArray, target: nat, step: nat, align: nat, alignOffset: nat -> nat)
    returns (r: Result<RawArray, Panic>)
    requires align > 0 && forall s :: alignOffset(s) < align
    requires a.offset < align && Capacity(a).Ok?
    requires step > 0 || Capacity(a).value >= target
    ensures r.Err? ==> r.error == ArithmeticOverflow
    ensures r.Ok? ==> Capacity(r.value).Ok? && Capacity(r.value).value >= target
    ensures r.Ok? ==> r.value.size >= a.size
    ensures r.Ok? && r.value != a ==> r.value.offset == alignOffset(r.value.size)
                                      && GrownInSteps(a.size, r.value.size, step)
    ensures Capacity(a).value >= target ==> r == Ok(a)
  {
    var c := Capacity(a);
    var cur := a;
    ghost var n: nat := 0;
    while c.value < target
      invariant c == Capacity(cur) && c.Ok?
      invariant cur.size == AfterSteps(a.size, step, n)
      invariant n == 0 ==> cur == a
      invariant n > 0 ==> cur.offset == alignOffset(cur.size) && step > 0 && Capacity(a).value < target
      invariant cur.offset < align
      decreases target + align - cur.size
    {
      cur := RawArray(cur.size + step, alignOffset(cur.size + step));
      n := n + 1;
      c := Capacity(cur);
      if c.Err? {
        return Err(c.error);
      }
    }
    if n > 0 {
      AfterStepsGrown(a.size, step, n);
    }
    return Ok(cur);
  }

  /** `reserve(additional)`: while the capacity is below the old capacity
      plus `additional`, grows the block by `size_of::<T>() * additional`
      bytes and recomputes the offset for the grown block.

      The documented promise is room for `additional` more values, that is
      `size_of::<T>() * additional` more bytes. That holds whenever the
      recomputed offset is not larger than the old one. The loop's own
      target adds an element count to a byte count, so without that
      condition it guarantees only `additional` more bytes. */
  method Reserve(a: RawArray, additional: nat, tsize: nat, align: nat, alignOffset: nat -> nat)
    returns (r: Result<RawArray, Panic>)
    requires tsize > 0 && align > 0
    requires forall s :: alignOffset(s) < align
    requires a.offset < align
    ensures Capacity(a).Err? ==> r == Err(ArithmeticOverflow)
    ensures r.Err? ==> r.error == ArithmeticOverflow
    ensures r.Ok? ==> Capacity(a).Ok? && Capacity(r.value).Ok?
                      && Capacity(r.value).value >= Capacity(a).value + additional
    ensures r.Ok? && r.value.offset <= a.offset ==>
              Capacity(r.value).value >= Capacity(a).value + tsize * additional
    ensures r.Ok? ==> r.value.size >= a.size
    ensures r.Ok? && r.value != a ==> r.value.offset == alignOffset(r.value.size)
                                      && GrownInSteps(a.size, r.value.size, tsize * additional)
    ensures additional == 0 && Capacity(a).Ok? ==> r == Ok(a)
  {
    var c := Capacity(a);
    if c.Err? {
      return Err(c.error);
    }
    var step := tsize * additional;
    if additional > 0 {
      MulMonotone(1, additional, tsize);
    }
    r := GrowUntil(a, c.value + additional, step, align, alignOffset);
    if r.Ok? && r.value != a {
      StepsAtLeastOne(a.size, r.value.size, step);
      RoomAfterGrowth(a, r.value, step);
    }
  }
}

=== FILE: persisted_vec.dfy ===
/** `PersistentVec` (persist/persisted_vec.rs): a length-prefixed sequence
    stored in one arena. The first machine word of the arena holds the length;
    the bytes after it hold the elements, packed.

    The arena is abstract: its size in bytes, the value of its header word,
    and the typed element slots that fit after the header. Growing the arena
    keeps the header and every existing slot and adds slots holding the
    all-zero value `zero`. `esize` is the size in bytes of one element.
 */
module PersistentVec {
  import opened Wrappers
  import opened Arith
  import opened Seqs

  /** `size_of::<usize>()`: the width of the length header on 64-bit targets. */
  const WORD: nat := 8

  datatype Arena<T> = Arena(size: nat, header: nat, slots: seq<T>)

  /** How many elements fit after the header of an arena of `size` bytes. */
  function SlotCount(size: nat, esize: nat): nat
    requires esize > 0
  {
    if size < WORD then 0 else (size - WORD) / esize
  }

  lemma SlotCountMonotone(s1: nat, s2: nat, esize: nat)
    requires esize > 0 && s1 <= s2
    ensures SlotCount(s1, esize) <= SlotCount(s2, esize)
  {
    if s1 >= WORD {
      DivMonotone(s1 - WORD, s2 - WORD, esize);
    }
  }

  predicate ArenaOk<T>(a: Arena<T>, esize: nat) {
    esize > 0 && |a.slots| == SlotCount(a.size, esize)
  }

  /** The abstract arena's `reserve(additional)`: `additional` more bytes,
      with the header and every existing slot kept. */
  function Grow<T>(a: Arena<T>, additional: nat, esize: nat, zero: T): (r: Arena<T>)
    requires ArenaOk(a, esize)
    ensures ArenaOk(r, esize)
    ensures r.size == a.size + additional && r.header == a.header
    ensures |r.slots| >= |a.slots| && r.slots[..|a.slots|] == a.slots
  {
    var n := SlotCount(a.size + additional, esize);
    SlotCountMonotone(a.size, a.size + additional, esize);
    Arena(a.size + additional, a.header, a.slots + Fill(n - |a.slots|, zero))
  }

  /** The vector owns the arena. */
  datatype PVec<T> = PVec(arena: Arena<T>)

  /** The vector invariant: the header fits, and the length it records does not
      exceed the slots that fit after it. */
  predicate Valid<T>(v: PVec<T>, esize: nat) {
    && ArenaOk(v.arena, esize)
    && v.arena.size >= WORD
    && v.arena.header <= |v.arena.slots|
  }

  /** `len()`: the arena's first word, which counts the elements. */
  function Len<T>(v: PVec<T>): (r: nat)
    ensures v.arena.header <= |v.arena.slots| ==> r == |Contents(v)|
  {
    v.arena.header
  }

  /** `set_len(n)`: writes the arena's first word and nothing else. */
  function SetLen<T>(v: PVec<T>, n: nat): (r: PVec<T>)
    ensures Len(r) == n
    ensures r.arena.size == v.arena.size && r.arena.slots == v.arena.slots
  {
    PVec(v.arena.(header := n))
  }

  /** The elements: the first `len` slots. */
  function Contents<T>(v: PVec<T>): seq<T>
    requires v.arena.header <= |v.arena.slots|
  {
    v.arena.slots[..v.arena.header]
  }

  /** `PersistentVec::new(block)`: panics unless the arena holds a word
      (`assert_can_contain::<usize>`); otherwise the vector is whatever the
      arena's header and slots already record. `a.header <= |a.slots|` is the
      layout a vector leaves behind, which `new` trusts without checking. */
  function New<T>(a: Arena<T>, esize: nat): (r: Result<PVec<T>, Panic>)
    requires ArenaOk(a, esize) && a.header <= |a.slots|
    ensures r.Err? <==> a.size < WORD
    ensures r.Err? ==> r.error == ArenaTooSmall
    ensures r.Ok? ==> Valid(r.value, esize)
    ensures r.Ok? ==> Len(r.value) == a.header && Contents(r.value) == a.slots[..a.header]
  {
    if a.size < WORD then Err(ArenaTooSmall) else Ok(PVec(a))
  }

  /** `capacity()` as written: the arena's size minus the header's offset, a
      count of BYTES. For elements of `esize` bytes it is `esize` times
      the number of element slots, up to a remainder below `esize`. */
  function Capacity<T>(v: PVec<T>): (r: nat)
    requires v.arena.size >= WORD
    ensures forall esize :: ArenaOk(v.arena, esize) ==> SlotCapacity(v) == r / esize
  {
    v.arena.size - WORD
  }

  /** The number of element slots, the capacity in elements. */
  function SlotCapacity<T>(v: PVec<T>): nat {
    |v.arena.slots|
  }

  /** `reserve(n)`: grows the arena by `n` elements' worth of bytes. */
  function Reserve<T>(v: PVec<T>, n: nat, esize: nat, zero: T): (r: PVec<T>)
    requires Valid(v, esize)
    ensures Valid(r, esize)
    ensures Contents(r) == Contents(v)
    ensures SlotCapacity(r) >= SlotCapacity(v) + n
  {
    var a := Grow(v.arena, n * esize, esize, zero);
    DivAddMultiple(v.arena.size - WORD, esize, n);
    PVec(a)
  }

  /** `get(i)` of the slice view. */
  function Get<T>(v: PVec<T>, i: nat): (r: Option<T>)
    requires v.arena.header <= |v.arena.slots|
    ensures r.Some? <==> i < Len(v)
    ensures r.Some? ==> r.value == Contents(v)[i]
  {
    if i < Len(v) then Some(v.arena.slots[i]) else None
  }

  // ---------------------------------------------------------------------------
  // push

  /** The growth loop of `push`, as written: it grows while `len + 1 >=
      capacity()`, where `capacity()` counts bytes, each round by
      `capacity * size + size` bytes. */
  function GrowForPushAsWritten<T>(a: Arena<T>, esize: nat, zero: T): (r: Arena<T>)
    requires ArenaOk(a, esize) && a.size >= WORD
    ensures ArenaOk(r, esize) && r.size >= WORD
    ensures r.header == a.header
    ensures r.header + 1 < r.size - WORD
    ensures |r.slots| >= |a.slots| && r.slots[..|a.slots|] == a.slots
    decreases a.header + 1 - (a.size - WORD)
  {
    if a.header + 1 >= a.size - WORD then
      var capacity := a.size - WORD;
      GrowForPushAsWritten(Grow(a, capacity * esize + esize, esize, zero), esize, zero)
    else
      a
  }

  /** With 8-byte elements and an arena of one header word plus two slots, a
      vector of length 2 passes the loop unchanged (`3 < 16`), and the write
      that follows lands on slot 2, which the arena does not have. */
  lemma PushAsWrittenOverruns(x: int, y: int)
    ensures var a := Arena(WORD + 16, 2, [x, y]);
            ArenaOk(a, 8)
            && GrowForPushAsWritten(a, 8, 0) == a
            && !(a.header < |a.slots|)
  {
    var a := Arena(WORD + 16, 2, [x, y]);
    assert SlotCount(a.size, 8) == 2;
  }

  /** The growth loop of `push` with the capacity counted in elements: grows
      while `len + 1 >= slot capacity`, each round by `capacity * size + size`
      bytes, which doubles the slots and adds one. */
  function GrowForPush<T>(a: Arena<T>, esize: nat, zero: T): (r: Arena<T>)
    requires ArenaOk(a, esize) && a.size >= WORD
    ensures ArenaOk(r, esize) && r.size >= WORD
    ensures r.header == a.header
    ensures r.header + 1 < |r.slots|
    ensures |r.slots| >= |a.slots| && r.slots[..|a.slots|] == a.slots
    decreases a.header + 1 - |a.slots|
  {
    if a.header + 1 >= |a.slots| then
      var capacity := |a.slots|;
      var g := Grow(a, capacity * esize + esize, esize, zero);
      assert |g.slots| == 2 * capacity + 1 by {
        assert esize * (capacity + 1) == capacity * esize + esize;
        DivAddMultiple(a.size - WORD, esize, capacity + 1);
      }
      GrowForPush(g, esize, zero)
    else
      a
  }

  /** `push(value)`: grow until one more element fits, write it at index
      `len`, then store `len + 1` in the header. */
  function Push<T>(v: PVec<T>, x: T, esize: nat, zero: T): (r: PVec<T>)
    requires Valid(v, esize)
    ensures Valid(r, esize)
    ensures Len(r) == Len(v) + 1
    ensures Contents(r) == Contents(v) + [x]
    ensures Len(r) < SlotCapacity(r)
  {
    var a := GrowForPush(v.arena, esize, zero);
    var written := a.(slots := a.slots[a.header := x]);
    assert written.slots[..a.header] == a.slots[..a.header] == v.arena.slots[..v.arena.header];
    SetLen(PVec(written), Len(v) + 1)
  }

  /** `extend(iter)`: one `push` per item, in order. */
  method Extend<T>(v: PVec<T>, xs: seq<T>, esize: nat, zero: T) returns (r: PVec<T>)
    requires Valid(v, esize)
    ensures Valid(r, esize)
    ensures Contents(r) == Contents(v) + xs
  {
    r := v;
    var i := 0;
    while i < |xs|
      invariant 0 <= i <= |xs|
      invariant Valid(r, esize)
      invariant Contents(r) == Contents(v) + xs[..i]
    {
      r := Push(r, xs[i], esize, zero);
      assert xs[..i + 1] == xs[..i] + [xs[i]];
      i := i + 1;
    }
    assert xs[..i] == xs;
  }

  /** `extend` as a function, for stating properties of push sequences. */
  function PushAll<T>(v: PVec<T>, xs: seq<T>, esize: nat, zero: T): (r: PVec<T>)
    requires Valid(v, esize)
    ensures Valid(r, esize)
    ensures Contents(r) == Contents(v) + xs
    decreases |xs|
  {
    if xs == [] then v
    else
      var v1 := Push(v, xs[0], esize, zero);
      AppendHeadTail(Contents(v), xs);
      PushAll(v1, xs[1..], esize, zero)
  }

  // ---------------------------------------------------------------------------
  // pop, remove, clear

  /** `pop()`: nothing on an empty vector; otherwise the last element, with
      the length lowered by one and the slot left as it was. */
  function Pop<T>(v: PVec<T>): (r: (Option<T>, PVec<T>))
    requires v.arena.header <= |v.arena.slots|
    ensures r.0.None? <==> Len(v) == 0
    ensures r.0.None? ==> r.1 == v
    ensures r.1.arena.size == v.arena.size && r.1.arena.slots == v.arena.slots
    ensures r.0.Some? ==> r.0.value == Contents(v)[Len(v) - 1]
                          && Len(r.1) == Len(v) - 1
                          && Contents(r.1) == Contents(v)[..Len(v) - 1]
  {
    if Len(v) > 0 then
      var value := v.arena.slots[Len(v) - 1];
      (Some(value), SetLen(v, Len(v) - 1))
    else
      (None, v)
  }

  /** The slots after `ptr::copy` moves elements `i + 1 .. len` down by one
      and `set_len` lowers the length; slot `len - 1` keeps its old value. */
  function ShiftOut<T>(v: PVec<T>, i: nat): (r: PVec<T>)
    requires v.arena.header <= |v.arena.slots| && i < Len(v)
    ensures Len(r) == Len(v) - 1 && |r.arena.slots| == |v.arena.slots|
    ensures r.arena.size == v.arena.size
    ensures Contents(r) == Contents(v)[..i] + Contents(v)[i + 1..]
  {
    var s, n := v.arena.slots, Len(v);
    var shifted := s[..i] + s[i + 1..n] + s[n - 1..];
    assert shifted[..n - 1] == s[..i] + s[i + 1..n];
    PVec(Arena(v.arena.size, n - 1, shifted))
  }

  /** `remove(index)`: panics when `index >= len`; the last element goes
      through `pop`; any other is read out and the tail shifted down. */
  function Remove<T>(v: PVec<T>, i: nat): (r: Result<(T, PVec<T>), Panic>)
    requires v.arena.header <= |v.arena.slots|
    ensures r.Err? <==> i >= Len(v)
    ensures r.Err? ==> r.error == IndexOutOfBounds
    ensures r.Ok? ==> r.value.0 == Contents(v)[i]
                      && Len(r.value.1) == Len(v) - 1
                      && r.value.1.arena.size == v.arena.size
                      && |r.value.1.arena.slots| == |v.arena.slots|
                      && Contents(r.value.1) == Contents(v)[..i] + Contents(v)[i + 1..]
  {
    if i >= Len(v) then Err(IndexOutOfBounds)
    else if i == Len(v) - 1 then
      var (popped, rest) := Pop(v);
      Ok((popped.value, rest))
    else
      Ok((v.arena.slots[i], ShiftOut(v, i)))
  }

  /** Removing the last element by shifting would leave the same arena as
      the `pop` shortcut does. */
  lemma RemoveLastIsShift<T>(v: PVec<T>)
    requires v.arena.header <= |v.arena.slots| && Len(v) > 0
    ensures Remove(v, Len(v) - 1) == Ok((Contents(v)[Len(v) - 1], ShiftOut(v, Len(v) - 1)))
  {
    var s, n := v.arena.slots, Len(v);
    assert s[..n - 1] + s[n..n] + s[n - 1..] == s;
  }

  /** The `remove_arbitrary` scenario: from `0, 1, 2, 3, 4`, `remove(1)`
      gives 1, then `remove(2)` gives 3, leaving `0, 2, 4`. */
  lemma RemoveArbitrary(v: PVec<int>)
    requires v.arena.header <= |v.arena.slots| && Contents(v) == [0, 1, 2, 3, 4]
    ensures Remove(v, 1).Ok? && Remove(v, 1).value.0 == 1
    ensures var v1 := Remove(v, 1).value.1;
            Contents(v1) == [0, 2, 3, 4]
            && Remove(v1, 2).Ok? && Remove(v1, 2).value.0 == 3
            && Contents(Remove(v1, 2).value.1) == [0, 2, 4]
  {
    var v1 := Remove(v, 1).value.1;
    assert Contents(v1) == [0] + [2, 3, 4];
    assert Contents(Remove(v1, 2).value.1) == [0, 2] + [4];
  }

  /** `clear()`: pops until `pop` returns nothing. */
  function Clear<T>(v: PVec<T>): (r: PVec<T>)
    requires v.arena.header <= |v.arena.slots|
    ensures Len(r) == 0 && Contents(r) == []
    ensures r.arena.size == v.arena.size && r.arena.slots == v.arena.slots
    decreases Len(v)
  {
    var (popped, rest) := Pop(v);
    if popped.None? then v else Clear(rest)
  }

  // ---------------------------------------------------------------------------
  // retain

  /** The elements of `s` that satisfy `p`, in their order. */
  function Filter<T>(p: T -> bool, s: seq<T>): seq<T>
  {
    if s == [] then [] else (if p(s[0]) then [s[0]] else []) + Filter(p, s[1..])
  }

  lemma {:induction false} FilterMembers<T>(p: T -> bool, s: seq<T>)
    ensures forall x :: x in Filter(p, s) <==> x in s && p(x)
    ensures |Filter(p, s)| <= |s|
  {
    if s != [] {
      FilterMembers(p, s[1..]);
      assert s == [s[0]] + s[1..];
    }
  }

  /** Filtering a sequence is filtering its first element, then the rest. */
  lemma {:induction false} FilterConcat<T>(p: T -> bool, a: seq<T>, b: seq<T>)
    ensures Filter(p, a + b) == Filter(p, a) + Filter(p, b)
  {
    if a == [] {
      assert a + b == b;
    } else {
      var ab := a + b;
      assert ab[0] == a[0] && ab[1..] == a[1..] + b;
      FilterConcat(p, a[1..], b);
      var head := if p(a[0]) then [a[0]] else [];
      assert Filter(p, ab) == head + Filter(p, a[1..] + b);
      assert Filter(p, a) == head + Filter(p, a[1..]);
    }
  }

  /** `retain(predicate)`: walks the indices from the last to the first and
      removes every element the predicate rejects. */
  method Retain<T>(v: PVec<T>, p: T -> bool, esize: nat) returns (r: PVec<T>)
    requires Valid(v, esize)
    ensures Valid(r, esize)
    ensures Contents(r) == Filter(p, Contents(v))
  {
    ghost var c0 := Contents(v);
    r := v;
    var i := Len(v);
    assert c0[i..] == [];
    while i > 0
      invariant 0 <= i <= |c0|
      invariant Valid(r, esize)
      invariant Contents(r) == c0[..i] + Filter(p, c0[i..])
    {
      i := i - 1;
      ghost var tail := Filter(p, c0[i + 1..]);
      RetainStep(p, c0, i, c0[i]);
      assert Contents(r) == c0[..i] + [c0[i]] + tail;
      match Get(r, i)
      case Some(value) =>
        if !p(value) {
          r := Remove(r, i).value.1;
          DropAt(c0[..i], c0[i], tail);
        }
      case None =>
    }
  }

  /** Removing the element between two runs leaves the runs. */
  lemma DropAt<T>(a: seq<T>, x: T, b: seq<T>)
    ensures (a + [x] + b)[..|a|] + (a + [x] + b)[|a| + 1..] == a + b
  {
    var s := a + [x] + b;
    assert s[..|a|] == a;
    assert s[|a| + 1..] == b;
  }

  /** The element at `i` joins the filtered tail exactly when it is kept. */
  lemma RetainStep<T>(p: T -> bool, c0: seq<T>, i: nat, x: T)
    requires i < |c0| && x == c0[i]
    ensures c0[..i + 1] + Filter(p, c0[i + 1..])
            == c0[..i] + [x] + Filter(p, c0[i + 1..])
    ensures Filter(p, c0[i..]) == (if p(x) then [x] else []) + Filter(p, c0[i + 1..])
  {
    assert c0[i..] == [c0[i]] + c0[i + 1..];
    assert c0[..i + 1] == c0[..i] + [c0[i]];
  }

  /** The `can_retain` scenario: keeping the even numbers of `0..5`. */
  lemma RetainEven()
    ensures Filter((x: int) => x % 2 == 0, [0, 1, 2, 3, 4]) == [0, 2, 4]
  {
  }

  // ---------------------------------------------------------------------------
  // LIFO and persistence

  /** `pop` `n` times, collecting what comes out. */
  function PopN<T>(v: PVec<T>, n: nat): (r: (seq<Option<T>>, PVec<T>))
    requires v.arena.header <= |v.arena.slots|
    ensures |r.0| == n && r.1.arena.header <= |r.1.arena.slots|
    decreases n
  {
    if n == 0 then ([], v)
    else
      var (x, v1) := Pop(v);
      var (xs, v2) := PopN(v1, n - 1);
      ([x] + xs, v2)
  }

  /** Popping a vector whose elements end in `xs` once per element of `xs`
      returns them last first and leaves the elements before them. */
  lemma {:induction false} PopSuffix<T>(w: PVec<T>, p: seq<T>, xs: seq<T>)
    requires w.arena.header <= |w.arena.slots| && Contents(w) == p + xs
    ensures var (popped, rest) := PopN(w, |xs|);
            popped == Somes(Reverse(xs)) && Contents(rest) == p
    decreases |xs|
  {
    if xs != [] {
      var n := |xs|;
      var init, last := xs[..n - 1], xs[n - 1];
      assert xs == init + [last];
      var (x, w1) := Pop(w);
      assert Len(w) == |p + xs|;
      assert x == Some(last);
      assert Contents(w1) == (p + xs)[..Len(w) - 1] == p + init;
      PopSuffix(w1, p, init);
      ReverseSnoc(init, last);
      SomesConcat([last], Reverse(init));
    }
  }

  /** Popping as many times as elements were pushed returns them in reverse
      order and leaves the original elements. */
  lemma PushPopLifo<T>(v: PVec<T>, xs: seq<T>, esize: nat, zero: T)
    requires Valid(v, esize)
    ensures var (popped, rest) := PopN(PushAll(v, xs, esize, zero), |xs|);
            popped == Somes(Reverse(xs)) && Contents(rest) == Contents(v)
  {
    PopSuffix(PushAll(v, xs, esize, zero), Contents(v), xs);
  }

  /** What `pop` returns depends only on the length and the elements. */
  lemma {:induction false} PopNDependsOnContents<T>(a: PVec<T>, b: PVec<T>, n: nat)
    requires a.arena.header <= |a.arena.slots| && b.arena.header <= |b.arena.slots|
    requires Contents(a) == Contents(b)
    ensures PopN(a, n).0 == PopN(b, n).0
    ensures Contents(PopN(a, n).1) == Contents(PopN(b, n).1)
    decreases n
  {
    if n > 0 {
      var (xa, a1) := Pop(a);
      var (xb, b1) := Pop(b);
      assert Len(a) == |Contents(a)| && Len(b) == |Contents(b)|;
      PopNDependsOnContents(a1, b1, n - 1);
    }
  }

  /** `into_iter()`: pops every element and pushes it at the front of a
      queue, so the queue holds the elements in their original order. */
  function IntoIter<T>(v: PVec<T>): (r: seq<T>)
    requires v.arena.header <= |v.arena.slots|
    ensures r == Contents(v)
    decreases Len(v)
  {
    var (popped, rest) := Pop(v);
    if popped.None? then [] else IntoIter(rest) + [popped.value]
  }

  /** The vector lives entirely in its arena: a vector created again over the
      same arena (the path reopened) reports the same length and elements. */
  lemma ReopenRecovers<T>(v: PVec<T>, xs: seq<T>, esize: nat, zero: T)
    requires Valid(v, esize)
    ensures var w := PushAll(v, xs, esize, zero);
            var r := New(w.arena, esize);
            r.Ok? && Len(r.value) == Len(v) + |xs| && Contents(r.value) == Contents(v) + xs
  {
  }
}

=== FILE: schema.dfy ===
/** `Schema` (schema.rs): an ordered list of named, typed fields, with
    lookup by position and by name, range removal, and the size of one row.
 */
module Schema {
  import opened Wrappers
  import opened VecDrain

  /** `FieldKind` (fields.rs). */
  datatype FieldKind = Keyword | Text | Number | Nested

  datatype SchemaField = SchemaField(name: string, kind: FieldKind)

  datatype Schema = Schema(fields: seq<SchemaField>)

  /** `Schema::new()`. */
  function New(): (s: Schema)
    ensures |s.fields| == 0
  {
    Schema([])
  }

  /** `get_at(i)` / `get_at_mut(i)`. */
  function GetAt(s: Schema, i: nat): (r: Option<SchemaField>)
    ensures r.Some? <==> i < |s.fields|
    ensures r.Some? ==> r.value == s.fields[i]
  {
    if i < |s.fields| then Some(s.fields[i]) else None
  }

  /** `schema[i]`: `get_at(i).unwrap()`, which panics past the end. */
  function Index(s: Schema, i: nat): (r: Result<SchemaField, Panic>)
    ensures r.Err? <==> i >= |s.fields|
    ensures r.Err? ==> r.error == IndexOutOfBounds
    ensures r.Ok? ==> GetAt(s, i) == Some(r.value)
  {
    match GetAt(s, i)
    case Some(f) => Ok(f)
    case None => Err(IndexOutOfBounds)
  }

  /** The position of the first field named `name` at or after `from`, as
      `iter_mut().find(..)` finds it. */
  function FindFrom(fields: seq<SchemaField>, name: string, from: nat): (r: Option<nat>)
    requires from <= |fields|
    ensures r.None? <==> forall j :: from <= j < |fields| ==> fields[j].name != name
    ensures r.Some? ==> from <= r.value < |fields| && fields[r.value].name == name
    ensures r.Some? ==> forall j :: from <= j < r.value ==> fields[j].name != name
    decreases |fields| - from
  {
    if from == |fields| then None
    else if fields[from].name == name then Some(from)
    else FindFrom(fields, name, from + 1)
  }

  /** `get_mut(name)`: the slot of the first field with that name. */
  function GetMut(s: Schema, name: string): (r: Option<nat>)
    ensures r.None? <==> forall j :: 0 <= j < |s.fields| ==> s.fields[j].name != name
    ensures r.Some? ==> r.value < |s.fields| && s.fields[r.value].name == name
    ensures r.Some? ==> forall j :: 0 <= j < r.value ==> s.fields[j].name != name
  {
    FindFrom(s.fields, name, 0)
  }

  /** `get(name)`: `iter().find(..)`, the first field the iterator yields
      with that name. */
  function Get(s: Schema, name: string): (r: Option<SchemaField>)
    ensures r.None? <==> forall j :: 0 <= j < |s.fields| ==> s.fields[j].name != name
    ensures r.Some? ==> r.value.name == name
    ensures r.Some? ==> exists j :: 0 <= j < |s.fields| && s.fields[j] == r.value
                                    && forall k :: 0 <= k < j ==> s.fields[k].name != name
  {
    FindIterIsFindFrom(Iter(s), name);
    FindIter(Iter(s), name).0
  }

  /** `schema[name]`: `get(name).unwrap()`. */
  function IndexByName(s: Schema, name: string): (r: Result<SchemaField, Panic>)
    ensures r.Err? <==> Get(s, name).None?
    ensures r.Err? ==> r.error == NoSuchField
    ensures r.Ok? ==> Get(s, name) == Some(r.value)
  {
    match Get(s, name)
    case Some(f) => Ok(f)
    case None => Err(NoSuchField)
  }

  /** `get` and `get_mut` find the same field: the first one with that
      name. */
  lemma GetMatchesGetMut(s: Schema, name: string)
    ensures Get(s, name).None? <==> GetMut(s, name).None?
    ensures GetMut(s, name).Some? ==> Get(s, name) == Some(s.fields[GetMut(s, name).value])
  {
    FindIterIsFindFrom(Iter(s), name);
  }

  /** `row_size()`: the sum of the fields' kind sizes; `kindSize` is
      `FieldKind::size`, which is not part of this model. */
  function RowSize(s: Schema, kindSize: FieldKind -> nat): (r: nat)
    ensures s.fields == [] ==> r == 0
    ensures forall i :: 0 <= i < |s.fields| ==> kindSize(s.fields[i].kind) <= r
  {
    forall i | 0 <= i < |s.fields| {
      FieldCounted(s.fields, i, kindSize);
    }
    SumSizes(s.fields, kindSize)
  }

  function SumSizes(fields: seq<SchemaField>, kindSize: FieldKind -> nat): nat {
    if fields == [] then 0 else kindSize(fields[0].kind) + SumSizes(fields[1..], kindSize)
  }

  /** The sizes of two runs of fields add up. */
  lemma {:induction false} SumSizesConcat(a: seq<SchemaField>, b: seq<SchemaField>, kindSize: FieldKind -> nat)
    ensures SumSizes(a + b, kindSize) == SumSizes(a, kindSize) + SumSizes(b, kindSize)
  {
    if a == [] {
      assert a + b == b;
    } else {
      SumSizesConcat(a[1..], b, kindSize);
      assert (a + b)[1..] == a[1..] + b;
    }
  }

  /** Every field contributes its kind's size to the sum. */
  lemma {:induction false} FieldCounted(f: seq<SchemaField>, i: nat, kindSize: FieldKind -> nat)
    requires i < |f|
    ensures kindSize(f[i].kind) <= SumSizes(f, kindSize)
  {
    assert f == f[..i] + ([f[i]] + f[i + 1..]);
    SumSizesConcat(f[..i], [f[i]] + f[i + 1..], kindSize);
    assert ([f[i]] + f[i + 1..])[1..] == f[i + 1..];
  }

  /** `extend(iter)`: `Vec::extend`, appending in order. */
  function Extend(s: Schema, xs: seq<SchemaField>): (r: Schema)
    ensures |r.fields| == |s.fields| + |xs|
    ensures forall i :: 0 <= i < |s.fields| ==> GetAt(r, i) == GetAt(s, i)
    ensures forall j :: 0 <= j < |xs| ==> GetAt(r, |s.fields| + j) == Some(xs[j])
  {
    Schema(s.fields + xs)
  }

  /** Extending adds the new fields' sizes to the row size. */
  lemma ExtendRowSize(s: Schema, xs: seq<SchemaField>, kindSize: FieldKind -> nat)
    ensures RowSize(Extend(s, xs), kindSize) == RowSize(s, kindSize) + SumSizes(xs, kindSize)
  {
    SumSizesConcat(s.fields, xs, kindSize);
  }

  /** `from_iter(iter)`: a schema of the items, in order. */
  function FromIter(xs: seq<SchemaField>): (r: Schema)
    ensures forall j :: 0 <= j < |xs| ==> GetAt(r, j) == Some(xs[j])
    ensures GetAt(r, |xs|).None?
  {
    Extend(New(), xs)
  }

  /** `drain(bounds)`: `Vec::drain`, which takes `[start, end)` with an
      EXCLUSIVE end: an included end `i` becomes `i + 1` and an unbounded end
      the length. It panics when `start > end`, then when `end > len`, and
      removes the whole range whether or not the drain is consumed. */
  function Drain(s: Schema, lo: Bound, hi: Bound): (r: Result<(seq<SchemaField>, Schema), Panic>)
    ensures var start := StartIndex(lo);
            var end := match hi case Included(i) => i + 1 case Excluded(i) => i case Unbounded => |s.fields|;
            && (r.Err? <==> start > end || end > |s.fields|)
            && (r.Err? ==> r.error == (if start > end then StartAfterEnd else EndOutOfRange))
            && (r.Ok? ==> |r.value.0| == end - start
                          && |r.value.1.fields| == |s.fields| - |r.value.0|
                          && r.value.1.fields[..start] + r.value.0 + r.value.1.fields[start..] == s.fields)
  {
    var start := StartIndex(lo);
    var end := match hi case Included(i) => i + 1 case Excluded(i) => i case Unbounded => |s.fields|;
    if start > end then Err(StartAfterEnd)
    else if end > |s.fields| then Err(EndOutOfRange)
    else
      var rest := s.fields[..start] + s.fields[end..];
      assert rest[..start] + s.fields[start..end] + rest[start..] == s.fields;
      Ok((s.fields[start..end], Schema(rest)))
  }

  // ---------------------------------------------------------------------------
  // SchemaIter

  datatype SchemaIter = SchemaIter(members: seq<SchemaField>, index: nat)

  /** `iter()`: starts at the first field. */
  function Iter(s: Schema): (r: SchemaIter)
    ensures s.fields == [] ==> Next(r).0.None?
    ensures s.fields != [] ==> Next(r).0 == Some(s.fields[0])
  {
    SchemaIter(s.fields, 0)
  }

  /** `next()`: the field at `index`, advancing only when there is one. */
  function Next(it: SchemaIter): (r: (Option<SchemaField>, SchemaIter))
    ensures r.1.members == it.members
    ensures r.0.Some? <==> it.index < |it.members|
    ensures r.0.Some? ==> r.0.value == it.members[it.index] && r.1.index == it.index + 1
    ensures r.0.None? ==> r.1 == it
  {
    if it.index < |it.members| then (Some(it.members[it.index]), it.(index := it.index + 1))
    else (None, it)
  }

  /** `next()` called `n` times. */
  function NextN(it: SchemaIter, n: nat): (r: (seq<Option<SchemaField>>, SchemaIter))
    ensures |r.0| == n
    decreases n
  {
    if n == 0 then ([], it)
    else
      var (x, it1) := Next(it);
      var (xs, it2) := NextN(it1, n - 1);
      ([x] + xs, it2)
  }

  /** `find(pred)` over the iterator: calls `next` until a field has the
      name. */
  function FindIter(it: SchemaIter, name: string): (r: (Option<SchemaField>, SchemaIter))
    decreases |it.members| - it.index
  {
    var (x, it1) := Next(it);
    match x
    case None => (None, it1)
    case Some(f) => if f.name == name then (Some(f), it1) else FindIter(it1, name)
  }

  lemma {:induction false} FindIterIsFindFrom(it: SchemaIter, name: string)
    requires it.index <= |it.members|
    ensures var p := FindFrom(it.members, name, it.index);
            FindIter(it, name).0 == if p.Some? then Some(it.members[p.value]) else None
    decreases |it.members| - it.index
  {
    if it.index < |it.members| && it.members[it.index].name != name {
      FindIterIsFindFrom(Next(it).1, name);
    }
  }

  /** The iterator yields the fields in order, then `None` for ever without
      moving: iterating `|fields| + extra` times from the start gives every
      field once, followed by `extra` `None`s. */
  lemma {:induction false} IterYieldsFieldsInOrder(it: SchemaIter, extra: nat)
    requires it.index <= |it.members|
    ensures var n := |it.members| - it.index;
            var (xs, it1) := NextN(it, n + extra);
            && it1.index == |it.members|
            && (forall j :: 0 <= j < n ==> xs[j] == Some(it.members[it.index + j]))
            && (forall j :: n <= j < n + extra ==> xs[j].None?)
    decreases |it.members| - it.index, extra
  {
    var n := |it.members| - it.index;
    if n > 0 {
      IterYieldsFieldsInOrder(Next(it).1, extra);
    } else if extra > 0 {
      IterYieldsFieldsInOrder(it, extra - 1);
    }
  }

  /** The `index_schema` scenario: a new schema's full range is empty. */
  lemma IndexSchemaScenario()
    ensures |New().fields[..]| == 0
  {
  }
}

=== FILE: segments.dfy ===
/** Segments (index/segments.rs): one serialized value of type `T` kept in a
    memory mapping, anonymous or backed by a file, with a cache of the last
    decoded value and a write-back handle for mutation.

    The serialization format is not modelled: `encode(x)` stands for the
    bytes the serializer produces for `x`, and `decode(bytes)` for what the
    deserializer reads from the front of `bytes` (`None` when it fails).
    Files are byte sequences keyed by path; a file-backed segment's mapping
    is the file for as long as the segment lives.
 */
module Segments {
  import opened Wrappers
  import B = Block

  type byte = B.byte
  type Files = map<B.Path, seq<byte>>

  /** `DEFAULT_SEGMENT_SIZE`, as written: `1028 * 512` bytes. */
  const DEFAULT_SEGMENT_SIZE: nat := 1028 * 512

  datatype SegmentBuilder<T> = SegmentBuilder(diskPath: Option<B.Path>, size: nat, initial: Option<T>)

  datatype BuildError =
    | NoInitialValue       // `InvalidData`, "must have initial value set for new buffers"
    | InvalidInitialData   // `InvalidData`, "invalid initial data"
    | IoError

  datatype PersistError = MustBeFileBacked

  /** `cache` is `cached_read_value`. */
  datatype Segment<T> = Segment(diskPath: Option<B.Path>, mem: seq<byte>, cache: Option<T>)

  /** `RefMut`: an owned copy of the value and whether it was borrowed
      mutably. */
  datatype RefMut<T> = RefMut(data: T, writeAccessed: bool)

  /** `Segments.builder()`: no path, the default size, no initial value. */
  function Builder<T>(): (b: SegmentBuilder<T>)
    ensures b.diskPath.None? && b.size == DEFAULT_SEGMENT_SIZE && b.initial.None?
  {
    SegmentBuilder(None, DEFAULT_SEGMENT_SIZE, None)
  }

  /** The serializer's view of a value of type `T`: what serializing `x` into
      a large enough buffer writes at its front, and what reading a value
      back from the front of some bytes yields. */
  ghost predicate Lossless<T(!new)>(encode: T -> seq<byte>, decode: seq<byte> -> Option<T>) {
    forall x: T, rest: seq<byte> :: decode(encode(x) + rest) == Some(x)
  }

  /** `write_to_map(value, mmap)`: serializing into the mapping's bytes fails
      when the encoding does not fit; otherwise the encoding overwrites the
      front of the mapping. A failed write is taken to leave the mapping as it
      was. */
  function WriteToMap<T>(x: T, mem: seq<byte>, encode: T -> seq<byte>): (r: Option<seq<byte>>)
    ensures r.None? <==> |encode(x)| > |mem|
    ensures r.Some? ==> |r.value| == |mem|
    ensures r.Some? ==> r.value[..|encode(x)|] == encode(x) && r.value[|encode(x)|..] == mem[|encode(x)|..]
  {
    var e := encode(x);
    if |e| > |mem| then None else Some(e + mem[|e|..])
  }

  /** `SegmentBuilder::build`: refuses a new buffer without an initial value,
      maps the region as `Block.CreateMapping` does (`fault` names the call
      the operating system refuses, if any), then serializes the initial
      value into the front of the mapping. */
  function Build<T>(files: Files, b: SegmentBuilder<T>, encode: T -> seq<byte>, fault: B.Fault)
    : (r: (Files, Result<Segment<T>, BuildError>))
    ensures var noSource := b.diskPath.None? || b.diskPath.value !in files;
            r.1 == Err(NoInitialValue) <==> b.initial.None? && noSource
    ensures r.1 == Err(IoError) <==>
              && !(b.initial.None? && (b.diskPath.None? || b.diskPath.value !in files))
              && B.Refused(files, b.diskPath, b.size, fault)
    ensures r.1 == Err(InvalidInitialData) <==>
              && !(b.initial.None? && (b.diskPath.None? || b.diskPath.value !in files))
              && !B.Refused(files, b.diskPath, b.size, fault)
              && b.initial.Some? && |encode(b.initial.value)| > b.size
    // what a failure leaves on disk: nothing before the mapping is made,
    // otherwise the file as the mapping steps left it
    ensures r.1 == Err(NoInitialValue) ==> r.0 == files
    ensures r.1.Err? && r.1.error != NoInitialValue ==>
              r.0 == B.CreateMapping(files, b.diskPath, b.size, fault).0
    // the segment built
    ensures r.1.Ok? ==> Size(r.1.value) == b.size > 0 && r.1.value.cache.None?
                        && r.1.value.diskPath == b.diskPath
    ensures r.1.Ok? && b.initial.Some? ==>
              r.1.value.mem[..|encode(b.initial.value)|] == encode(b.initial.value)
    ensures r.1.Ok? && b.initial.None? ==>
              b.diskPath.Some? && b.diskPath.value in files
              && r.1.value.mem == Resize(files[b.diskPath.value], b.size, 0)
    ensures r.1.Ok? && b.diskPath.Some? ==> r.0 == files[b.diskPath.value := r.1.value.mem]
    ensures b.diskPath.None? ==> r.0 == files
  {
    var isEmpty := b.initial.None? && (b.diskPath.None? || b.diskPath.value !in files);
    if isEmpty then (files, Err(NoInitialValue))
    else
      var (files1, mapped) := B.CreateMapping(files, b.diskPath, b.size, fault);
      match mapped
      case None => (files1, Err(IoError))
      case Some(bytes) =>
        match b.initial
        case None => (files1, Ok(Segment(b.diskPath, bytes, None)))
        case Some(x) =>
          match WriteToMap(x, bytes, encode)
          case None => (files1, Err(InvalidInitialData))
          case Some(mem) =>
            var files2 := if b.diskPath.Some? then files[b.diskPath.value := mem] else files;
            (files2, Ok(Segment(b.diskPath, mem, None)))
  }

  /** `size()`: the mapping's length. */
  function Size<T>(s: Segment<T>): nat {
    |s.mem|
  }

  /** The byte range `hexdump(count, page)` shows: page `page` of `count`
      bytes, clamped to the segment. */
  function HexdumpRange<T>(s: Segment<T>, count: nat, page: nat): (r: (nat, nat))
    ensures r.0 <= r.1 <= Size(s)
    ensures count * (page + 1) <= Size(s) ==> r == (count * page, count * (page + 1))
    ensures count * page >= Size(s) ==> r == (Size(s), Size(s))
  {
    var start := if count * page < Size(s) then count * page else Size(s);
    var end := if count * (page + 1) < Size(s) then count * (page + 1) else Size(s);
    assert count * (page + 1) == count * page + count;
    (start, end)
  }

  /** `SegmentPersist::try_from(&segment)`: the path and size of a
      file-backed segment. */
  function ToPersist<T>(s: Segment<T>): (r: Result<(B.Path, nat), PersistError>)
    ensures r.Err? <==> s.diskPath.None?
    ensures r.Ok? ==> r.value == (s.diskPath.value, Size(s))
  {
    match s.diskPath
    case None => Err(MustBeFileBacked)
    case Some(p) => Ok((p, Size(s)))
  }

  /** `Segment::try_from(persist)`: builds a segment of that size at that
      path, with no initial value. */
  function FromPersist<T>(files: Files, p: (B.Path, nat), encode: T -> seq<byte>, fault: B.Fault)
    : (r: (Files, Result<Segment<T>, BuildError>))
    ensures r.1 == Err(NoInitialValue) <==> p.0 !in files
    ensures r.1 == Err(IoError) <==> p.0 in files && B.Refused(files, Some(p.0), p.1, fault)
    ensures r.1 != Err(InvalidInitialData)
    ensures r.1.Err? ==> r.0 == (if p.0 in files then B.CreateMapping(files, Some(p.0), p.1, fault).0 else files)
    ensures r.1.Ok? ==> && r.1.value.diskPath == Some(p.0) && r.1.value.cache.None?
                        && r.1.value.mem == Resize(files[p.0], p.1, 0)
                        && r.0 == files[p.0 := r.1.value.mem]
  {
    var b: SegmentBuilder<T> := SegmentBuilder(Some(p.0), p.1, None);
    Build(files, b, encode, fault)
  }

  /** A file-backed segment, persisted and reopened over its own file, maps
      the same bytes again and leaves the files as they were. Every built
      segment is non-empty, and only a non-empty one can be mapped again. */
  lemma PersistRoundTrip<T>(files: Files, s: Segment<T>, encode: T -> seq<byte>)
    requires s.diskPath.Some? && s.diskPath.value in files && files[s.diskPath.value] == s.mem
    requires Size(s) > 0
    ensures ToPersist(s).Ok?
    ensures var (files1, r) := FromPersist(files, ToPersist(s).value, encode, B.NoFault);
            r.Ok? && r.value.mem == s.mem && r.value.diskPath == s.diskPath && files1 == files
  {
    assert Resize(s.mem, |s.mem|, 0) == s.mem;
  }

  /** `try_get()`: the cached value when there is one; otherwise decodes the
      mapping and caches the result. */
  function TryGet<T>(s: Segment<T>, decode: seq<byte> -> Option<T>): (r: (Result<T, ()>, Segment<T>))
    ensures r.1.mem == s.mem && r.1.diskPath == s.diskPath
    ensures s.cache.Some? ==> r == (Ok(s.cache.value), s)
    ensures s.cache.None? ==> (r.0.Ok? <==> decode(s.mem).Some?)
    ensures s.cache.None? && r.0.Ok? ==> r.0.value == decode(s.mem).value && r.1.cache == Some(r.0.value)
    ensures r.0.Err? ==> r.1 == s
  {
    match s.cache
    case Some(v) => (Ok(v), s)
    case None =>
      match decode(s.mem)
      case None => (Err(()), s)
      case Some(v) => (Ok(v), s.(cache := Some(v)))
  }

  /** `try_get_mut()`: decodes the mapping afresh; on success clears the
      cache and hands out a `RefMut` that has not been written through. */
  function TryGetMut<T>(s: Segment<T>, decode: seq<byte> -> Option<T>): (r: Result<(RefMut<T>, Segment<T>), ()>)
    ensures r.Ok? <==> decode(s.mem).Some?
    ensures r.Ok? ==> r.value.0 == RefMut(decode(s.mem).value, false)
                      && r.value.1 == s.(cache := None)
  {
    match decode(s.mem)
    case None => Err(())
    case Some(v) => Ok((RefMut(v, false), s.(cache := None)))
  }

  /** `as_ref()` / `deref()`: read access, which leaves the flag alone. */
  function AsRef<T>(m: RefMut<T>): T {
    m.data
  }

  /** A write through `as_mut()` / `deref_mut()`: the value becomes `x` and
      the handle is marked as written. */
  function WriteThrough<T>(m: RefMut<T>, x: T): (r: RefMut<T>)
    ensures AsRef(r) == x && r.writeAccessed
  {
    RefMut(x, true)
  }

  /** `flush()`: serializes the value into the mapping only when the handle
      was written through; fails when the encoding does not fit. */
  function Flush<T>(m: RefMut<T>, mem: seq<byte>, encode: T -> seq<byte>): (r: (Result<(), ()>, seq<byte>))
    ensures |r.1| == |mem|
    ensures !m.writeAccessed ==> r == (Ok(()), mem)
    ensures m.writeAccessed ==> (r.0.Err? <==> |encode(m.data)| > |mem|)
    ensures r.0.Err? ==> r.1 == mem
    ensures m.writeAccessed && r.0.Ok? ==> r.1[..|encode(m.data)|] == encode(m.data)
  {
    if m.writeAccessed then
      match WriteToMap(m.data, mem, encode)
      case None => (Err(()), mem)
      case Some(mem1) => (Ok(()), mem1)
    else
      (Ok(()), mem)
  }

  /** Dropping the `RefMut`: flushes into the segment it borrowed and
      ignores a failure. */
  function DropRefMut<T>(m: RefMut<T>, s: Segment<T>, encode: T -> seq<byte>): (r: Segment<T>)
    ensures r.diskPath == s.diskPath && r.cache == s.cache && Size(r) == Size(s)
    ensures !m.writeAccessed ==> r == s
  {
    s.(mem := Flush(m, s.mem, encode).1)
  }

  /** A value changed through `try_get_mut` is what the next `try_get`
      returns, once the handle is dropped, provided its encoding fits. */
  lemma MutationVisible<T(!new)>(s: Segment<T>, x: T, encode: T -> seq<byte>, decode: seq<byte> -> Option<T>)
    requires Lossless(encode, decode)
    requires TryGetMut(s, decode).Ok?
    requires |encode(x)| <= Size(s)
    ensures var (m, s1) := TryGetMut(s, decode).value;
            TryGet(DropRefMut(WriteThrough(m, x), s1, encode), decode).0 == Ok(x)
  {
    var (m, s1) := TryGetMut(s, decode).value;
    var s2 := DropRefMut(WriteThrough(m, x), s1, encode);
    var e := encode(x);
    assert s2.mem == e + s2.mem[|e|..];
    assert decode(e + s2.mem[|e|..]) == Some(x);
  }

  /** A handle only read through writes nothing back: the mapping is
      unchanged and the next `try_get` decodes the same value. */
  lemma ReadOnlyLeavesMapping<T>(s: Segment<T>, decode: seq<byte> -> Option<T>, encode: T -> seq<byte>)
    requires TryGetMut(s, decode).Ok?
    ensures var (m, s1) := TryGetMut(s, decode).value;
            DropRefMut(m, s1, encode).mem == s.mem
            && TryGet(DropRefMut(m, s1, encode), decode).0 == Ok(AsRef(m))
  {
  }

  /** Once `try_get` has succeeded, it keeps returning the same value. */
  lemma TryGetIsCached<T>(s: Segment<T>, decode: seq<byte> -> Option<T>)
    requires TryGet(s, decode).0.Ok?
    ensures var (v, s1) := TryGet(s, decode);
            TryGet(s1, decode) == (v, s1)
  {
  }

  /** A segment built with an initial value decodes to that value, and the
      `can_create_segment` scenario: an insertion made through `try_get_mut`
      is what `try_get` sees next. */
  lemma BuildThenGet<T(!new)>(files: Files, b: SegmentBuilder<T>, encode: T -> seq<byte>, decode: seq<byte> -> Option<T>, y: T)
    requires Lossless(encode, decode)
    requires b.initial.Some? && |encode(y)| <= b.size
    requires Build(files, b, encode, B.NoFault).1.Ok?
    ensures var s := Build(files, b, encode, B.NoFault).1.value;
            TryGet(s, decode).0 == Ok(b.initial.value)
            && TryGetMut(s, decode).Ok?
            && var (m, s1) := TryGetMut(s, decode).value;
               TryGet(DropRefMut(WriteThrough(m, y), s1, encode), decode).0 == Ok(y)
  {
    var s := Build(files, b, encode, B.NoFault).1.value;
    var e := encode(b.initial.value);
    assert s.mem == e + s.mem[|e|..];
    assert decode(e + s.mem[|e|..]) == Some(b.initial.value);
    MutationVisible(s, y, encode, decode);
  }

  /** The `segment_alloc_fail_with_size` scenario: an initial value whose
      encoding is longer than the segment's 4 bytes is rejected. */
  lemma AllocFailWithSize<T>(files: Files, x: T, encode: T -> seq<byte>)
    requires |encode(x)| > 4
    ensures var b := SegmentBuilder(None, 4, Some(x));
            Build(files, b, encode, B.NoFault) == (files, Err(InvalidInitialData))
  {
  }
}

=== FILE: seqs.dfy ===
/** Sequence functions the storage model states its properties with. */
module Seqs {
  import opened Wrappers

  /** The elements of `s`, last first. */
  function Reverse<T>(s: seq<T>): (r: seq<T>)
    ensures |r| == |s|
  {
    if s == [] then [] else Reverse(s[1..]) + [s[0]]
  }

  /** Each element of `s` wrapped in `Some`: what a run of successful `pop`s
      returns. */
  function Somes<T>(s: seq<T>): (r: seq<Option<T>>)
    ensures |r| == |s|
  {
    if s == [] then [] else [Some(s[0])] + Somes(s[1..])
  }

  /** Appending the head of `xs` and then its tail appends `xs`. */
  lemma AppendHeadTail<T>(a: seq<T>, xs: seq<T>)
    requires xs != []
    ensures (a + [xs[0]]) + xs[1..] == a + xs
  {
    assert [xs[0]] + xs[1..] == xs;
  }

  lemma {:induction false} ReverseSnoc<T>(s: seq<T>, x: T)
    ensures Reverse(s + [x]) == [x] + Reverse(s)
  {
    if s != [] {
      ReverseSnoc(s[1..], x);
      assert (s + [x])[1..] == s[1..] + [x];
    }
  }

  lemma {:induction false} SomesConcat<T>(a: seq<T>, b: seq<T>)
    ensures Somes(a + b) == Somes(a) + Somes(b)
  {
    if a == [] {
      assert a + b == b;
    } else {
      var ab := a + b;
      assert ab[0] == a[0] && ab[1..] == a[1..] + b;
      SomesConcat(a[1..], b);
      assert Somes(ab) == [Some(a[0])] + Somes(a[1..] + b);
      assert Somes(a) == [Some(a[0])] + Somes(a[1..]);
    }
  }
}

=== FILE: vec_drain.dfy ===
/** `Drain` (persist/persisted_vec.rs): removes a range of a `PersistentVec`
    one element at a time, yielding the removed elements; dropping the
    drain removes whatever it has not yet yielded. */
module VecDrain {
  import opened Wrappers
  import opened PersistentVec

  /** `std::ops::Bound<usize>`. */
  datatype Bound = Included(i: nat) | Excluded(i: nat) | Unbounded

  /** The first index drained. */
  function StartIndex(b: Bound): nat {
    match b
    case Included(i) => i
    case Excluded(i) => i + 1
    case Unbounded => 0
  }

  /** The last index drained; `usize` subtraction panics below zero, which
      happens for an excluded end of 0 and for an unbounded end over an empty
      vector. */
  function EndIndex(b: Bound, len: nat): (r: Result<nat, Panic>)
    ensures r.Err? <==> (b.Excluded? && b.i == 0) || (b.Unbounded? && len == 0)
    ensures r.Err? ==> r.error == ArithmeticOverflow
    ensures r.Ok? && b.Included? ==> r.value == b.i
    ensures r.Ok? && b.Excluded? ==> r.value + 1 == b.i
    ensures r.Ok? && b.Unbounded? ==> r.value + 1 == len
  {
    match b
    case Included(i) => Ok(i)
    case Excluded(i) => if i == 0 then Err(ArithmeticOverflow) else Ok(i - 1)
    case Unbounded => if len == 0 then Err(ArithmeticOverflow) else Ok(len - 1)
  }

  /** The drain borrows the vector; `count` elements are removed at `start`,
      `removed` of them so far. */
  datatype Drain<T> = Drain(vec: PVec<T>, start: nat, count: nat, removed: nat)

  /** What `next` relies on: the elements still to come are in the vector. */
  predicate Inv<T>(d: Drain<T>) {
    && d.vec.arena.header <= |d.vec.arena.slots|
    && d.removed <= d.count
    && d.start + (d.count - d.removed) <= Len(d.vec)
  }

  /** How many elements the drain has yet to remove. */
  function Remaining<T>(d: Drain<T>): nat
    requires d.removed <= d.count
  {
    d.count - d.removed
  }

  /** `Drain::new(vec, bounds)`: normalises the bounds to an inclusive
      `[start, end]` and panics unless `start <= end < len`. */
  function New<T>(v: PVec<T>, lo: Bound, hi: Bound): (r: Result<Drain<T>, Panic>)
    requires v.arena.header <= |v.arena.slots|
    ensures r.Ok? <==> EndIndex(hi, Len(v)).Ok?
                       && StartIndex(lo) <= EndIndex(hi, Len(v)).value < Len(v)
    ensures r.Err? && EndIndex(hi, Len(v)).Ok? ==>
              (r.error == StartAfterEnd <==> StartIndex(lo) > EndIndex(hi, Len(v)).value)
    ensures r.Err? && EndIndex(hi, Len(v)).Ok? && r.error != StartAfterEnd ==>
              r.error == EndOutOfRange
    ensures r.Ok? ==> Inv(r.value) && r.value.vec == v && r.value.removed == 0
                      && r.value.start == StartIndex(lo)
                      && r.value.start + r.value.count == EndIndex(hi, Len(v)).value + 1
  {
    var start := StartIndex(lo);
    match EndIndex(hi, Len(v))
    case Err(e) => Err(e)
    case Ok(end) =>
      if start > end then Err(StartAfterEnd)
      else if end >= Len(v) then Err(EndOutOfRange)
      else Ok(Drain(v, start, end + 1 - start, 0))
  }

  /** `next()`: while elements remain, removes the one at `start`. */
  function Next<T>(d: Drain<T>): (r: (Option<T>, Drain<T>))
    requires Inv(d)
    ensures Inv(r.1) && r.1.start == d.start && r.1.count == d.count
    ensures r.0.None? <==> Remaining(d) == 0
    ensures r.0.None? ==> r.1 == d
    ensures r.0.Some? ==> r.0.value == Contents(d.vec)[d.start]
                          && Remaining(r.1) == Remaining(d) - 1
                          && Contents(r.1.vec) == Contents(d.vec)[..d.start] + Contents(d.vec)[d.start + 1..]
  {
    if d.removed < d.count then
      var (x, v) := Remove(d.vec, d.start).value;
      (Some(x), d.(vec := v, removed := d.removed + 1))
    else
      (None, d)
  }

  /** Calls `next` until it returns nothing: the elements yielded and the
      vector left behind. This is `collect`, and also `drop`, which runs the
      same loop and discards the elements. */
  function Exhaust<T>(d: Drain<T>): (r: (seq<T>, PVec<T>))
    requires Inv(d)
    ensures r.1.arena.header <= |r.1.arena.slots|
    ensures var c, k := Contents(d.vec), Remaining(d);
            r.0 == c[d.start..d.start + k] && Contents(r.1) == c[..d.start] + c[d.start + k..]
    decreases Remaining(d)
  {
    var step := Next(d);
    if step.0.None? then
      assert Contents(d.vec) == Contents(d.vec)[..d.start] + Contents(d.vec)[d.start..];
      ([], d.vec)
    else
      var r1 := Exhaust(step.1);
      ExhaustStep(d, r1.0, r1.1);
      ([step.0.value] + r1.0, r1.1)
  }

  /** One step of `Exhaust`: the element `next` yields, followed by what the
      rest of the drain yields, is the whole range. */
  lemma ExhaustStep<T>(d: Drain<T>, xs: seq<T>, v: PVec<T>)
    requires Inv(d) && Remaining(d) > 0
    requires v.arena.header <= |v.arena.slots|
    requires var c1, k1 := Contents(Next(d).1.vec), Remaining(Next(d).1);
             xs == c1[d.start..d.start + k1] && Contents(v) == c1[..d.start] + c1[d.start + k1..]
    ensures var c, k := Contents(d.vec), Remaining(d);
            [Next(d).0.value] + xs == c[d.start..d.start + k] && Contents(v) == c[..d.start] + c[d.start + k..]
  {
    RemoveShiftsRange(Contents(d.vec), d.start, Remaining(d), xs, Contents(v));
  }

  /** Removing the element at `s` moves the `k - 1` after it down by one, so
      what the rest of the drain yields and keeps, read on the shorter vector,
      completes to the range and remainder of the longer one. */
  lemma RemoveShiftsRange<T>(c: seq<T>, s: nat, k: nat, xs: seq<T>, rest: seq<T>)
    requires 0 < k && s + k <= |c|
    requires var c1 := c[..s] + c[s + 1..];
             xs == c1[s..s + k - 1] && rest == c1[..s] + c1[s + k - 1..]
    ensures [c[s]] + xs == c[s..s + k]
    ensures rest == c[..s] + c[s + k..]
  {
    var c1 := c[..s] + c[s + 1..];
    assert c1[s..s + k - 1] == c[s + 1..s + k];
    assert c1[..s] == c[..s];
    assert c1[s + k - 1..] == c[s + k..];
  }

  /** `drop`: the vector once the drain is gone. */
  function Drop<T>(d: Drain<T>): (r: PVec<T>)
    requires Inv(d)
    ensures r.arena.header <= |r.arena.slots|
    ensures Contents(r) == Contents(d.vec)[..d.start] + Contents(d.vec)[d.start + Remaining(d)..]
  {
    Exhaust(d).1
  }

  /** `n` calls of `next`, the drain then kept. */
  function NextN<T>(d: Drain<T>, n: nat): (r: Drain<T>)
    requires Inv(d)
    ensures Inv(r)
    decreases n
  {
    if n == 0 then d else NextN(Next(d).1, n - 1)
  }

  /** A drain yields `old[start..=end]` in order, and the vector keeps
      `old[..start] ++ old[end+1..]`. */
  lemma DrainYieldsRange<T>(v: PVec<T>, lo: Bound, hi: Bound)
    requires v.arena.header <= |v.arena.slots|
    requires New(v, lo, hi).Ok?
    ensures var d, e := New(v, lo, hi).value, EndIndex(hi, Len(v)).value;
            var (items, rest) := Exhaust(d);
            items == Contents(v)[StartIndex(lo)..e + 1]
            && Contents(rest) == Contents(v)[..StartIndex(lo)] + Contents(v)[e + 1..]
  {
  }

  /** Dropping a drain after any number of `next` calls leaves the same vector
      as draining it completely. */
  lemma {:induction false} EarlyDropSameVector<T>(d: Drain<T>, n: nat)
    requires Inv(d)
    ensures Contents(Drop(NextN(d, n))) == Contents(Drop(d))
    decreases n
  {
    if n > 0 {
      var (x, d1) := Next(d);
      EarlyDropSameVector(d1, n - 1);
      if x.Some? {
        assert Exhaust(d).1 == Exhaust(d1).1;
      }
    }
  }

  /** A vector whose elements are `0, 1, 2, 3, 4`, as `with_iter(0..5)`
      leaves it. */
  predicate HoldsZeroToFour(v: PVec<int>) {
    v.arena.header <= |v.arena.slots| && Contents(v) == [0, 1, 2, 3, 4]
  }

  /** The `drain_inclusive` scenario: `drain(1..=3)` yields `1, 2, 3`. */
  lemma DrainInclusive(v: PVec<int>)
    requires HoldsZeroToFour(v)
    ensures New(v, Included(1), Included(3)).Ok?
            && Exhaust(New(v, Included(1), Included(3)).value).0 == [1, 2, 3]
  {
    DrainYieldsRange(v, Included(1), Included(3));
    assert Contents(v)[1..4] == [1, 2, 3];
  }

  /** The `drain_exclusive` scenario: `drain(1..3)` yields `1, 2`. */
  lemma DrainExclusive(v: PVec<int>)
    requires HoldsZeroToFour(v)
    ensures New(v, Included(1), Excluded(3)).Ok?
            && Exhaust(New(v, Included(1), Excluded(3)).value).0 == [1, 2]
  {
    DrainYieldsRange(v, Included(1), Excluded(3));
    assert Contents(v)[1..3] == [1, 2];
  }

  /** The `drain_full` scenario: `drain(..)` yields every element and leaves
      the vector empty. */
  lemma DrainFull(v: PVec<int>)
    requires HoldsZeroToFour(v)
    ensures New(v, Unbounded, Unbounded).Ok?
    ensures var (items, rest) := Exhaust(New(v, Unbounded, Unbounded).value);
            items == [0, 1, 2, 3, 4] && Contents(rest) == []
  {
    DrainYieldsRange(v, Unbounded, Unbounded);
    assert Contents(v)[0..5] == Contents(v);
  }
}

=== FILE: vec_split.dfy ===
/** `Split` and `SplitMut` (persist/persisted_vec.rs): views of a vector's
    elements as consecutive chunks of `k` elements, the last possibly
    shorter. `SplitMut` guards each chunk with an access counter: 0 means
    free, 1 means lent to a writer, a negative value counts the readers.

    Both views see the vector only through its slice of elements `src`.
 */
module VecSplit {
  import opened Wrappers
  import opened Arith

  /** `split_count` (and `Split::len`): `len / k`, plus one when a shorter
      chunk is left over; a chunk size of 0 divides by zero. */
  function SplitCount(len: nat, k: nat): (r: Result<nat, Panic>)
    ensures r.Err? <==> k == 0
    ensures r.Err? ==> r.error == DivisionByZero
    ensures r.Ok? ==> r.value * k >= len
    ensures r.Ok? && r.value > 0 ==> (r.value - 1) * k < len
  {
    if k == 0 then Err(DivisionByZero)
    else
      CeilingBounds(len, k);
      if len % k == 0 then Ok(len / k) else Ok(len / k + 1)
  }

  /** Where the multiples of `k` around `len` lie, by the remainder. */
  lemma CeilingBounds(len: nat, k: nat)
    requires k > 0
    ensures len % k == 0 ==> (len / k) * k == len
    ensures len % k == 0 && len / k > 0 ==> (len / k - 1) * k < len
    ensures len % k != 0 ==> (len / k + 1) * k > len && (len / k) * k < len
  {
    var q, rem := len / k, len % k;
    assert len == k * q + rem;
    assert (q + 1) * k == q * k + k;
    if q > 0 {
      assert (q - 1) * k == q * k - k;
    }
  }

  /** The smallest count of `k`-chunks that covers `len` elements is unique. */
  lemma {:induction false} CeilingIsLeast(len: nat, k: nat, n: nat)
    requires k > 0
    requires n * k >= len && (n == 0 || (n - 1) * k < len)
    ensures SplitCount(len, k) == Ok(n)
  {
    var m := SplitCount(len, k).value;
    if m < n {
      MulMonotone(m, n - 1, k);
      assert false;
    } else if n < m {
      MulMonotone(n, m - 1, k);
      assert false;
    }
  }

  /** The chunk bounds of index `i`: `[i*k, min(len, (i+1)*k))`. */
  function Lower(i: nat, k: nat): nat {
    i * k
  }

  function Upper(len: nat, i: nat, k: nat): nat {
    if (i + 1) * k < len then (i + 1) * k else len
  }

  /** `Split::get(i)`: the `i`-th chunk, if it starts inside the elements. */
  function Get<T>(src: seq<T>, k: nat, i: nat): (r: Option<seq<T>>)
    ensures r.Some? <==> i * k < |src|
    ensures r.Some? ==> |r.value| <= k
    ensures r.Some? && k > 0 ==> |r.value| > 0
    ensures r.Some? ==> i * k + |r.value| <= |src|
    ensures r.Some? ==> forall j :: 0 <= j < |r.value| ==> r.value[j] == src[i * k + j]
  {
    var lower, upper := Lower(i, k), Upper(|src|, i, k);
    MulDistributes(k, i, 1);
    if lower < |src| then Some(src[lower..upper]) else None
  }

  /** A chunk exists exactly for the indices below the split count. */
  lemma ChunkExistsBelowCount<T>(src: seq<T>, k: nat, i: nat)
    requires k > 0
    ensures Get(src, k, i).Some? <==> i < SplitCount(|src|, k).value
  {
    var n := SplitCount(|src|, k).value;
    if i < n {
      MulMonotone(i, n - 1, k);
    } else {
      MulMonotone(n, i, k);
    }
  }

  /** `into_iter` of a split: the chunks of indices `i .. n`, in order. */
  function Chunks<T>(src: seq<T>, k: nat, i: nat, n: nat): seq<seq<T>>
    decreases n - i
  {
    if i >= n then []
    else
      match Get(src, k, i)
      case Some(chunk) => [chunk] + Chunks(src, k, i + 1, n)
      case None => Chunks(src, k, i + 1, n)
  }

  function Flatten<T>(ss: seq<seq<T>>): seq<T> {
    if ss == [] then [] else ss[0] + Flatten(ss[1..])
  }

  /** Read in order, the chunks from index `i` on are the elements from
      `i*k` on. */
  lemma {:induction false} ChunksFrom<T>(src: seq<T>, k: nat, i: nat)
    requires k > 0
    requires i <= SplitCount(|src|, k).value
    ensures var n := SplitCount(|src|, k).value;
            Flatten(Chunks(src, k, i, n)) == src[if i * k < |src| then i * k else |src|..]
    decreases SplitCount(|src|, k).value - i
  {
    var n := SplitCount(|src|, k).value;
    if i < n {
      ChunkExistsBelowCount(src, k, i);
      MulDistributes(k, i, 1);
      ChunksFrom(src, k, i + 1);
      ChunkExistsBelowCount(src, k, i + 1);
      var chunk := Get(src, k, i).value;
      assert chunk == src[i * k..Upper(|src|, i, k)];
      assert src[i * k..] == chunk + src[Upper(|src|, i, k)..];
    } else {
      MulMonotone(n, i, k);
    }
  }

  /** The split's chunks, read in order, are exactly the vector's elements. */
  lemma ChunksCoverElements<T>(src: seq<T>, k: nat)
    requires k > 0
    ensures Flatten(Chunks(src, k, 0, SplitCount(|src|, k).value)) == src
  {
    ChunksFrom(src, k, 0);
  }

  /** The `split` scenario: 1000 elements in chunks of 100 make 10 chunks,
      and chunk `i` starts with element `i * 100`. */
  lemma SplitScenario(src: seq<int>, i: nat)
    requires |src| == 1000 && forall j :: 0 <= j < 1000 ==> src[j] == j
    requires i < 10
    ensures SplitCount(|src|, 100) == Ok(10)
    ensures Get(src, 100, i).Some? && Get(src, 100, i).value[0] == i * 100
  {
    CeilingIsLeast(1000, 100, 10);
  }

  // ---------------------------------------------------------------------------
  // SplitMut

  datatype SplitMut<T> = SplitMut(src: seq<T>, k: nat, access: seq<int>)

  /** A chunk size above 0, one counter per chunk, and no counter above 1
      (the writer mark). */
  predicate Valid<T>(s: SplitMut<T>) {
    && s.k > 0
    && |s.access| == SplitCount(|s.src|, s.k).value
    && forall j :: 0 <= j < |s.access| ==> s.access[j] <= 1
  }

  /** `SplitMut::new(src, k)`: one free counter per chunk. */
  function NewSplitMut<T>(src: seq<T>, k: nat): (r: Result<SplitMut<T>, Panic>)
    ensures r.Err? <==> k == 0
    ensures r.Err? ==> r.error == DivisionByZero
    ensures r.Ok? ==> Valid(r.value) && r.value.src == src
    ensures r.Ok? ==> forall j :: 0 <= j < |r.value.access| ==> r.value.access[j] == 0
  {
    match SplitCount(|src|, k)
    case Err(e) => Err(e)
    case Ok(n) => Ok(SplitMut(src, k, Fill(n, 0)))
  }

  /** The index of a chunk that starts inside the elements has a counter. */
  lemma InRangeHasCounter<T>(s: SplitMut<T>, i: nat)
    requires Valid(s) && i * s.k < |s.src|
    ensures i < |s.access|
  {
    ChunkExistsBelowCount(s.src, s.k, i);
  }

  /** Chunk `i`'s counter set to `c`, the others kept. */
  function SetCounter<T>(s: SplitMut<T>, i: nat, c: int): (r: SplitMut<T>)
    requires Valid(s) && i < |s.access| && c <= 1
    ensures Valid(r) && r.src == s.src && r.k == s.k && r.access == s.access[i := c]
  {
    s.(access := s.access[i := c])
  }

  /** `read(i)`: a shared view of chunk `i`, granted when the chunk exists
      and is not lent to a writer; the counter then records one more
      reader. */
  function Read<T>(s: SplitMut<T>, i: nat): (r: (Option<seq<T>>, SplitMut<T>))
    requires Valid(s)
    ensures Valid(r.1) && r.1.src == s.src && r.1.k == s.k
    ensures r.0.Some? <==> i * s.k < |s.src| && s.access[i] <= 0
    ensures r.0.Some? ==> r.0 == Get(s.src, s.k, i) && r.1.access == s.access[i := s.access[i] - 1]
    ensures r.0.None? ==> r.1 == s
  {
    if i * s.k < |s.src| then
      InRangeHasCounter(s, i);
      if s.access[i] <= 0 then
        (Get(s.src, s.k, i), SetCounter(s, i, s.access[i] - 1))
      else
        (None, s)
    else
      (None, s)
  }

  /** `write(i)`: an exclusive view of chunk `i`, granted only when the
      chunk exists and its counter is 0; the counter becomes 1. */
  function Write<T>(s: SplitMut<T>, i: nat): (r: (Option<seq<T>>, SplitMut<T>))
    requires Valid(s)
    ensures Valid(r.1) && r.1.src == s.src && r.1.k == s.k
    ensures r.0.Some? <==> i * s.k < |s.src| && s.access[i] == 0
    ensures r.0.Some? ==> r.0 == Get(s.src, s.k, i) && r.1.access == s.access[i := 1]
    ensures r.0.None? ==> r.1 == s
  {
    if i * s.k < |s.src| then
      InRangeHasCounter(s, i);
      if s.access[i] == 0 then
        (Get(s.src, s.k, i), SetCounter(s, i, 1))
      else
        (None, s)
    else
      (None, s)
  }

  /** Once a writer holds chunk `i`, neither a reader nor another writer
      gets it. */
  lemma WriteExcludes<T>(s: SplitMut<T>, i: nat)
    requires Valid(s) && Write(s, i).0.Some?
    ensures var s1 := Write(s, i).1;
            Read(s1, i).0.None? && Write(s1, i).0.None?
  {
    var s1 := Write(s, i).1;
    assert s1.access[i] == 1;
  }

  /** Once a reader holds chunk `i`, a writer does not get it but another
      reader does. */
  lemma ReadSharesButExcludesWrite<T>(s: SplitMut<T>, i: nat)
    requires Valid(s) && Read(s, i).0.Some?
    ensures var s1 := Read(s, i).1;
            Write(s1, i).0.None? && Read(s1, i).0.Some?
  {
    var s1 := Read(s, i).1;
    assert i < |s.access|;
    assert s1.access[i] == s.access[i] - 1 < 0;
  }

  /** Access to one chunk never changes another chunk's counter, so distinct
      chunks can be held by different writers at once. */
  lemma ChunksIndependent<T>(s: SplitMut<T>, i: nat, j: nat)
    requires Valid(s) && i != j && j < |s.access|
    ensures Read(s, i).1.access[j] == s.access[j]
    ensures Write(s, i).1.access[j] == s.access[j]
    ensures Write(Write(s, i).1, j).0.Some? <==> Write(s, j).0.Some?
  {
  }

  /** The `split_mut` scenario: 100 elements in chunks of 50 make two chunks,
      and both can be written at once. */
  lemma SplitMutScenario(src: seq<int>)
    requires |src| == 100
    ensures NewSplitMut(src, 50).Ok?
    ensures var s := NewSplitMut(src, 50).value;
            |s.access| == 2
            && Write(s, 0).0.Some?
            && Write(Write(s, 0).1, 1).0.Some?
  {
    CeilingIsLeast(100, 50, 2);
  }

  /** The first half of the `split_protects_data` scenario: after `write(0)`,
      both `write(0)` and `read(0)` fail. The second half expects `read(0)` to
      succeed once the writer's slice has gone out of scope. A write sets the
      counter to 1 and a read moves it below 0, but nothing ever returns a
      counter to 0, so chunk 0 stays lent to the writer. */
  lemma SplitProtectsDataAsWritten(src: seq<int>)
    requires |src| == 100
    ensures NewSplitMut(src, 50).Ok?
    ensures var s := NewSplitMut(src, 50).value;
            var s1 := Write(s, 0).1;
            Write(s, 0).0.Some?
            && Write(s1, 0).0.None?
            && Read(s1, 0).0.None?
            && Read(Read(s1, 0).1, 0).0.None?
  {
    CeilingIsLeast(100, 50, 2);
  }

  /** Giving back what `read(i)` / `write(i)` lent: the release a guard's
      drop would perform, so that a chunk is free again once its borrows
      end. */
  function Release<T>(s: SplitMut<T>, i: nat): (r: SplitMut<T>)
    requires Valid(s)
    ensures Valid(r) && r.src == s.src && r.k == s.k
    ensures i < |s.access| && s.access[i] == 1 ==> r.access == s.access[i := 0]
    ensures i < |s.access| && s.access[i] < 0 ==> r.access == s.access[i := s.access[i] + 1]
    ensures i >= |s.access| || s.access[i] == 0 ==> r == s
  {
    if i < |s.access| && s.access[i] == 1 then s.(access := s.access[i := 0])
    else if i < |s.access| && s.access[i] < 0 then s.(access := s.access[i := s.access[i] + 1])
    else s
  }

  /** Releasing a chunk a writer got back gives the split before the write. */
  lemma ReleaseUndoesWrite<T>(s: SplitMut<T>, i: nat)
    requires Valid(s) && Write(s, i).0.Some?
    ensures Release(Write(s, i).1, i) == s
  {
    var s1 := Write(s, i).1;
    assert i < |s.access| && s.access[i] == 0;
    assert s1.access == s.access[i := 1];
    assert s1.access[i := 0] == s.access;
  }

  /** Releasing a chunk a reader got back gives the split before the read. */
  lemma ReleaseUndoesRead<T>(s: SplitMut<T>, i: nat)
    requires Valid(s) && Read(s, i).0.Some?
    ensures Release(Read(s, i).1, i) == s
  {
    var s1 := Read(s, i).1;
    assert i < |s.access| && s.access[i] <= 0;
    assert s1.access == s.access[i := s.access[i] - 1];
    assert s1.access[i := s.access[i]] == s.access;
  }

  /** With releases, the whole `split_protects_data` scenario holds: once the
      writer's slice is released, readers get chunk 0, and a writer does not
      while they hold it. */
  lemma SplitProtectsDataReleased(src: seq<int>)
    requires |src| == 100
    ensures NewSplitMut(src, 50).Ok?
    ensures var s0 := NewSplitMut(src, 50).value;
            var s1 := Write(s0, 0).1;
            var s2 := Release(s1, 0);
            var s3 := Read(s2, 0).1;
            Write(s0, 0).0.Some? && Write(s1, 0).0.None? && Read(s1, 0).0.None?
            && Read(s2, 0).0.Some? && Write(s3, 0).0.None? && Read(s3, 0).0.Some?
  {
    CeilingIsLeast(100, 50, 2);
    var s0 := NewSplitMut(src, 50).value;
    assert Write(s0, 0).0.Some?;
    ReleaseUndoesWrite(s0, 0);
    WriteExcludes(s0, 0);
    ReadSharesButExcludesWrite(s0, 0);
  }
}

=== FILE: wrappers.dfy ===
/** Failure-carrying datatypes shared by every module of the model:
    `Option` for Rust's `Option`, `Result` for Rust's `Result`, and
    `Panic` for the ways the storage code aborts on caller errors.
 */
module Wrappers {

  datatype Option<+T> = None | Some(value: T)

  datatype Result<+R, +E> = Ok(value: R) | Err(error: E)

  /** The reasons a modelled operation panics instead of returning. */
  datatype Panic =
    | IndexOutOfBounds      // `remove`, `Index<usize>`, a slot access past the end
    | StartAfterEnd         // `drain` with `start > end`
    | EndOutOfRange         // `drain` with `end >= len` (or `end > len` for `Vec::drain`)
    | ArithmeticOverflow    // a `usize` subtraction below zero
    | DivisionByZero        // a split size of zero
    | ArenaTooSmall         // `assert_can_contain` on an arena shorter than one word
    | EmptyName             // `new_id_node` with an empty name
    | NoSuchField           // `Index<&str>` of a schema without that field

  /** All elements of `s` equal to `x`: the zero bytes of a fresh mapping, the
      default slots of a freshly extended file. */
  function Fill<T>(n: nat, x: T): (r: seq<T>)
    ensures |r| == n
    ensures forall i :: 0 <= i < n ==> r[i] == x
  {
    if n == 0 then [] else Fill(n - 1, x) + [x]
  }

  /** `s` cut or padded with `x` to exactly `n` elements: what `File::set_len`
      does to a file's contents. */
  function Resize<T>(s: seq<T>, n: nat, x: T): (r: seq<T>)
    ensures |r| == n
    ensures forall i :: 0 <= i < n && i < |s| ==> r[i] == s[i]
    ensures forall i :: |s| <= i < n ==> r[i] == x
  {
    if n <= |s| then s[..n] else s + Fill(n - |s|, x)
  }
}
